=== FILE: README.md ===
# impactX code-health service, modelled in Dafny

impactX takes a GitHub repository URL and clones the repository. It reads the text files, embeds chunks of them into a vector store, and asks a Gemini model for a code-health report. The report is stored per analysis job. This project models the deterministic core of that backend and proves properties of it:

- **Settings** (`Config`): the chunking constants, and the loading of the Gemini API keys from the environment.
- **Report records** (`Schemas`):
  - the report record with its score bound (`Score`, 0 to 100);
  - its item records;
  - validation of stored JSON, and dumping a report back to JSON.
- **Tables** (`Database`): the job table, and the report table with its one-report-per-job constraint.
- **Repository reading** (`GitHub`, `Manifests`):
  - the file filter and language counting;
  - the parsers for `requirements.txt`, `package.json` and `go.mod`;
  - the Maven and Cargo placeholders.
- **Retrieval bookkeeping** (`RagIndex`, `RagSamples`):
  - collection names;
  - chunk ids and metadata;
  - the representative-sample selector.
- **Model-side helpers** (`Llm`):
  - round-robin key rotation;
  - sample formatting and truncation;
  - extraction of fenced JSON from replies;
  - building the report from a reply, with defaults and a fallback.
- **Cleanup** (`Cleanup`): the retention tick, manual cleanup and the cleanup statistics.
- **Job orchestration** (`Routes`):
  - the single-flight lock;
  - submission;
  - the background run, over abstract stage outcomes;
  - the status and report queries;
  - the invariant all of these keep.

Throughout the model, the outside world is replaced by inputs:

- The text splitter, the vector store, the embedding model, git, the filesystem and the language model are inputs. So are `json.loads`, the clock and the environment.
- Each stage that can raise is a `Result`.
- A background run records the side effects it performs, in order, so that their order can be stated.

Support modules:

- `Wrappers` holds `Option` and `Result`.
- `Text` holds the Python string operations the code relies on: `strip`, `split`, `lower`, `in`, `str(int)`.
- `Sorting` holds a stable sort.

## Model

| member | source | states |
|---|---|---|
| Config.NumberedKeysRun | backend/app/config.py:56-63 | The loaded keys are `GOOGLE_API_KEY_1`, `GOOGLE_API_KEY_2`, ... in order, each truthy. The first index whose variable is missing or empty ends the list. |
| Config.KeyNameInjective | backend/app/config.py:58 | Different indices probe different variable names. |
| Config.InitSettings | backend/app/config.py:53-72 | Construction fails with the `ValueError` text exactly when the list is still empty after the numbered keys and the single-key fallback. Otherwise the key list is non-empty. |
| Config.FallbackOnlyWhenNoNumberedKey | backend/app/config.py:53-72 | With earlier keys in the list, or a truthy `GOOGLE_API_KEY_1`, construction keeps the earlier keys and appends the values of `GOOGLE_API_KEY_1`, `GOOGLE_API_KEY_2`, ... in order, up to the first missing or empty one. `GOOGLE_API_KEY` is used only when the list is empty and `GOOGLE_API_KEY_1` is missing or empty. |
| Config.SecondConstructionReappends | backend/app/config.py:16 | The key list is a class attribute, so a second `Settings()` appends the numbered keys again. |
| Schemas.NewReport | backend/app/models/schemas.py:50-62 | With only the score and the summary given, the three lists are empty and every metadata field is `None`. |
| Schemas.Get | backend/app/models/schemas.py:50 | A looked-up field is present with that value. An absent field matches no entry. |
| Schemas.StrField | backend/app/models/schemas.py:56 | A required string field validates exactly when present as a string. A missing one is reported as missing. |
| Schemas.OptStrField | backend/app/models/schemas.py:30-31 | An optional string field is `None` when absent or null. A string value is kept. Any other value is rejected. |
| Schemas.OptIntField | backend/app/models/schemas.py:61-62 | An optional integer field is `None` when absent. A value it returns is the number in the JSON. |
| Schemas.ScoreField | backend/app/models/schemas.py:52 | The score is accepted exactly when it is a number within 0 to 100 inclusive, and is then that number. |
| Schemas.QuadFrom | backend/app/models/schemas.py:26-47 | A record lacking either required field fails. A built record carries the JSON's values, with absent optional fields as `None`. |
| Schemas.VulnerabilityFrom | backend/app/models/schemas.py:26-31 | `severity` and `description` are required. `affected_component` and `recommendation` default to `None`. |
| Schemas.TechDebtFrom | backend/app/models/schemas.py:34-39 | `category` and `description` are required. `file_path` and `priority` default to `None`. |
| Schemas.ModernizationFrom | backend/app/models/schemas.py:42-47 | `type` and `description` are required. `rationale` and `effort_estimate` default to `None`. |
| Schemas.QuadRoundTrip | backend/app/models/schemas.py:26-47 | Dumping an item and validating it again gives the item back. |
| Schemas.ItemRoundTrips | backend/app/models/schemas.py:26-47 | Each of the three item kinds survives a dump and a re-validation unchanged. |
| Schemas.QuadList | backend/app/models/schemas.py:53-55 | A validated list has one record per array element, each validated from that element. |
| Schemas.QuadListRoundTrip | backend/app/models/schemas.py:53-55 | An array of dumped records validates back to the same records. |
| Schemas.ListField | backend/app/models/schemas.py:53-55 | An absent list field defaults to the empty list. A present one must be an array of the same length. |
| Schemas.CountsField | backend/app/models/schemas.py:59 | An absent language map is `None`. A read map is exactly the JSON object it came from. |
| Schemas.Counts | backend/app/models/schemas.py:59 | A read language map dumps back to the object it was read from. |
| Schemas.CountsRoundTrip | backend/app/models/schemas.py:59 | A dumped language map reads back unchanged. |
| Schemas.Strings | backend/app/models/schemas.py:60 | A read string list dumps back to the array it was read from. |
| Schemas.StringsRoundTrip | backend/app/models/schemas.py:60 | A dumped string list reads back unchanged. |
| Schemas.DependencyEntries | backend/app/models/schemas.py:60 | A read dependency map has one entry per JSON field, under the same names. |
| Schemas.DependenciesRoundTrip | backend/app/models/schemas.py:60 | A dumped dependency map reads back unchanged. |
| Schemas.DependenciesField | backend/app/models/schemas.py:60 | An absent dependency map is `None`. A present one must be an object. |
| Schemas.BodyFrom | backend/app/models/schemas.py:52-56 | The score and the summary are required and are taken from the JSON. An absent list defaults to empty. |
| Schemas.MetaFrom | backend/app/models/schemas.py:59-62 | Absent metadata fields are `None`. |
| Schemas.ReportFromJson | backend/app/models/schemas.py:50-62 | A non-object fails. Otherwise validation succeeds exactly when the body and the metadata both do. |
| Schemas.ReportFieldsDistinct | backend/app/models/schemas.py:52-62 | The nine field names are distinct. |
| Schemas.DumpedField | backend/app/models/schemas.py:52-62 | Each field of a dumped report is found under its name, with the dumped value. |
| Schemas.DumpedBodyFields | backend/app/models/schemas.py:52-56 | A dumped report carries its five body fields under their names. |
| Schemas.DumpedMetaFields | backend/app/models/schemas.py:59-62 | A dumped report carries its four metadata fields under their names. |
| Schemas.BodyRoundTrip | backend/app/models/schemas.py:52-56 | Fields carrying a report's dumped body read back as that body. |
| Schemas.MetaRoundTrip | backend/app/models/schemas.py:59-62 | Fields carrying a report's dumped metadata read back as that metadata. |
| Schemas.VulnerabilitiesRoundTrip | backend/app/models/schemas.py:53 | Dumped vulnerabilities validate back to the same list. |
| Schemas.TechDebtRoundTrip | backend/app/models/schemas.py:54 | Dumped tech-debt items validate back to the same list. |
| Schemas.ModernizationRoundTrip | backend/app/models/schemas.py:55 | Dumped suggestions validate back to the same list. |
| Schemas.ReportRoundTrip | backend/app/models/schemas.py:50-62 | Validating the JSON a report dumps to gives back the same report. |
| Database.FindReport | backend/app/models/database.py:25-31 | No row is found exactly when no row has the job id. A found report is the JSON of a row of that job. |
| Database.AddReport | backend/app/models/database.py:30 | The insert is refused with the unique-constraint error exactly when the job already has a report. Otherwise the row is appended. |
| Database.AddReportKeepsOne | backend/app/models/database.py:30 | Accepted inserts keep one report per job. The new report is found for its job, and other jobs' reports are found as before. |
| Database.FindAppended | backend/app/models/database.py:30 | After an append, an earlier row for a job wins. The new row is found only for a job with no earlier row. |
| GitHub.Suffix | backend/app/services/github_service.py:75 | `Path.suffix` is empty, or a dot followed by dot-free text that ends the name and is shorter than it. |
| GitHub.SuffixOf | backend/app/services/github_service.py:75 | `stem.ext`, with a non-empty stem and a dot-free `ext`, has suffix `.ext`. |
| GitHub.RecordOf | backend/app/services/github_service.py:86-91 | A file record's size is the length of its content, and its extension is the lower-cased suffix. |
| GitHub.RepositoryFiles | backend/app/services/github_service.py:63-98 | At most one record per entry. Each record has `size == len(content)` and an allowed extension. |
| GitHub.RepositoryFilesMembership | backend/app/services/github_service.py:65-95 | A record is listed exactly when some entry is a file and no path part is a skipped directory. That entry's lower-cased suffix must be allowed, it must be readable, and the record must be its record. |
| GitHub.RepositoryFilesFrom | backend/app/services/github_service.py:65-95 | Every listed record is the record of an admitted, readable entry. |
| GitHub.RepositoryFilesHas | backend/app/services/github_service.py:65-95 | The record of every admitted, readable entry is listed. |
| GitHub.CloneRootNeverSkipped | backend/app/services/github_service.py:71 | The clone directory's own path parts never cause a skip. |
| GitHub.RecordPathParts | backend/app/services/github_service.py:84-87 | The stored relative path splits back into the entry's path parts. |
| GitHub.LanguageMapDistinct | backend/app/services/github_service.py:110-128 | The language table maps each extension once. |
| GitHub.LanguageOfTable | backend/app/services/github_service.py:133 | A listed extension maps to its language. Any other extension `e` maps to `Other (e)`. |
| GitHub.LookupIn | backend/app/services/github_service.py:133 | `dict.get` returns the default for an absent key, and otherwise the value of the first entry with that key. |
| GitHub.FirstSeen | backend/app/services/github_service.py:134 | The position of an element's first occurrence. |
| GitHub.FirstSeenAppend | backend/app/services/github_service.py:134 | Appending does not move an earlier element's first sighting. |
| GitHub.FirstSeenNew | backend/app/services/github_service.py:134 | A new element is first seen at the end. |
| GitHub.OrderedKeysDistinct | backend/app/services/github_service.py:134 | Keys listed in first-seen order are distinct. |
| GitHub.BumpOrdered | backend/app/services/github_service.py:134 | Counting one more language keeps the keys in first-seen order. |
| GitHub.BumpCovers | backend/app/services/github_service.py:134 | Counting one more language keeps every language seen a key. |
| GitHub.BumpCounted | backend/app/services/github_service.py:134 | Counting one more language adds one to its count and leaves the others. |
| GitHub.TallyIsTally | backend/app/services/github_service.py:130-134 | The counting loop builds a histogram: each language once, in first-seen order, with its number of occurrences. |
| GitHub.TallySum | backend/app/services/github_service.py:130-134 | The counts add up to the number of files counted. |
| GitHub.LanguagesOf | backend/app/services/github_service.py:131-133 | Each file's language, in file order. |
| GitHub.ByCount | backend/app/services/github_service.py:136 | Sorting keeps the number of entries. |
| GitHub.ByCountSameEntries | backend/app/services/github_service.py:136 | Sorting by count keeps exactly the histogram's entries. |
| GitHub.ByCountOrder | backend/app/services/github_service.py:136 | Counts do not increase along the sorted map, and entries with equal counts keep their original relative order. |
| GitHub.ByCountSum | backend/app/services/github_service.py:136 | Sorting keeps the total count. |
| GitHub.ByCountCounts | backend/app/services/github_service.py:136 | A sorted histogram is still a histogram of the same languages. |
| GitHub.ByCountTies | backend/app/services/github_service.py:136 | Languages with equal counts stay in the order their first file was seen. |
| GitHub.SortedTally | backend/app/services/github_service.py:130-136 | The sorted histogram lists each language once with its count, larger counts first. Ties are in first-seen order, and the total is the number of files. |
| GitHub.DetectLanguagesSpec | backend/app/services/github_service.py:100-136 | `detect_languages` lists every language of the files once, with its file count. Larger counts come first, ties stay in first-seen order, and the counts sum to the number of files. |
| Manifests.OperatorShape | backend/app/services/github_service.py:160 | Each version operator is an operator character followed by `=`. |
| Manifests.CutAll | backend/app/services/github_service.py:160 | Cutting at each operator in turn leaves a prefix of the line. |
| Manifests.CutAllFree | backend/app/services/github_service.py:160 | After the cuts, no operator is left. |
| Manifests.StripCut | backend/app/services/github_service.py:157-160 | The stripped result is a prefix of the stripped line and contains no operator. |
| Manifests.RequirementName | backend/app/services/github_service.py:157-160 | A requirement's name is a prefix of the stripped line, with no `==`, `>=`, `<=` or `~=`, and is itself stripped. |
| Manifests.IndexOfPinned | backend/app/services/github_service.py:160 | In `name<op>version`, an operator occurs only if it is `op`, right after the name. |
| Manifests.CutAllOperatorFree | backend/app/services/github_service.py:160 | Cutting text without operators changes nothing. |
| Manifests.CutAllPinned | backend/app/services/github_service.py:160 | Cutting `name<op>version` leaves the name. |
| Manifests.RequirementNamePinned | backend/app/services/github_service.py:156-161 | A pinned requirement `name<op>version` yields `name`, and a bare `name` yields itself. |
| Manifests.RequirementEntry | backend/app/services/github_service.py:157-161 | One line appends at most one name. |
| Manifests.RequirementLinesSpec | backend/app/services/github_service.py:156-162 | Lines are handled independently. A line contributes its name exactly when, after stripping, it is neither blank nor a `#` comment. |
| Manifests.EachLineAppend | backend/app/services/github_service.py:156 | The per-line loop over concatenated lines concatenates the results. |
| Manifests.GoEntryDefined | backend/app/services/github_service.py:194-196 | A stripped line starting with `require ` always yields a whitespace-free token, so `split()[0]` never fails. |
| Manifests.GoLineEntryDefined | backend/app/services/github_service.py:193-197 | Every go.mod line is handled without raising and appends single tokens. |
| Manifests.EachLineOrRaiseTokens | backend/app/services/github_service.py:190-200 | A loop whose every line succeeds with tokens succeeds with tokens. |
| Manifests.GoLinesDefined | backend/app/services/github_service.py:190-198 | The go.mod loop never raises, and every entry is a single token. |
| Manifests.GoEntryModule | backend/app/services/github_service.py:195-197 | `require module version` yields the module path. |
| Manifests.GoEntryBlock | backend/app/services/github_service.py:195-197 | The block opener `require (` yields `(`. |
| Manifests.JsonIn | backend/app/services/github_service.py:174-177 | Python's `in` fails exactly on a number, boolean or null. |
| Manifests.ObjectKeysSpec | backend/app/services/github_service.py:175-177 | `.keys()` lists each key of the object once, in first-occurrence order. |
| Manifests.PackageDependenciesObjects | backend/app/services/github_service.py:173-178 | The list holds the `dependencies` keys, then the `devDependencies` keys. |
| Manifests.PackageDependenciesNone | backend/app/services/github_service.py:173-178 | A manifest with neither key gives an empty list, and the ecosystem is still present. |
| Manifests.PackageDependenciesNotObject | backend/app/services/github_service.py:174-180 | A non-object under either key raises, and the ecosystem is left out. |
| Manifests.PackageDependenciesScalar | backend/app/services/github_service.py:172-180 | A scalar manifest raises, and the ecosystem is left out. |
| Manifests.PackageDependenciesSequence | backend/app/services/github_service.py:172-180 | A list or string manifest lists nothing when it mentions neither key, and raises when it mentions one. |
| Manifests.GetPresence | backend/app/services/github_service.py:174 | A key is present exactly when the lookup finds it. |
| Manifests.EcosystemLists | backend/app/services/github_service.py:148-205 | There is one outcome per ecosystem, in the order they are tried. |
| Manifests.PresentFrom | backend/app/services/github_service.py:148-207 | The positions holding a value, increasing, and all of them. |
| Manifests.EcosystemListsSpec | backend/app/services/github_service.py:150-205 | `Python` is present exactly when `requirements.txt` exists and is readable. `JavaScript/Node` is present exactly when `package.json` exists and parses. `Java (Maven)` is present exactly when `pom.xml` exists. `Go` is present exactly when `go.mod` exists and is readable. `Rust` is present exactly when `Cargo.toml` exists. |
| Manifests.ParseDependenciesSpec | backend/app/services/github_service.py:148-207 | An ecosystem is listed exactly when its parser produced a list, with that list. Ecosystems are listed once each, in the order tried. |
| Manifests.EcosystemsDistinct | backend/app/services/github_service.py:162-205 | The five ecosystem names are distinct. |
| Manifests.EcosystemRank | backend/app/services/github_service.py:162-205 | The position of an ecosystem name. |
| RagIndex.Clean | backend/app/services/rag_service.py:61 | Cleaning keeps the length. Letters, digits, `_` and `-` stay, and anything else becomes `_`. |
| RagIndex.Prefix | backend/app/services/rag_service.py:62 | `s[:n]` is a prefix of at most `n` characters, and all of `s` when it is short. |
| RagIndex.SanitizeCollectionName | backend/app/services/rag_service.py:40-62 | A collection name has at most 63 characters, each a lower-case letter, digit, `_` or `-`. |
| RagIndex.SplitSlashParts | backend/app/services/rag_service.py:52-53 | There are at least two parts exactly when the stripped URL contains `/`. |
| RagIndex.PlainUnchanged | backend/app/services/rag_service.py:61-62 | Plain owner and repository names pass cleaning and lower-casing unchanged. |
| RagIndex.LastTwoParts | backend/app/services/rag_service.py:54-55 | The last two parts of `prefix/owner/rest` are `owner` and `rest`. |
| RagIndex.RepositoryUrlStem | backend/app/services/rag_service.py:52 | Stripping trailing slashes returns to the repository segment. |
| RagIndex.RepositorySegment | backend/app/services/rag_service.py:55 | Removing `.git` leaves the plain repository name. |
| RagIndex.RawRepositoryUrl | backend/app/services/rag_service.py:52-56 | A repository URL names its collection `{owner}_{repo}_{job_id}` before cleaning. |
| RagIndex.SanitizeRepositoryUrl | backend/app/services/rag_service.py:52-62 | `{prefix}/{owner}/{repo}` with or without `.git` and with any trailing slashes gives `{owner}_{repo}_{job_id}`. |
| RagIndex.DigitsPlain | backend/app/services/rag_service.py:56 | A job id's digits are plain. |
| RagIndex.RStripSlashes | backend/app/services/rag_service.py:52 | `rstrip('/')` removes exactly the trailing slashes. |
| RagIndex.PlainNoSlash | backend/app/services/rag_service.py:53 | A plain name has no `/`. |
| RagIndex.SlashFree | backend/app/services/rag_service.py:53 | Text none of whose characters is `/` does not contain `/`. |
| RagIndex.NoSlashConcat | backend/app/services/rag_service.py:53 | Joining slash-free texts gives slash-free text. |
| RagIndex.SanitizeBareUrl | backend/app/services/rag_service.py:52-58 | A URL with no `/` left after stripping gives `repo_{job_id}`. |
| RagIndex.FileMetas | backend/app/services/rag_service.py:120-127 | A file with `n` chunks gets `chunk_index` 0 to `n-1`, `total_chunks` n, its path, and its extension as language. |
| RagIndex.Ids | backend/app/services/rag_service.py:128-129 | The ids are consecutive `chunk_{k}` from the running counter. |
| RagIndex.AssembleBatch | backend/app/services/rag_service.py:99-133 | The loop with a running chunk counter builds the batch the specification describes. |
| RagIndex.AddFileChunks | backend/app/services/rag_service.py:120-129 | One file's chunks are appended in order, with `chunk_index` 0 to n-1, `total_chunks` n, and ids continuing the running counter, which ends n further on. |
| RagIndex.AssembleAligned | backend/app/services/rag_service.py:100-129 | Documents, metadata and ids have equal length, and the `k`-th id is `chunk_{k}`. |
| RagIndex.AssembleIdsUnique | backend/app/services/rag_service.py:128-129 | No two chunks share an id. |
| RagIndex.AssemblePrefix | backend/app/services/rag_service.py:107-133 | What is collected after some files is a prefix of what is collected after all of them. |
| RagIndex.LastFileBlock | backend/app/services/rag_service.py:117-129 | The last non-blank file's chunks end the batch, in order, with their metadata. |
| RagIndex.FileBlock | backend/app/services/rag_service.py:117-129 | A non-blank file owns a contiguous block of positions. The block holds its chunks in order, with `chunk_index` 0 to n-1, `total_chunks` n and its extension. |
| RagIndex.BlankFileSkipped | backend/app/services/rag_service.py:113-114 | A whitespace-only file contributes no chunk and no progress report. |
| RagIndex.ProgressPoints | backend/app/services/rag_service.py:132-133 | Progress is reported after file `k` exactly when a callback is given, the file is not blank, and `k` is a multiple of 10. Reports come in file order. |
| RagIndex.CreateEmbeddings | backend/app/services/rag_service.py:64-161 | The result is the sanitized collection name. Opening or counting the collection can raise whatever the batch is. Storing raises only when there are documents, since an empty batch is never stored. |
| RagSamples.Take | backend/app/services/rag_service.py:339-361 | The cut that the budget checks `len(samples) >= max_samples` (lines 339, 361) and `len(samples) < max_samples` (lines 355, 359) make, not a Python slice: a prefix of the candidates with `min(n, len)` elements, and none when `max_samples <= 0`, since the first check already breaks. |
| RagSamples.Contribution | backend/app/services/rag_service.py:349-356 | A file gives its first chunk, and its second only when the score is at least 10 and it has another chunk. |
| RagSamples.FirstPassTakes | backend/app/services/rag_service.py:338-356 | The first pass takes the files' contributions in rank order, cut at `max_samples`. |
| RagSamples.TakeAfterPrefix | backend/app/services/rag_service.py:339-340 | Stopping early once the budget is full does not change the cut. |
| RagSamples.FirstPassSeen | backend/app/services/rag_service.py:338-352 | After the first pass, either the budget is full or every file's directory was marked seen. |
| RagSamples.SecondPassIdle | backend/app/services/rag_service.py:359-374 | The second pass adds nothing when every file with more than two chunks has a seen directory. |
| RagSamples.SelectIsFirstPass | backend/app/services/rag_service.py:335-374 | The second pass never adds a sample. The selection is the contributions cut at `max_samples`. |
| RagSamples.ContributionsOrigin | backend/app/services/rag_service.py:349-356 | Each contributed chunk is a file's first chunk, or the second chunk of a file scoring at least 10. |
| RagSamples.ContributionsFrom | backend/app/services/rag_service.py:349-356 | Each contributed chunk belongs to some file. |
| RagSamples.ContributionsDistinct | backend/app/services/rag_service.py:349-356 | No chunk is contributed twice. |
| RagSamples.FindGroup | backend/app/services/rag_service.py:294 | The group found has the path, and none is found only when no group has it. |
| RagSamples.LabelledAppend | backend/app/services/rag_service.py:294-301 | A new path's first chunk opens a labelled group. |
| RagSamples.AddNewShape | backend/app/services/rag_service.py:294-301 | A new path opens a group at the end. |
| RagSamples.LabelledExtend | backend/app/services/rag_service.py:297-301 | Labels survive extending a path's group. |
| RagSamples.AddOldShape | backend/app/services/rag_service.py:297-301 | A known path's chunk goes at the end of its group. |
| RagSamples.AddToHolds | backend/app/services/rag_service.py:289-301 | After adding, every chunk is in its path's group. |
| RagSamples.AddToGrouping | backend/app/services/rag_service.py:289-301 | Adding the next chunk keeps a grouping. |
| RagSamples.FindGroupUnique | backend/app/services/rag_service.py:294 | With distinct paths, the group found is the one with the path. |
| RagSamples.GroupIsGrouping | backend/app/services/rag_service.py:289-301 | The grouping loop gives one group per path in first-seen order, holding exactly that path's chunks in collection order. |
| RagSamples.ChunkOrderSpec | backend/app/services/rag_service.py:346 | A file's chunks are sorted by chunk index, and equal indices keep collection order. |
| RagSamples.ChunkOrderDistinct | backend/app/services/rag_service.py:346 | The sorted chunks are listed once each. |
| RagSamples.EntryGroup | backend/app/services/rag_service.py:311-332 | Each ranked file is one group, with its score, directory and sorted chunks. |
| RagSamples.GroupRanked | backend/app/services/rag_service.py:311-332 | Every file is ranked. |
| RagSamples.EntriesAreGroups | backend/app/services/rag_service.py:311-346 | The ranked files are the groups, each with its score, directory and chunks in chunk order. |
| RagSamples.EntriesSeparate | backend/app/services/rag_service.py:289-332 | Ranked files share no chunk. |
| RagSamples.EntriesRanked | backend/app/services/rag_service.py:332 | Files come highest score first, equal scores in first-seen order. |
| RagSamples.Hits | backend/app/services/rag_service.py:317-319 | The number of keywords found, which is positive exactly when some keyword occurs. |
| RagSamples.ScoreParts | backend/app/services/rag_service.py:311-329 | The score's tens count the keywords in the lower-cased path. Its units are at least 5 exactly for a root-level path, and it is 3 modulo 5 exactly under a source directory. |
| RagSamples.ScoreDigits | backend/app/services/rag_service.py:317-327 | Tens and units of `10h + 5r + 3s`. |
| RagSamples.Paths | backend/app/services/rag_service.py:290-291 | One file path per chunk, defaulting to `unknown`. |
| RagSamples.RepresentativeSamples | backend/app/services/rag_service.py:248-387 | One chunk per selected position. |
| RagSamples.RankedFilesShape | backend/app/services/rag_service.py:289-346 | The ranked files of a collection are separate, and their chunks lie within it. |
| RagSamples.SamplesInRange | backend/app/services/rag_service.py:335-374 | The sample positions lie inside the collection. |
| RagSamples.SamplesSpec | backend/app/services/rag_service.py:335-383 | The samples are the files' contributions in rank order, cut at `max_samples`, with no chunk twice. Each is a file's first chunk, or the second chunk of a file scoring at least 10. |
| RagSamples.GroupMembers | backend/app/services/rag_service.py:289-301 | A path's group lists exactly the chunks holding that path. |
| RagSamples.PathGrouped | backend/app/services/rag_service.py:289-301 | Every path has a group. |
| RagSamples.RankedFilesSpec | backend/app/services/rag_service.py:289-346 | The ranked files are one per distinct path, highest score first, ties in first-seen order. Each has exactly its path's chunks, ordered by chunk index. |
| RagSamples.SamplesEmptyCases | backend/app/services/rag_service.py:265-287 | An unopenable collection, an empty one, a chunk without metadata or a non-positive budget gives `[]`. There are never more than `max_samples` samples. |
| Llm.NewKeyRing | backend/app/services/llm_service.py:14-20 | An empty key list raises. Otherwise the ring starts at the first key. |
| Llm.NextKey | backend/app/services/llm_service.py:24-33 | The current key is handed out, and the index advances by one modulo the number of keys, staying in range. |
| Llm.Draws | backend/app/services/llm_service.py:24-33 | `k` requests hand out `k` keys, and the index stays in range. |
| Llm.DivModUnique | backend/app/services/llm_service.py:32 | Euclidean division has one quotient and remainder. |
| Llm.ModSucc | backend/app/services/llm_service.py:32 | Advancing a remainder and wrapping gives the next number's remainder. |
| Llm.RoundRobin | backend/app/services/llm_service.py:24-33 | The `i`-th request from a fresh ring gets `keys[i mod n]`. After `k` requests the index is `k mod n`. |
| Llm.Truncate | backend/app/services/llm_service.py:139-141 | Content of at most 1200 characters is kept. Longer content is cut to its first 1200 characters and `"\n... (truncated)"` is appended. |
| Llm.Shown | backend/app/services/llm_service.py:131 | At most 20 samples are shown, and all of them when there are fewer. |
| Llm.Blocks | backend/app/services/llm_service.py:130-149 | One block per shown sample. |
| Llm.FormatSeesTwenty | backend/app/services/llm_service.py:131 | Samples beyond the twentieth do not change the formatted text. |
| Llm.BlockContents | backend/app/services/llm_service.py:131-149 | Block `k` is numbered `k+1`. It carries the sample's path, language and chunk index, defaulting to `unknown`, `unknown` and 0, and its truncated content. |
| Llm.ContainsSplits | backend/app/services/llm_service.py:210-213 | A separator that occurs splits the text into at least two pieces. |
| Llm.ExtractUnfenced | backend/app/services/llm_service.py:210-213 | A reply without a fence is used as it is. |
| Llm.ExtractJsonBlock | backend/app/services/llm_service.py:210-211 | A "```json" block gives its stripped body. |
| Llm.JsonPieceBody | backend/app/services/llm_service.py:211 | Cutting after "```json" at the next fence leaves the body. |
| Llm.JsonFenceAt | backend/app/services/llm_service.py:210 | Where "```json" occurs, character by character. |
| Llm.FenceNotBeforeTail | backend/app/services/llm_service.py:211 | A "```json" cannot straddle a fence that is not followed by a backquote. |
| Llm.ExtractPlainBlock | backend/app/services/llm_service.py:212-213 | A plain fenced block not starting with `json` gives its stripped body. |
| Llm.TickPositions | backend/app/services/llm_service.py:212-213 | Without other backquotes, the backquotes are exactly the two fences. |
| Llm.NoJsonFence | backend/app/services/llm_service.py:210 | Such a reply has no "```json", so the plain branch is taken. |
| Llm.NoJsonFenceAt | backend/app/services/llm_service.py:210 | No "```json" starts at any position of such a reply. |
| Llm.ReplyList | backend/app/services/llm_service.py:218-228 | An absent list is empty. An array is validated element by element. A non-empty result came from an array. |
| Llm.ReplyScore | backend/app/services/llm_service.py:231 | A missing score is 50.0. A present one is bound-checked by the report model. |
| Llm.ReplySummary | backend/app/services/llm_service.py:235 | A missing summary is `Analysis completed`. A present one must be a string. |
| Llm.ReportFromReply | backend/app/services/llm_service.py:215-240 | A non-object reply has no `get`. A built report carries the service's languages, dependencies, file count and time, never the reply's. |
| Llm.ReplyDefaults | backend/app/services/llm_service.py:218-240 | A reply naming no report field gives score 50.0, empty lists, `Analysis completed` and the service's metadata. |
| Llm.ReplyAcceptsStored | backend/app/services/llm_service.py:218-240 | Where the body validates as a stored report, the reply gives that body with the service's metadata. |
| Llm.ReplyRoundTrip | backend/app/services/llm_service.py:218-240 | A reply carrying a dumped report gives that report back, with the service's metadata. |
| Llm.FallbackReport | backend/app/services/llm_service.py:245-260 | The fallback has score 50.0 and empty lists. Its summary is the fallback prefix followed by the parser's message, and it carries the metadata. |
| Llm.PromptFor | backend/app/services/llm_service.py:187-204 | The prompt counts every sample and passes the languages, dependencies and file count through. |
| Llm.Outcome | backend/app/services/llm_service.py:196-264 | A raised call is raised again. A report produced carries the service's metadata. |
| Llm.GenerateHealthReport | backend/app/services/llm_service.py:153-264 | The key ring advances by one whatever happens. A report produced carries the given languages, dependencies, file count and time. |
| Llm.CurrentKeyDecides | backend/app/services/llm_service.py:181-204 | Only the current key and the prompt decide the result. |
| Llm.UndecodableGivesFallback | backend/app/services/llm_service.py:245-260 | A reply that does not decode gives the fallback report with the decoder's message, never an exception. |
| Llm.GenerateRoundTrip | backend/app/services/llm_service.py:196-243 | A "```json" block whose body decodes to a dumped report gives that report, with the given metadata. |
| Cleanup.EligibleIds | backend/app/services/cleanup_service.py:60-73 | A job is eligible exactly when it was created strictly before `now - retention` and is completed or failed. |
| Cleanup.Deletable | backend/app/services/cleanup_service.py:78-91 | Only clones of eligible jobs are removed. |
| Cleanup.DeleteDirectory | backend/app/services/cleanup_service.py:104-115 | A missing directory is a no-op. An existing one is removed, or the removal raises. |
| Cleanup.RunTick | backend/app/services/cleanup_service.py:75-91 | The clones removed are exactly those of eligible jobs whose removal succeeds, and nothing else on disk changes. `deleted` counts them, and `deleted + failed` is the number of eligible jobs with a clone. |
| Cleanup.VisitFresh | backend/app/services/cleanup_service.py:78 | A job not yet handled has not been counted. |
| Cleanup.VisitRemoved | backend/app/services/cleanup_service.py:81-84 | A removed clone is counted as deleted. |
| Cleanup.VisitStuck | backend/app/services/cleanup_service.py:89-90 | A clone that cannot be removed is counted as failed. |
| Cleanup.VisitAbsent | backend/app/services/cleanup_service.py:81 | A job with no clone is skipped. |
| Cleanup.TickTotals | backend/app/services/cleanup_service.py:75-91 | At the end, the removed clones are the deletable ones, and the counts add up to the eligible jobs with a clone. |
| Cleanup.CleanupOldRepositories | backend/app/services/cleanup_service.py:53-102 | The retention setting is read first. If it is missing, or the eligible-jobs query raises, the error is caught and nothing changes. Otherwise the tick runs. The tick never raises. |
| Cleanup.TickAsShipped | backend/app/services/cleanup_service.py:58-102 | With the shipped settings nothing is ever removed, whether or not the query would succeed. |
| Cleanup.StaleCloneIsDue | backend/app/services/cleanup_service.py:60-91 | A completed job created at time 0, looked at after the cutoff, has its clone due under any retention. |
| Cleanup.ManualCleanup | backend/app/services/cleanup_service.py:117-141 | The result is true exactly when the lookup succeeds, the job exists, and its clone is absent or removable. Status is not checked. On success the clone is gone, and otherwise nothing changes. |
| Cleanup.ManualCleanupIdempotent | backend/app/services/cleanup_service.py:129-137 | A successful manual cleanup repeated succeeds again and changes nothing. |
| Cleanup.CompletedIds | backend/app/services/cleanup_service.py:149-151 | Completed jobs are jobs. |
| Cleanup.GetCleanupStats | backend/app/services/cleanup_service.py:143-189 | The error dict is returned exactly when some step raises: a job count, the directory scan, reading the retention period, the eligible count, or reading the check interval. The first failing step, in that order, decides the message: a query error for the counts and the eligible count, a scan error, or the missing-setting error for the retention period and the check interval. Otherwise the stats are exactly the number of jobs, of completed jobs and of clone directories, the number of jobs eligible under the configured retention (the tick's predicate), the retention period and the check interval; the two job counts are at most `total_jobs`. |
| Cleanup.SubsetCount | backend/app/services/cleanup_service.py:148-171 | A subset is no larger. |
| Cleanup.StatsBoundTick | backend/app/services/cleanup_service.py:166-171 | A tick with the same retention handles at most `eligible_for_cleanup` jobs, and exactly that many when every eligible job has its clone. |
| Routes.UpdateJobStatus | backend/app/api/routes.py:33-43 | An unknown id changes nothing. Otherwise the status and update time are set, and the progress and error texts are replaced only by truthy values. Other jobs are unchanged. |
| Routes.Submit | backend/app/api/routes.py:156-218 | A held lock gives 503 before the URL is looked at, and a URL without `github.com` gives 400. Both leave the state unchanged. Otherwise a pending job with `Analysis queued` is created, the lock is taken and the run queued. |
| Routes.MaxRankBounds | backend/app/api/routes.py:111-130 | The highest rank bounds every effect's rank. |
| Routes.OrderedPairs | backend/app/api/routes.py:111-130 | In an ordered log, no ranked effect follows one of higher rank. |
| Routes.Do | backend/app/api/routes.py:47-153 | One effect is applied and logged. |
| Routes.ProgressAll | backend/app/api/routes.py:83-84 | The embedding progress callback only updates the job's status and progress. |
| Routes.Abort | backend/app/api/routes.py:134-152 | The clone is removed only when its removal succeeds, and the collection deleted only when it is named and its deletion succeeds. Then the job fails with the error text if truthy, and the lock is released last. |
| Routes.Release | backend/app/api/routes.py:137-141 | The error cleanup removes the clone only when its removal succeeds, and deletes the collection only when a non-empty name is known and its deletion succeeds. Otherwise both stay, since both calls swallow their errors. No job, report or lock is touched, and no ranked effect is put out of order. |
| Routes.RunJob | backend/app/api/routes.py:47-153 | Every exit path releases the lock, once and last. On success the report is stored before the collection is deleted, which comes before the `completed` status. |
| Routes.Embed | backend/app/api/routes.py:82-152 | From the embedding step on, the lock is released last and the effects are ordered. |
| Routes.Finish | backend/app/api/routes.py:104-152 | From the report on, the lock is released last and the effects are ordered. |
| Routes.Complete | backend/app/api/routes.py:111-130 | On the success path the lock is still released once and last. It comes after the report, the collection deletion when that succeeds, and the `completed` status, in that order. |
| Routes.AbortEnds | backend/app/api/routes.py:134-152 | The `except` branch ends the job failed, with the error stored if truthy. The clone is left exactly when there was one and its removal fails. The collection is gone exactly when it was named and its deletion succeeds. |
| Routes.FinishEnds | backend/app/api/routes.py:104-152 | From the report on, the run fails on a raised generation or a refused insert, and the clone stays only if its removal fails. Otherwise the job is completed with its report stored and its clone kept. The collection is deleted when that succeeds. |
| Routes.CompleteEnds | backend/app/api/routes.py:111-130 | The success path completes the job with `Analysis completed successfully` and stores exactly its report. The clone is kept, and the named collection is deleted when that succeeds. |
| Routes.EmbedEnds | backend/app/api/routes.py:82-152 | From embedding on, the run ends as its stage outcomes decide. An embedding failure fails the job, keeping the clone only if its removal fails. |
| Routes.CollectionEnds | backend/app/api/routes.py:87-152 | Once the collection is created, the run ends as the report outcome and the unique constraint decide. A failure keeps the clone only if its removal fails, and keeps the collection only if its deletion fails. |
| Routes.NoFilesEnds | backend/app/api/routes.py:74-79 | An empty repository fails the job with `No valid text files found in repository`, and keeps the clone and the tables. |
| Routes.RunEnds | backend/app/api/routes.py:47-153 | A run ends in one of three ways. A raised error fails it, with the error message stored when it is non-empty (an empty one keeps the previous message). The clone is removed and the collection deleted when those calls succeed, and both stay when they fail. An empty repository fails it with `No valid text files found in repository`, keeping the clone. Otherwise it completes with the report stored and the clone kept, and the collection is deleted when that succeeds. In every case the lock is released and other jobs are untouched. |
| Routes.Background | backend/app/api/routes.py:47-153 | The queued run releases the lock. |
| Routes.GetJobStatus | backend/app/api/routes.py:221-249 | A known job's row is returned. An unknown one gives 404 `Job {id} not found`. |
| Routes.GetHealthReport | backend/app/api/routes.py:252-293 | An unknown job gives 404. A job not completed gives 400 with its status. A completed job without a report gives 404. A stored report that does not validate gives 500, and a valid one is returned. |
| Routes.InitialValid | backend/app/api/routes.py:30 | The service starts unlocked with empty tables, which is a valid state. |
| Routes.SubmitValid | backend/app/api/routes.py:174-208 | Submission keeps the service invariant. |
| Routes.OthersFound | backend/app/models/database.py:30 | Storing a job's first report keeps one report per job and leaves other jobs' reports. |
| Routes.BackgroundValid | backend/app/api/routes.py:47-153 | A run keeps the service invariant whatever its stages did. The invariant says a job is completed exactly when it has a report, and the lock is held exactly while a run is queued. |
| Routes.EndsValid | backend/app/api/routes.py:47-153 | Any way a run ends keeps the invariant. |
| Routes.CompletedValid | backend/app/api/routes.py:111-130 | A completed run stores the one report of its job, as dumped. |
| Routes.ReportAddedValid | backend/app/api/routes.py:111-130 | Completing the queued job with its first report, and nothing else, keeps the invariant. |
| Routes.QueuedMeansBusy | backend/app/api/routes.py:174-178 | While a run is queued, every submission gets 503. |
| Routes.ValidReportServed | backend/app/api/routes.py:264-293 | In a valid state a job's report is served exactly when the job is completed, and any other job gets 400. The second 404 and the 500 never happen. |
| Routes.RunThenReport | backend/app/api/routes.py:104-130 | A run whose stages all succeed on a non-empty repository completes the job, and the report query returns exactly the generated report. |
| Routes.CompletedIffStagesSucceed | backend/app/api/routes.py:61-149 | A run completes exactly when every stage succeeds on a non-empty repository. Otherwise the job fails with no report. |
| Routes.EndsStatus | backend/app/api/routes.py:61-149 | For a job with no report yet, the final status is `completed` exactly when every stage succeeded on a non-empty repository. Otherwise it is `failed` with no report. |
| Routes.CloneAfterRun | backend/app/api/routes.py:61-149 | After a run, the job's clone is on disk exactly when the repository was cloned (or a directory was already there) and it was not removed. A directory that cannot be removed stays; one that can is removed by the error branch. The clone is removed only when some stage raised and the removal succeeded. |
| Routes.EndsClone | backend/app/api/routes.py:134-141 | The clone after a run follows from the way the run ended: it is gone exactly when a raised stage led to a successful removal, or when there never was one. |

## Left out

- The text splitter, vector store and embedding model are inputs: an uninterpreted `split`, flags for whether the collection opens and the batch is stored, and the stored chunks. Git cloning, `rglob`, file reading and `shutil.rmtree` are also inputs, as path entries and readable text. Removal is a removability predicate in the cleanup service, and a flag per run in the error branch of the background run. No chunk-count law of the splitter is assumed.
- The language model call and `json.loads` are inputs. `response.content` is assumed to be a string.
- The prompt template text, `json.dumps` of the prompt inputs, and `query_code_context` are not modelled. The prompt is a record of its inputs.
- `query_similar_code` and `get_collection_stats` are not modelled as operations. `delete_collection` is a state change, and a flag per run says whether it succeeds. It swallows its own errors, so a failed deletion leaves the collection and raises nothing.
- Time is an integer number of seconds. `datetime.utcnow()` is a parameter, and timestamps in stored reports are integers.
- Concurrency is not modelled. The API, the background task and the scheduler interleave in reality; here a background run is one atomic step after the submission that queued it. The scheduler's start and stop are not modelled.
- Exception texts are placeholder constants standing for `str(e)`: `QUERY_FAILED` and `SCAN_FAILED` for the database's and the disk's, `COLLECTION_FAILED` for the vector store's when the collection cannot be opened or counted, and `EMBEDDING_FAILED` for the embedding model's or the vector store's re-raised error while storing the batch (rag_service.py re-raises the original exception, whose text becomes the job's `error_message`). Opening the database session is folded into the query that follows it.
- The directory size in megabytes (a float) in the cleanup statistics is not modelled.
- Character classes are ASCII only: `str.lower`, `str.isalnum` and `str.isspace` on non-ASCII characters are not modelled.
- Schemas.ScoreField: Python `float` is modelled as an exact `real`. Rounding is not modelled. For example, `100.0000000000000001` reads as `100.0` in Python and is accepted, while as a real it is above 100 and rejected.
- Pydantic's lax coercions, such as a numeric string accepted as the score, are not modelled. Only JSON numbers are accepted where a number is expected.
- Routes.Embed: a `create_embeddings` call that opens its collection and then raises leaves that collection in the store. The run never learns its name, so the error branch cannot delete it. The model treats the embedding step as atomic and records no collection for it.
- A rolled-back session after a refused report insert is not modelled. The failure path still updates the job. In a valid state that insert cannot be refused.
- The AnalyzeRequest `branch` is passed to git only, and is not modelled.
- Logging, the database engine and session plumbing, FastAPI routing, and the application startup in `main.py` are left out.
- Routes.Background: its own contract only promises the lock is released. What the run does to the state is stated by `Routes.RunEnds`, `Routes.BackgroundValid` and `Routes.CompletedIffStagesSucceed`.

## Findings

| source | as written | input that shows it | evidently intended | confidence | as-written member | corrected member |
|---|---|---|---|---|---|---|
| backend/app/services/cleanup_service.py:60 | The tick reads `settings.REPO_RETENTION_MINUTES`, which `Settings` in backend/app/config.py never defines. A tick would raise `AttributeError` there; the handler at lines 101-102 catches and logs it, so no clone is ever removed. `get_cleanup_stats` (line 167) always returns its error dict. In fact no tick is ever scheduled: the application startup in backend/app/main.py:12-31 never calls `start()`, and `start()` itself would raise `AttributeError` at line 37, reading `CLEANUP_CHECK_INTERVAL_SECONDS`, before `add_job`. | A completed job created at time 0 with a clone on disk, ticked after any retention period has passed. | Clones of finished jobs older than the retention period are removed. | not executed | Cleanup.TickAsShipped | Cleanup.RunTick |

=== FILE: cleanup.dfy ===
/**
 * The retention policy for cloned repositories.  Clones on disk are the set
 * of job ids that have a directory under `temp_repos`; whether removing a
 * directory succeeds is a parameter.  The settings object is read for the
 * retention period and the check interval, which `config.py` does not
 * define: both are `Option`s here, and the settings as shipped have neither.
 */
module Cleanup {
  import opened Wrappers
  import opened Database

  /** What the settings object offers the cleanup service. */
  datatype CleanupSettings = CleanupSettings(retentionMinutes: Option<int>, checkIntervalSeconds: Option<int>)

  /** The shipped settings: neither attribute exists, so reading either raises `AttributeError`. */
  const SHIPPED_SETTINGS: CleanupSettings := CleanupSettings(None, None)

  /** The message of that `AttributeError`. */
  const NO_RETENTION_SETTING: string := "'Settings' object has no attribute 'REPO_RETENTION_MINUTES'"
  /** The message of the same error for the check interval. */
  const NO_INTERVAL_SETTING: string := "'Settings' object has no attribute 'CLEANUP_CHECK_INTERVAL_SECONDS'"

  /** Stands for the text of an exception raised by a database query. */
  const QUERY_FAILED: string := "query failed"
  /** Stands for the text of an exception raised while scanning the clone directories. */
  const SCAN_FAILED: string := "scan failed"

  /** A job whose run is over. */
  predicate Finished(status: string) {
    status == COMPLETED || status == FAILED
  }

  /** Due for cleanup: created strictly before the cutoff `now - retention`, and finished. */
  predicate Eligible(job: AnalysisJob, now: int, retentionMinutes: int) {
    job.createdAt < now - retentionMinutes * 60 && Finished(job.status)
  }

  /** The jobs the cleanup query returns. */
  function EligibleIds(jobs: Jobs, now: int, retentionMinutes: int): (ids: set<nat>)
    ensures forall id :: id in ids <==> id in jobs && Eligible(jobs[id], now, retentionMinutes)
  {
    set id | id in jobs.Keys && Eligible(jobs[id], now, retentionMinutes)
  }

  /** The clones a tick removes: those of eligible jobs whose removal succeeds. */
  function Deletable(jobs: Jobs, dirs: set<nat>, now: int, retentionMinutes: int, removable: nat -> bool): (ids: set<nat>)
    ensures ids <= dirs * EligibleIds(jobs, now, retentionMinutes)
  {
    set id | id in dirs && id in EligibleIds(jobs, now, retentionMinutes) && removable(id)
  }

  /**
   * `_delete_directory`: a missing directory is left alone; an existing one
   * is removed, or the removal raises.
   */
  function DeleteDirectory(dirs: set<nat>, id: nat, removable: bool): (r: Result<set<nat>, string>)
    ensures id !in dirs ==> r == Success(dirs)
    ensures r.Failure? <==> id in dirs && !removable
    ensures r.Success? ==> r.value == dirs - {id}
  {
    if id !in dirs then Success(dirs)
    else if removable then Success(dirs - {id})
    else Failure("directory could not be removed")
  }

  /**
   * One tick with a configured retention period: every eligible job whose
   * clone exists has it removed, or the failure is counted; nothing else
   * on disk is touched.
   */
  method RunTick(jobs: Jobs, dirs: set<nat>, now: int, retentionMinutes: int, removable: nat -> bool)
    returns (after: set<nat>, deleted: nat, failed: nat)
    ensures after == dirs - Deletable(jobs, dirs, now, retentionMinutes, removable)
    ensures deleted == |Deletable(jobs, dirs, now, retentionMinutes, removable)|
    ensures deleted + failed == |dirs * EligibleIds(jobs, now, retentionMinutes)|
  {
    var eligible := EligibleIds(jobs, now, retentionMinutes);
    var todo := eligible;
    ghost var done: set<nat> := {};
    ghost var gone: set<nat> := {};
    ghost var stuck: set<nat> := {};
    after, deleted, failed := dirs, 0, 0;
    while todo != {}
      invariant Visited(dirs, removable, eligible, todo, done, gone, stuck)
      invariant after == dirs - gone
      invariant deleted == |gone| && failed == |stuck|
      decreases |todo|
    {
      var id :| id in todo;
      VisitFresh(dirs, removable, eligible, todo, done, gone, stuck, id);
      if id in after {
        var r := DeleteDirectory(after, id, removable(id));
        if r.Success? {
          VisitRemoved(dirs, removable, eligible, todo, done, gone, stuck, id);
          after := r.value;
          deleted := deleted + 1;
          gone := gone + {id};
        } else {
          VisitStuck(dirs, removable, eligible, todo, done, gone, stuck, id);
          failed := failed + 1;
          stuck := stuck + {id};
        }
      } else {
        VisitAbsent(dirs, removable, eligible, todo, done, gone, stuck, id);
      }
      todo := todo - {id};
      done := done + {id};
    }
    TickTotals(jobs, dirs, now, retentionMinutes, removable, gone, stuck);
  }

  /**
   * Part way through a tick: `done` are the eligible jobs handled so far,
   * `gone` the clones among them that were removed and `stuck` those whose
   * removal failed.
   */
  predicate Visited(dirs: set<nat>, removable: nat -> bool, eligible: set<nat>,
                    todo: set<nat>, done: set<nat>, gone: set<nat>, stuck: set<nat>) {
    && todo !! done && todo + done == eligible
    && gone !! stuck && gone + stuck == done * dirs
    && (forall id | id in gone :: removable(id))
    && (forall id | id in stuck :: !removable(id))
  }

  /** The next eligible job has not been handled yet. */
  lemma VisitFresh(dirs: set<nat>, removable: nat -> bool, eligible: set<nat>,
                   todo: set<nat>, done: set<nat>, gone: set<nat>, stuck: set<nat>, id: nat)
    requires Visited(dirs, removable, eligible, todo, done, gone, stuck) && id in todo
    ensures id !in gone && id !in stuck
  {
    assert id !in done;
  }

  /** Handling a job whose clone is removed. */
  lemma VisitRemoved(dirs: set<nat>, removable: nat -> bool, eligible: set<nat>,
                     todo: set<nat>, done: set<nat>, gone: set<nat>, stuck: set<nat>, id: nat)
    requires Visited(dirs, removable, eligible, todo, done, gone, stuck) && id in todo
    requires id in dirs && removable(id)
    ensures Visited(dirs, removable, eligible, todo - {id}, done + {id}, gone + {id}, stuck)
    ensures |gone + {id}| == |gone| + 1
    ensures dirs - (gone + {id}) == (dirs - gone) - {id}
  {
    assert id !in done;
  }

  /** Handling a job whose clone cannot be removed. */
  lemma VisitStuck(dirs: set<nat>, removable: nat -> bool, eligible: set<nat>,
                   todo: set<nat>, done: set<nat>, gone: set<nat>, stuck: set<nat>, id: nat)
    requires Visited(dirs, removable, eligible, todo, done, gone, stuck) && id in todo
    requires id in dirs && !removable(id)
    ensures Visited(dirs, removable, eligible, todo - {id}, done + {id}, gone, stuck + {id})
    ensures |stuck + {id}| == |stuck| + 1
  {
    assert id !in done;
  }

  /** Handling a job that has no clone. */
  lemma VisitAbsent(dirs: set<nat>, removable: nat -> bool, eligible: set<nat>,
                    todo: set<nat>, done: set<nat>, gone: set<nat>, stuck: set<nat>, id: nat)
    requires Visited(dirs, removable, eligible, todo, done, gone, stuck) && id in todo
    requires id !in dirs
    ensures Visited(dirs, removable, eligible, todo - {id}, done + {id}, gone, stuck)
  {
  }

  /** The removed and the failed clones of a finished tick, split by whether removal succeeds. */
  lemma TickTotals(jobs: Jobs, dirs: set<nat>, now: int, retentionMinutes: int, removable: nat -> bool,
                   gone: set<nat>, stuck: set<nat>)
    requires Visited(dirs, removable, EligibleIds(jobs, now, retentionMinutes), {}, EligibleIds(jobs, now, retentionMinutes), gone, stuck)
    ensures gone == Deletable(jobs, dirs, now, retentionMinutes, removable)
    ensures |gone| + |stuck| == |dirs * EligibleIds(jobs, now, retentionMinutes)|
  {
    var e := EligibleIds(jobs, now, retentionMinutes);
    assert e * dirs == dirs * e;
    assert |gone + stuck| == |gone| + |stuck|;
  }

  /**
   * `cleanup_old_repositories` over the settings it is given: the retention
   * period is read first, then the session is opened and the eligible jobs
   * queried (`queryOk` says whether that succeeds).  A missing setting or a
   * raising query is caught and logged, so nothing is deleted; the tick
   * never raises.
   */
  method CleanupOldRepositories(jobs: Jobs, dirs: set<nat>, now: int, settings: CleanupSettings, queryOk: bool, removable: nat -> bool)
    returns (after: set<nat>, deleted: nat, failed: nat)
    ensures settings.retentionMinutes.None? || !queryOk ==> after == dirs && deleted == 0 && failed == 0
    ensures settings.retentionMinutes.Some? && queryOk ==>
      after == dirs - Deletable(jobs, dirs, now, settings.retentionMinutes.value, removable)
      && deleted + failed == |dirs * EligibleIds(jobs, now, settings.retentionMinutes.value)|
  {
    match settings.retentionMinutes {
      case None =>
        after, deleted, failed := dirs, 0, 0;
      case Some(minutes) =>
        if queryOk {
          after, deleted, failed := RunTick(jobs, dirs, now, minutes, removable);
        } else {
          after, deleted, failed := dirs, 0, 0;
        }
    }
  }

  /** The tick as shipped: whatever the jobs, clones and store, nothing is ever removed. */
  method TickAsShipped(jobs: Jobs, dirs: set<nat>, now: int, queryOk: bool, removable: nat -> bool)
    returns (after: set<nat>, deleted: nat, failed: nat)
    ensures after == dirs && deleted == 0 && failed == 0
  {
    after, deleted, failed := CleanupOldRepositories(jobs, dirs, now, SHIPPED_SETTINGS, queryOk, removable);
  }

  /**
   * A clone that is due under any retention period: a completed job created
   * at time 0, looked at one second after the cutoff, with a removable clone.
   */
  lemma StaleCloneIsDue(retentionMinutes: int)
    ensures var jobs := map[1 := AnalysisJob("https://github.com/o/r", COMPLETED, None, None, 0, 0)];
      Deletable(jobs, {1}, retentionMinutes * 60 + 1, retentionMinutes, _ => true) == {1}
  {
    var jobs := map[1 := AnalysisJob("https://github.com/o/r", COMPLETED, None, None, 0, 0)];
    assert 1 in EligibleIds(jobs, retentionMinutes * 60 + 1, retentionMinutes);
  }

  /**
   * `manual_cleanup`: false for an unknown job or when something raises (the
   * lookup, or the removal); true when the clone was removed or was not
   * there.  The job's status is not looked at.
   */
  function ManualCleanup(jobs: Jobs, dirs: set<nat>, id: nat, queryOk: bool, removable: bool): (res: (bool, set<nat>))
    ensures res.0 <==> queryOk && id in jobs && (id !in dirs || removable)
    ensures res.0 ==> res.1 == dirs - {id}
    ensures !res.0 ==> res.1 == dirs
  {
    if !queryOk || id !in jobs then (false, dirs)
    else
      match DeleteDirectory(dirs, id, removable)
      case Success(after) => (true, after)
      case Failure(_) => (false, dirs)
  }

  /** A successful manual cleanup can be repeated: the second call succeeds too and changes nothing. */
  lemma ManualCleanupIdempotent(jobs: Jobs, dirs: set<nat>, id: nat, removable: bool, again: bool)
    requires ManualCleanup(jobs, dirs, id, true, removable).0
    ensures var after := ManualCleanup(jobs, dirs, id, true, removable).1;
      ManualCleanup(jobs, after, id, true, again) == (true, after)
  {
  }

  /** The counting part of `get_cleanup_stats`. */
  datatype CleanupStats = CleanupStats(
    totalJobs: nat,
    completedJobs: nat,
    existingRepositories: nat,
    eligibleForCleanup: nat,
    retentionMinutes: int,
    nextCleanupInSeconds: int)

  /** The ids of completed jobs. */
  function CompletedIds(jobs: Jobs): (ids: set<nat>)
    ensures ids <= jobs.Keys
  {
    set id | id in jobs.Keys && jobs[id].status == COMPLETED
  }

  /** Whether each access of `get_cleanup_stats` succeeds: the two counts, the directory scan, the eligible count. */
  datatype StatsAccess = StatsAccess(countsOk: bool, scanOk: bool, eligibleOk: bool)

  /**
   * `get_cleanup_stats`: the counts, or the error dict for the first step
   * that raises, in the order of the source: the job counts, the scan of
   * the clone directories, the retention period, the eligible count, then
   * the check interval.
   */
  function GetCleanupStats(jobs: Jobs, dirs: set<nat>, now: int, settings: CleanupSettings, access: StatsAccess): (r: Result<CleanupStats, string>)
    ensures r.Failure? <==> !access.countsOk || !access.scanOk || settings.retentionMinutes.None?
                            || !access.eligibleOk || settings.checkIntervalSeconds.None?
    ensures !access.countsOk ==> r == Failure(QUERY_FAILED)
    ensures access.countsOk && !access.scanOk ==> r == Failure(SCAN_FAILED)
    ensures access.countsOk && access.scanOk && settings.retentionMinutes.None? ==> r == Failure(NO_RETENTION_SETTING)
    ensures (access.countsOk && access.scanOk && settings.retentionMinutes.Some? && !access.eligibleOk)
              ==> r == Failure(QUERY_FAILED)
    ensures (access.countsOk && access.scanOk && settings.retentionMinutes.Some? && access.eligibleOk
             && settings.checkIntervalSeconds.None?) ==> r == Failure(NO_INTERVAL_SETTING)
    ensures r.Success? ==> r.value.completedJobs <= r.value.totalJobs && r.value.eligibleForCleanup <= r.value.totalJobs
    ensures r.Success? ==> r.value == CleanupStats(|jobs|, |CompletedIds(jobs)|, |dirs|,
                                                   |EligibleIds(jobs, now, settings.retentionMinutes.value)|,
                                                   settings.retentionMinutes.value, settings.checkIntervalSeconds.value)
  {
    if !access.countsOk then Failure(QUERY_FAILED)
    else if !access.scanOk then Failure(SCAN_FAILED)
    else if settings.retentionMinutes.None? then Failure(NO_RETENTION_SETTING)
    else if !access.eligibleOk then Failure(QUERY_FAILED)
    else if settings.checkIntervalSeconds.None? then Failure(NO_INTERVAL_SETTING)
    else
      var minutes := settings.retentionMinutes.value;
      var eligible := EligibleIds(jobs, now, minutes);
      SubsetCount(CompletedIds(jobs), jobs.Keys);
      SubsetCount(eligible, jobs.Keys);
      Success(CleanupStats(|jobs|, |CompletedIds(jobs)|, |dirs|, |eligible|, minutes, settings.checkIntervalSeconds.value))
  }

  /** A subset is no larger than its superset. */
  lemma {:induction false} SubsetCount(a: set<nat>, b: set<nat>)
    requires a <= b
    ensures |a| <= |b|
    decreases |b|
  {
    if b != {} {
      var x :| x in b;
      SubsetCount(a - {x}, b - {x});
    }
  }

  /**
   * The stats count what the tick looks at: a tick with the same retention
   * handles at most `eligible_for_cleanup` jobs, and exactly that many when
   * every eligible job still has its clone.
   */
  lemma StatsBoundTick(jobs: Jobs, dirs: set<nat>, now: int, settings: CleanupSettings, access: StatsAccess)
    requires GetCleanupStats(jobs, dirs, now, settings, access).Success?
    ensures var s := GetCleanupStats(jobs, dirs, now, settings, access).value;
      && |dirs * EligibleIds(jobs, now, s.retentionMinutes)| <= s.eligibleForCleanup
      && (EligibleIds(jobs, now, s.retentionMinutes) <= dirs ==> |dirs * EligibleIds(jobs, now, s.retentionMinutes)| == s.eligibleForCleanup)
  {
    var s := GetCleanupStats(jobs, dirs, now, settings, access).value;
    var e := EligibleIds(jobs, now, s.retentionMinutes);
    SubsetCount(dirs * e, e);
    if e <= dirs {
      assert dirs * e == e;
    }
  }
}

=== FILE: config.dfy ===
/**
 * Application settings: the constants the analysis stages read and the loading of
 * the Gemini API keys from the environment.  The environment is a finite map
 * from variable names to values; a missing or empty value is falsy.
 */
module Config {
  import opened Wrappers
  import opened Text

  /** Target chunk length, in characters, for the text splitter. */
  const CHUNK_SIZE: nat := 800
  /** Overlap between consecutive chunks of one file, 15% of `CHUNK_SIZE`. */
  const CHUNK_OVERLAP: nat := 120
  /** Number of neighbours returned by a similarity query. */
  const TOP_K_RESULTS: nat := 10
  /** The embedding stage reports progress once every this many files. */
  const BATCH_UPDATE_INTERVAL: nat := 10

  /** File suffixes admitted to the analysis. */
  const ALLOWED_EXTENSIONS: seq<string> := [
    ".py", ".js", ".ts", ".jsx", ".tsx",
    ".java", ".go", ".rs", ".cpp", ".c", ".h", ".hpp",
    ".md", ".txt", ".json", ".yaml", ".yml", ".xml",
    ".html", ".css", ".sql", ".sh", ".bash"
  ]

  /** Path components that exclude a file from the analysis. */
  const SKIP_DIRECTORIES: seq<string> := [
    ".git", "node_modules", "venv", ".venv", "env", ".env",
    "build", "dist", "__pycache__", ".pytest_cache",
    "target", "bin", "obj", ".idea", ".vscode"
  ]

  /** The fallback single-key variable. */
  const SINGLE_KEY_NAME: string := "GOOGLE_API_KEY"

  /** The message of the `ValueError` raised when no key is configured. */
  const NO_KEYS_ERROR: string := "No Google API keys found. Set GOOGLE_API_KEY_1, GOOGLE_API_KEY_2, etc. in .env"

  /** `os.getenv(name)` is truthy: present and non-empty. */
  predicate HasKey(env: map<string, string>, name: string) {
    name in env && env[name] != ""
  }

  /** The numbered key variable `GOOGLE_API_KEY_{i}`. */
  function KeyName(i: nat): string {
    "GOOGLE_API_KEY_" + NatToString(i)
  }

  /** Distinct indices name distinct variables. */
  lemma KeyNameInjective(i: nat, j: nat)
    requires KeyName(i) == KeyName(j)
    ensures i == j
  {
    var p := "GOOGLE_API_KEY_";
    assert NatToString(i) == KeyName(i)[|p|..];
    assert NatToString(j) == KeyName(j)[|p|..];
    NatToStringInjective(i, j);
  }

  /** `names` gives different indices different names. */
  ghost predicate Injective(names: nat -> string) {
    forall a: nat, b: nat :: names(a) == names(b) ==> a == b
  }

  /** The numbered variable names are all distinct. */
  lemma KeyNamesInjective()
    ensures Injective(KeyName)
  {
    forall a: nat, b: nat | KeyName(a) == KeyName(b)
      ensures a == b
    {
      KeyNameInjective(a, b);
    }
  }

  /** The names probed before index `i`. */
  function Probed(names: nat -> string, i: nat): set<string> {
    set j | 1 <= j < i :: names(j)
  }

  /** Probing a present name shrinks the set of unprobed environment names. */
  lemma ProbeShrinks(env: map<string, string>, names: nat -> string, i: nat)
    requires i >= 1 && Injective(names) && names(i) in env
    ensures |env.Keys - Probed(names, i + 1)| < |env.Keys - Probed(names, i)|
  {
    var x := names(i);
    var a := env.Keys - Probed(names, i);
    assert Probed(names, i + 1) == Probed(names, i) + {x};
    assert x in a;
    assert env.Keys - Probed(names, i + 1) == a - {x};
  }

  /**
   * The values of `names(i)`, `names(i + 1)`, ... up to the first name that
   * is missing or empty in `env`.
   */
  function Run(env: map<string, string>, names: nat -> string, i: nat): seq<string>
    requires i >= 1 && Injective(names)
    decreases |env.Keys - Probed(names, i)|
  {
    if HasKey(env, names(i)) then
      ProbeShrinks(env, names, i);
      [env[names(i)]] + Run(env, names, i + 1)
    else
      []
  }

  /** The `k`-th value of a run is the value of `names(i + k)`, which is truthy. */
  lemma {:induction false} RunAt(env: map<string, string>, names: nat -> string, i: nat, k: nat)
    requires i >= 1 && Injective(names) && k < |Run(env, names, i)|
    ensures HasKey(env, names(i + k)) && Run(env, names, i)[k] == env[names(i + k)]
    decreases k
  {
    var keys := Run(env, names, i);
    assert HasKey(env, names(i));
    ProbeShrinks(env, names, i);
    var rest := Run(env, names, i + 1);
    assert keys == [env[names(i)]] + rest;
    if k > 0 {
      RunAt(env, names, i + 1, k - 1);
      assert keys[k] == rest[k - 1];
      assert i + 1 + (k - 1) == i + k;
    }
  }

  /** A run stops at the first missing or empty name. */
  lemma {:induction false} RunStop(env: map<string, string>, names: nat -> string, i: nat)
    requires i >= 1 && Injective(names)
    ensures !HasKey(env, names(i + |Run(env, names, i)|))
    decreases |env.Keys - Probed(names, i)|
  {
    if HasKey(env, names(i)) {
      ProbeShrinks(env, names, i);
      RunStop(env, names, i + 1);
      assert |Run(env, names, i)| == 1 + |Run(env, names, i + 1)|;
    } else {
      assert Run(env, names, i) == [];
    }
  }

  /**
   * The `while True` loop of `Settings.__init__`: the values of
   * `GOOGLE_API_KEY_1`, `GOOGLE_API_KEY_2`, ... up to the first missing or
   * empty one.
   */
  function NumberedKeys(env: map<string, string>): seq<string> {
    KeyNamesInjective();
    Run(env, KeyName, 1)
  }

  /**
   * The `n`-th loaded key is the value of `GOOGLE_API_KEY_n`, which is truthy,
   * and the variable after the last loaded one is missing or empty: the keys
   * are the maximal gap-free run of numbered variables from 1.
   */
  lemma NumberedKeysRun(env: map<string, string>)
    ensures forall n | 1 <= n <= |NumberedKeys(env)| ::
      HasKey(env, KeyName(n)) && NumberedKeys(env)[n - 1] == env[KeyName(n)]
    ensures !HasKey(env, KeyName(|NumberedKeys(env)| + 1))
  {
    KeyNamesInjective();
    var keys := NumberedKeys(env);
    forall n | 1 <= n <= |keys|
      ensures HasKey(env, KeyName(n)) && keys[n - 1] == env[KeyName(n)]
    {
      RunAt(env, KeyName, 1, n - 1);
      assert 1 + (n - 1) == n;
    }
    RunStop(env, KeyName, 1);
    assert 1 + |keys| == |keys| + 1;
  }

  /**
   * `Settings()`: the class-level key list `classKeys` after construction, or
   * the `ValueError`.  The list is a class attribute, so keys are appended to
   * whatever earlier constructions left there, and the fallback and the error
   * look at the whole list.
   */
  function InitSettings(classKeys: seq<string>, env: map<string, string>): (r: Result<seq<string>, string>)
    ensures r.Failure? <==> classKeys == [] && NumberedKeys(env) == [] && !HasKey(env, SINGLE_KEY_NAME)
    ensures r.Failure? ==> r.error == NO_KEYS_ERROR
    ensures r.Success? ==> |r.value| > 0
  {
    var loaded := classKeys + NumberedKeys(env);
    var keys := if loaded == [] && HasKey(env, SINGLE_KEY_NAME) then [env[SINGLE_KEY_NAME]] else loaded;
    if keys == [] then Failure(NO_KEYS_ERROR) else Success(keys)
  }

  /**
   * The single `GOOGLE_API_KEY` is used only when the list is empty and
   * `GOOGLE_API_KEY_1` is missing or empty.  Otherwise construction keeps the
   * earlier keys and appends the values of `GOOGLE_API_KEY_1`,
   * `GOOGLE_API_KEY_2`, ... in order, stopping at the first missing or
   * empty variable.
   */
  lemma FallbackOnlyWhenNoNumberedKey(classKeys: seq<string>, env: map<string, string>)
    ensures var r := InitSettings(classKeys, env);
      classKeys != [] || HasKey(env, KeyName(1)) ==>
        && r.Success? && |r.value| >= |classKeys| && r.value[..|classKeys|] == classKeys
        && (forall n | 1 <= n <= |r.value| - |classKeys| ::
              HasKey(env, KeyName(n)) && r.value[|classKeys| + n - 1] == env[KeyName(n)])
        && !HasKey(env, KeyName(|r.value| - |classKeys| + 1))
    ensures classKeys == [] && !HasKey(env, KeyName(1)) && HasKey(env, SINGLE_KEY_NAME) ==>
      InitSettings(classKeys, env) == Success([env[SINGLE_KEY_NAME]])
  {
    var numbered := NumberedKeys(env);
    NumberedKeysRun(env);
    assert numbered == [] <==> !HasKey(env, KeyName(1)) by {
      if numbered != [] {
        assert 1 <= 1 <= |numbered|;
      }
    }
    var r := InitSettings(classKeys, env);
    if classKeys != [] || HasKey(env, KeyName(1)) {
      assert r == Success(classKeys + numbered);
      forall n | 1 <= n <= |r.value| - |classKeys|
        ensures HasKey(env, KeyName(n)) && r.value[|classKeys| + n - 1] == env[KeyName(n)]
      {
        assert r.value[|classKeys| + n - 1] == numbered[n - 1];
      }
    }
  }

  /**
   * A second `Settings()` in the same process (the cleanup service builds its
   * own) appends the numbered keys again, so they appear twice.
   */
  lemma SecondConstructionReappends(env: map<string, string>, first: seq<string>)
    requires InitSettings([], env) == Success(first)
    ensures InitSettings(first, env) == Success(first + NumberedKeys(env))
  {
  }
}

=== FILE: database.dfy ===
/**
 * The two tables: analysis jobs by id, and the stored health reports, whose
 * `job_id` column is unique so that a job has at most one report.  Times
 * are integers (seconds); the ORM, sessions and commits are not modelled.
 */
module Database {
  import opened Wrappers
  import opened Schemas

  const PENDING: string := "pending"
  const PROCESSING: string := "processing"
  const COMPLETED: string := "completed"
  const FAILED: string := "failed"

  /** A row of `analysis_jobs`; the status is free text, as in the column. */
  datatype AnalysisJob = AnalysisJob(
    repoUrl: string,
    status: string,
    progressDetail: Option<string>,
    errorMessage: Option<string>,
    createdAt: int,
    updatedAt: int)

  /** `analysis_jobs`, by primary key. */
  type Jobs = map<nat, AnalysisJob>

  /** A row of `health_reports`: the job it belongs to and the dumped report. */
  datatype ReportRow = ReportRow(jobId: nat, reportJson: Json)

  /** No two rows share a `job_id`. */
  predicate OneReportPerJob(rows: seq<ReportRow>) {
    forall i, j | 0 <= i < j < |rows| :: rows[i].jobId != rows[j].jobId
  }

  /** The raised error when a second report is inserted for a job. */
  const UNIQUE_VIOLATION: string := "UNIQUE constraint failed: health_reports.job_id"

  /** The first row for `jobId`, as `query(..).filter(..).first()` returns it. */
  function FindReport(rows: seq<ReportRow>, jobId: nat): (r: Option<Json>)
    ensures r.None? <==> forall i | 0 <= i < |rows| :: rows[i].jobId != jobId
    ensures r.Some? ==> exists i | 0 <= i < |rows| :: rows[i] == ReportRow(jobId, r.value)
    decreases |rows|
  {
    if |rows| == 0 then None
    else if rows[0].jobId == jobId then Some(rows[0].reportJson)
    else FindReport(rows[1..], jobId)
  }

  /** Inserting a report: the unique constraint refuses a second one for the same job. */
  function AddReport(rows: seq<ReportRow>, row: ReportRow): (r: Result<seq<ReportRow>, string>)
    ensures r.Failure? <==> FindReport(rows, row.jobId).Some?
    ensures r.Failure? ==> r.error == UNIQUE_VIOLATION
    ensures r.Success? ==> r.value == rows + [row]
  {
    if FindReport(rows, row.jobId).Some? then Failure(UNIQUE_VIOLATION) else Success(rows + [row])
  }

  /**
   * The unique constraint keeps one report per job, and the inserted report
   * is the one found afterwards; the reports of other jobs are found as before.
   */
  lemma {:induction false} AddReportKeepsOne(rows: seq<ReportRow>, row: ReportRow, other: nat)
    requires OneReportPerJob(rows)
    requires AddReport(rows, row).Success?
    ensures OneReportPerJob(AddReport(rows, row).value)
    ensures FindReport(AddReport(rows, row).value, row.jobId) == Some(row.reportJson)
    ensures other != row.jobId ==> FindReport(AddReport(rows, row).value, other) == FindReport(rows, other)
  {
    FindAppended(rows, row, row.jobId);
    FindAppended(rows, row, other);
  }

  /** Looking up after appending a row: earlier rows win, the new row is found only when no earlier one matches. */
  lemma {:induction false} FindAppended(rows: seq<ReportRow>, row: ReportRow, jobId: nat)
    ensures FindReport(rows + [row], jobId) ==
      if FindReport(rows, jobId).Some? then FindReport(rows, jobId)
      else if row.jobId == jobId then Some(row.reportJson) else None
    decreases |rows|
  {
    if |rows| > 0 {
      assert (rows + [row])[1..] == rows[1..] + [row];
      FindAppended(rows[1..], row, jobId);
    }
  }
}

=== FILE: github.dfy ===
/**
 * The repository text processing of the GitHub service: which files of a
 * clone are analysed, the language histogram, and the dependency manifests.
 * The clone itself, directory walking and file reading are inputs: a clone
 * is the sequence of entries `rglob("*")` yields, each with the text read
 * from it (or none when reading fails).
 */
module GitHub {
  import opened Wrappers
  import opened Text
  import opened Sorting
  import Config
  import opened Schemas

  // ---------------------------------------------------------------- files

  /** An entry below the clone: its path parts relative to the clone, whether it is a directory, and its text. */
  datatype RepoEntry = RepoEntry(parts: seq<string>, isDir: bool, text: Option<string>)

  /** One analysed file, as `get_repository_files` records it. */
  datatype FileRecord = FileRecord(path: string, content: string, extension: string, size: nat)

  /** The path parts of the clone directory `temp_repos/{job_id}`. */
  function CloneRoot(jobId: nat): seq<string> {
    ["temp_repos", NatToString(jobId)]
  }

  /** The last path part (`Path.name`). */
  function Name(parts: seq<string>): string {
    if |parts| == 0 then "" else parts[|parts| - 1]
  }

  /** `Path.suffix`: from the last dot of the name, unless the dot is first or last. */
  function Suffix(name: string): (r: string)
    ensures r != "" ==> |r| >= 2 && r[0] == '.' && |r| < |name| && EndsWith(name, r)
    ensures r != "" ==> forall j | 1 <= j < |r| :: r[j] != '.'
  {
    match RFind(name, '.')
    case Some(i) => if 0 < i < |name| - 1 then name[i..] else ""
    case None => ""
  }

  /** A name `stem.ext` with a non-empty stem and a dot-free, non-empty `ext` has suffix `.ext`. */
  lemma SuffixOf(stem: string, ext: string)
    requires |stem| > 0 && |ext| > 0
    requires forall j | 0 <= j < |ext| :: ext[j] != '.'
    ensures Suffix(stem + "." + ext) == "." + ext
  {
    var name := stem + "." + ext;
    var i := |stem|;
    assert name[i] == '.';
    assert forall j | i < j < |name| :: name[j] == ext[j - i - 1];
    var k := RFind(name, '.');
    assert k == Some(i);
    assert name[i..] == "." + ext;
  }

  /** Some part of the path is one of the skipped directory names. */
  predicate Skipped(parts: seq<string>) {
    exists k | 0 <= k < |Config.SKIP_DIRECTORIES| :: Config.SKIP_DIRECTORIES[k] in parts
  }

  /** The file passes the filter of `get_repository_files` (before it is read). */
  predicate Admitted(root: seq<string>, e: RepoEntry) {
    && !e.isDir
    && !Skipped(root + e.parts)
    && Lower(Suffix(Name(e.parts))) in Config.ALLOWED_EXTENSIONS
  }

  /** The record of an admitted, readable entry. */
  function RecordOf(e: RepoEntry): (r: FileRecord)
    requires e.text.Some?
    ensures r.size == |r.content| && r.content == e.text.value
    ensures r.extension == Lower(Suffix(Name(e.parts)))
  {
    var content := e.text.value;
    FileRecord(Join(e.parts, "/"), content, Lower(Suffix(Name(e.parts))), |content|)
  }

  /** `get_repository_files`: the records of the admitted entries that could be read, in walk order. */
  function RepositoryFiles(root: seq<string>, entries: seq<RepoEntry>): (files: seq<FileRecord>)
    ensures |files| <= |entries|
    ensures forall k | 0 <= k < |files| :: files[k].size == |files[k].content|
    ensures forall k | 0 <= k < |files| :: files[k].extension in Config.ALLOWED_EXTENSIONS
    decreases |entries|
  {
    if |entries| == 0 then []
    else
      var e := entries[0];
      var rest := RepositoryFiles(root, entries[1..]);
      if Admitted(root, e) && e.text.Some? then [RecordOf(e)] + rest else rest
  }

  /**
   * A record is listed exactly when some entry is an admitted, readable file
   * whose record it is: nothing is invented and nothing readable is dropped.
   */
  lemma RepositoryFilesMembership(root: seq<string>, entries: seq<RepoEntry>, rec: FileRecord)
    ensures rec in RepositoryFiles(root, entries) <==>
      exists k | 0 <= k < |entries| :: Admitted(root, entries[k]) && entries[k].text.Some? && rec == RecordOf(entries[k])
  {
    if rec in RepositoryFiles(root, entries) {
      RepositoryFilesFrom(root, entries, rec);
    }
    if exists k | 0 <= k < |entries| :: Admitted(root, entries[k]) && entries[k].text.Some? && rec == RecordOf(entries[k]) {
      var k :| 0 <= k < |entries| && Admitted(root, entries[k]) && entries[k].text.Some? && rec == RecordOf(entries[k]);
      RepositoryFilesHas(root, entries, k);
    }
  }

  /** Every listed record is the record of an admitted, readable entry. */
  lemma {:induction false} RepositoryFilesFrom(root: seq<string>, entries: seq<RepoEntry>, rec: FileRecord)
    requires rec in RepositoryFiles(root, entries)
    ensures exists k | 0 <= k < |entries| :: Admitted(root, entries[k]) && entries[k].text.Some? && rec == RecordOf(entries[k])
    decreases |entries|
  {
    var e := entries[0];
    if Admitted(root, e) && e.text.Some? && rec == RecordOf(e) {
      assert entries[0] == e;
    } else {
      RepositoryFilesFrom(root, entries[1..], rec);
      var k :| 0 <= k < |entries[1..]| && Admitted(root, entries[1..][k]) && entries[1..][k].text.Some? && rec == RecordOf(entries[1..][k]);
      assert entries[k + 1] == entries[1..][k];
    }
  }

  /** The record of every admitted, readable entry is listed. */
  lemma {:induction false} RepositoryFilesHas(root: seq<string>, entries: seq<RepoEntry>, k: nat)
    requires k < |entries| && Admitted(root, entries[k]) && entries[k].text.Some?
    ensures RecordOf(entries[k]) in RepositoryFiles(root, entries)
    decreases k
  {
    RepositoryFilesCons(root, entries);
    if k > 0 {
      assert entries[1..][k - 1] == entries[k];
      RepositoryFilesHas(root, entries[1..], k - 1);
    }
  }

  /** The records of a non-empty walk: the first entry's, if any, then the rest's. */
  lemma RepositoryFilesCons(root: seq<string>, entries: seq<RepoEntry>)
    requires |entries| > 0
    ensures forall rec | rec in RepositoryFiles(root, entries[1..]) :: rec in RepositoryFiles(root, entries)
    ensures Admitted(root, entries[0]) && entries[0].text.Some? ==> RecordOf(entries[0]) in RepositoryFiles(root, entries)
  {
  }

  /** The clone directory's own parts are never skipped names, so only the relative path decides. */
  lemma CloneRootNeverSkipped(jobId: nat, parts: seq<string>)
    ensures Skipped(CloneRoot(jobId) + parts) <==> Skipped(parts)
  {
    var root := CloneRoot(jobId);
    var digits := NatToString(jobId);
    forall k | 0 <= k < |Config.SKIP_DIRECTORIES|
      ensures Config.SKIP_DIRECTORIES[k] in root + parts <==> Config.SKIP_DIRECTORIES[k] in parts
    {
      var d := Config.SKIP_DIRECTORIES[k];
      assert !IsDigit(d[0]);
      assert IsDigit(digits[0]);
      assert d != digits;
      assert d != "temp_repos";
    }
  }

  /** The stored path splits back into the relative parts when no part contains a slash. */
  lemma RecordPathParts(e: RepoEntry)
    requires e.text.Some? && |e.parts| >= 1
    requires forall k | 0 <= k < |e.parts| :: !Contains(e.parts[k], "/")
    ensures Split(RecordOf(e).path, "/") == e.parts
  {
    JoinSplit(e.parts, '/');
  }

  // ---------------------------------------------------------------- languages

  /** The extension-to-language table of `detect_languages`. */
  const LANGUAGE_MAP: seq<(string, string)> := [
    (".py", "Python"), (".js", "JavaScript"), (".ts", "TypeScript"),
    (".jsx", "JavaScript (React)"), (".tsx", "TypeScript (React)"),
    (".java", "Java"), (".go", "Go"), (".rs", "Rust"), (".cpp", "C++"),
    (".c", "C"), (".h", "C/C++ Header"), (".hpp", "C++ Header"),
    (".cs", "C#"), (".rb", "Ruby"), (".php", "PHP"), (".swift", "Swift"),
    (".kt", "Kotlin")
  ]

  /** The keys of an ordered string-keyed table. */
  function Keys<V>(t: seq<(string, V)>): (ks: seq<string>)
    ensures |ks| == |t| && forall i | 0 <= i < |t| :: ks[i] == t[i].0
  {
    seq(|t|, i requires 0 <= i < |t| => t[i].0)
  }

  /** `dict.get(key, default)` on a table: the value at the first entry with `key`. */
  function LookupIn<V>(table: seq<(string, V)>, key: string, default: V): (v: V)
    ensures key !in Keys(table) ==> v == default
    ensures forall k | 0 <= k < |table| :: table[k].0 == key && key !in Keys(table[..k]) ==> v == table[k].1
    decreases |table|
  {
    if |table| == 0 then default
    else if table[0].0 == key then table[0].1
    else
      var v := LookupIn(table[1..], key, default);
      forall k | 0 < k < |table|
        ensures table[k] == table[1..][k - 1]
        ensures key !in Keys(table[..k]) ==> key !in Keys(table[1..][..k - 1])
      {
        assert table[1..][..k - 1] == table[1..k];
        if key in Keys(table[1..k]) {
          var j :| 0 <= j < k - 1 && Keys(table[1..k])[j] == key;
          assert Keys(table[..k])[j + 1] == key;
        }
      }
      assert key !in Keys(table) ==> key !in Keys(table[1..]) by {
        if key in Keys(table[1..]) {
          var j :| 0 <= j < |table| - 1 && Keys(table[1..])[j] == key;
          assert Keys(table)[j + 1] == key;
        }
      }
      v
  }

  /** `language_map.get(ext, f"Other ({ext})")`. */
  function LanguageOf(ext: string): string {
    LookupIn(LANGUAGE_MAP, ext, "Other (" + ext + ")")
  }

  /** No two rows of the language table share an extension. */
  lemma LanguageMapDistinct()
    ensures forall i, j | 0 <= i < j < |LANGUAGE_MAP| :: LANGUAGE_MAP[i].0 != LANGUAGE_MAP[j].0
  {
  }

  /** A listed extension maps to its language; any other extension to `Other ({ext})`. */
  lemma LanguageOfTable(ext: string)
    ensures ext !in Keys(LANGUAGE_MAP) ==> LanguageOf(ext) == "Other (" + ext + ")"
    ensures forall k | 0 <= k < |LANGUAGE_MAP| :: LANGUAGE_MAP[k].0 == ext ==> LanguageOf(ext) == LANGUAGE_MAP[k].1
  {
    LanguageMapDistinct();
    forall k | 0 <= k < |LANGUAGE_MAP| && LANGUAGE_MAP[k].0 == ext
      ensures LanguageOf(ext) == LANGUAGE_MAP[k].1
    {
      LookupDistinct(LANGUAGE_MAP, ext, "Other (" + ext + ")", k);
    }
  }

  /** In a table without repeated keys, the entry holding `key` is the one looked up. */
  lemma LookupDistinct<V>(table: seq<(string, V)>, key: string, default: V, k: nat)
    requires forall i, j | 0 <= i < j < |table| :: table[i].0 != table[j].0
    requires k < |table| && table[k].0 == key
    ensures LookupIn(table, key, default) == table[k].1
  {
    assert key !in Keys(table[..k]);
  }

  /** The counts of a histogram. */
  function CountsOf(t: LanguageCounts): (cs: seq<int>)
    ensures |cs| == |t| && forall i | 0 <= i < |t| :: cs[i] == t[i].1
  {
    seq(|t|, i requires 0 <= i < |t| => t[i].1)
  }

  /** The position of the first occurrence of `x` in `xs`. */
  function FirstSeen(xs: seq<string>, x: string): (i: nat)
    requires x in xs
    ensures i < |xs| && xs[i] == x && forall j | 0 <= j < i :: xs[j] != x
  {
    if xs[0] == x then 0 else 1 + FirstSeen(xs[1..], x)
  }

  /** Every key of `t` occurs in `xs` with exactly its count. */
  predicate Counted(xs: seq<string>, t: LanguageCounts) {
    forall i | 0 <= i < |t| :: t[i].0 in xs && t[i].1 == multiset(xs)[t[i].0]
  }

  /** Every element of `xs` is a key of `t`. */
  predicate Covers(xs: seq<string>, t: LanguageCounts) {
    forall x | x in xs :: x in Keys(t)
  }

  /** The keys of `t` occur in `xs` and appear in the order they are first seen there. */
  predicate InFirstSeenOrder(xs: seq<string>, t: LanguageCounts) {
    && (forall i | 0 <= i < |t| :: t[i].0 in xs)
    && (forall i, j | 0 <= i < j < |t| :: FirstSeen(xs, t[i].0) < FirstSeen(xs, t[j].0))
  }

  /** A histogram of `xs`: its distinct elements in first-seen order, each with its count. */
  predicate IsTally(xs: seq<string>, t: LanguageCounts) {
    Counted(xs, t) && Covers(xs, t) && InFirstSeenOrder(xs, t)
  }

  /** The position of `x` among the keys of `t`. */
  function IndexOfKey(t: LanguageCounts, x: string): (r: Option<nat>)
    ensures r.Some? ==> r.value < |t| && t[r.value].0 == x
    ensures r.None? ==> x !in Keys(t)
    decreases |t|
  {
    if |t| == 0 then None
    else if t[|t| - 1].0 == x then Some(|t| - 1)
    else
      var r := IndexOfKey(t[..|t| - 1], x);
      assert Keys(t) == Keys(t[..|t| - 1]) + [t[|t| - 1].0];
      r
  }

  /** `languages[lang] = languages.get(lang, 0) + 1`: bumps an existing key in place or appends a new one. */
  function Bump(t: LanguageCounts, x: string): LanguageCounts {
    match IndexOfKey(t, x)
    case Some(i) => t[i := (x, t[i].1 + 1)]
    case None => t + [(x, 1)]
  }

  /** The histogram the counting loop of `detect_languages` builds over `xs`. */
  function Tally(xs: seq<string>): LanguageCounts
    decreases |xs|
  {
    if |xs| == 0 then [] else Bump(Tally(xs[..|xs| - 1]), xs[|xs| - 1])
  }

  /** Appending an element does not move the first sighting of an earlier one. */
  lemma FirstSeenAppend(p: seq<string>, x: string, y: string)
    requires y in p
    ensures FirstSeen(p + [x], y) == FirstSeen(p, y)
  {
    var a, b := FirstSeen(p, y), FirstSeen(p + [x], y);
    assert (p + [x])[a] == y;
  }

  /** A new element is first seen at the end. */
  lemma FirstSeenNew(p: seq<string>, x: string)
    requires x !in p
    ensures FirstSeen(p + [x], x) == |p|
  {
  }

  /** Keys listed in first-seen order are distinct. */
  lemma OrderedKeysDistinct(xs: seq<string>, t: LanguageCounts, i: nat, j: nat)
    requires InFirstSeenOrder(xs, t) && i < |t| && j < |t| && i != j
    ensures t[i].0 != t[j].0
  {
    if i < j {
      assert FirstSeen(xs, t[i].0) < FirstSeen(xs, t[j].0);
    } else {
      assert FirstSeen(xs, t[j].0) < FirstSeen(xs, t[i].0);
    }
  }

  /** A bump keeps the first-seen order. */
  lemma BumpOrdered(p: seq<string>, x: string, t: LanguageCounts)
    requires InFirstSeenOrder(p, t) && Covers(p, t)
    ensures InFirstSeenOrder(p + [x], Bump(t, x))
  {
    var xs, r := p + [x], Bump(t, x);
    forall y | y in p
      ensures y in xs && FirstSeen(xs, y) == FirstSeen(p, y)
    {
      FirstSeenAppend(p, x, y);
    }
    match IndexOfKey(t, x)
    case Some(i) =>
      SameKeysOrdered(p, xs, t, r);
    case None =>
      assert x !in p;
      FirstSeenNew(p, x);
      assert r[..|t|] == t;
      SameKeysOrdered(p, xs, t, t);
      forall k | 0 <= k < |t|
        ensures FirstSeen(xs, t[k].0) < FirstSeen(xs, x)
      {
        assert t[k].0 in p;
      }
      AppendOrdered(xs, t, x);
  }

  /** Keys in first-seen order stay so when the sequence grows without moving any first sighting. */
  lemma SameKeysOrdered(p: seq<string>, xs: seq<string>, t: LanguageCounts, r: LanguageCounts)
    requires InFirstSeenOrder(p, t)
    requires forall y | y in p :: y in xs && FirstSeen(xs, y) == FirstSeen(p, y)
    requires |r| == |t| && forall k | 0 <= k < |t| :: r[k].0 == t[k].0
    ensures InFirstSeenOrder(xs, r)
  {
    forall i, j | 0 <= i < j < |r|
      ensures FirstSeen(xs, r[i].0) < FirstSeen(xs, r[j].0)
    {
      assert r[i].0 == t[i].0 && r[j].0 == t[j].0;
    }
  }

  /** A new key seen after every listed one extends the first-seen order. */
  lemma AppendOrdered(xs: seq<string>, t: LanguageCounts, x: string)
    requires InFirstSeenOrder(xs, t) && x in xs
    requires forall k | 0 <= k < |t| :: FirstSeen(xs, t[k].0) < FirstSeen(xs, x)
    ensures InFirstSeenOrder(xs, t + [(x, 1)])
  {
    var r := t + [(x, 1)];
    assert forall k | 0 <= k < |t| :: r[k] == t[k];
  }

  /** A bump keeps every element covered. */
  lemma BumpCovers(p: seq<string>, x: string, t: LanguageCounts)
    requires Covers(p, t)
    ensures Covers(p + [x], Bump(t, x))
  {
    var r := Bump(t, x);
    forall y | y in p + [x]
      ensures y in Keys(r)
    {
      if y in p {
        var j :| 0 <= j < |t| && Keys(t)[j] == y;
        assert Keys(r)[j] == y;
      } else {
        assert y == x;
        match IndexOfKey(t, x)
        case Some(i) =>
          assert Keys(r)[i] == y;
        case None =>
          assert Keys(r)[|t|] == y;
      }
    }
  }

  /** A bump counts the new element once more and leaves the other counts. */
  lemma BumpCounted(p: seq<string>, x: string, t: LanguageCounts)
    requires Counted(p, t) && Covers(p, t) && InFirstSeenOrder(p, t)
    ensures Counted(p + [x], Bump(t, x))
  {
    var xs, r := p + [x], Bump(t, x);
    assert multiset(xs) == multiset(p) + multiset{x};
    match IndexOfKey(t, x)
    case Some(i) =>
      forall k | 0 <= k < |r|
        ensures r[k].0 in xs && r[k].1 == multiset(xs)[r[k].0]
      {
        if k != i {
          OrderedKeysDistinct(p, t, i, k);
        }
      }
    case None =>
      assert x !in p;
      forall k | 0 <= k < |r|
        ensures r[k].0 in xs && r[k].1 == multiset(xs)[r[k].0]
      {
        if k < |t| {
          assert r[k] == t[k];
          assert Keys(t)[k] != x;
        }
      }
  }

  /** The counting loop builds a histogram of the languages it saw. */
  lemma {:induction false} TallyIsTally(xs: seq<string>)
    ensures IsTally(xs, Tally(xs))
    decreases |xs|
  {
    if |xs| > 0 {
      var p, x := xs[..|xs| - 1], xs[|xs| - 1];
      TallyIsTally(p);
      assert xs == p + [x];
      BumpOrdered(p, x, Tally(p));
      BumpCovers(p, x, Tally(p));
      BumpCounted(p, x, Tally(p));
    }
  }

  /** Every bump adds one to the total count. */
  lemma {:induction false} TallySum(xs: seq<string>)
    ensures Sum(CountsOf(Tally(xs))) == |xs|
    decreases |xs|
  {
    if |xs| > 0 {
      var p, x := xs[..|xs| - 1], xs[|xs| - 1];
      TallySum(p);
      assert Tally(xs) == Bump(Tally(p), x);
      BumpSum(Tally(p), x);
    }
  }

  /** Counting one more element adds one to the total. */
  lemma BumpSum(t: LanguageCounts, x: string)
    ensures Sum(CountsOf(Bump(t, x))) == Sum(CountsOf(t)) + 1
  {
    match IndexOfKey(t, x)
    case Some(i) =>
      assert CountsOf(Bump(t, x)) == CountsOf(t)[i := t[i].1 + 1];
      SumUpdate(CountsOf(t), i, t[i].1 + 1);
    case None =>
      var c := CountsOf(Bump(t, x));
      assert c[..|c| - 1] == CountsOf(t);
  }

  /** The language of each file, in file order. */
  function LanguagesOf(files: seq<FileRecord>): (langs: seq<string>)
    ensures |langs| == |files|
    ensures forall i | 0 <= i < |files| :: langs[i] == LanguageOf(files[i].extension)
  {
    seq(|files|, i requires 0 <= i < |files| => LanguageOf(files[i].extension))
  }

  /** The negated integers: sorting by them ascending is sorting by the originals descending. */
  function Negated(xs: seq<int>): (r: seq<int>)
    ensures |r| == |xs| && forall i | 0 <= i < |xs| :: r[i] == -xs[i]
  {
    seq(|xs|, i requires 0 <= i < |xs| => -xs[i])
  }

  /** `sorted(t.items(), key=count, reverse=True)`: a stable sort by descending count. */
  function ByCount(t: LanguageCounts): (r: LanguageCounts)
    ensures |r| == |t|
  {
    Permute(t, StableOrder(Negated(CountsOf(t))))
  }

  /** Sorting by count keeps exactly the entries of the histogram. */
  lemma ByCountSameEntries(t: LanguageCounts)
    ensures forall e :: e in ByCount(t) <==> e in t
  {
    var order := StableOrder(Negated(CountsOf(t)));
    var r := ByCount(t);
    forall e | e in t
      ensures e in r
    {
      var j :| 0 <= j < |t| && t[j] == e;
      assert j in order;
      var k :| 0 <= k < |order| && order[k] == j;
      assert r[k] == e;
    }
  }

  /** After sorting, counts do not increase, and equal counts keep their original relative order. */
  lemma ByCountOrder(t: LanguageCounts, p: nat, q: nat)
    requires p < q < |t|
    ensures ByCount(t)[p].1 >= ByCount(t)[q].1
    ensures ByCount(t)[p].1 == ByCount(t)[q].1 ==> exists i, j | 0 <= i < j < |t| :: t[i] == ByCount(t)[p] && t[j] == ByCount(t)[q]
  {
    var keys := Negated(CountsOf(t));
    var order := StableOrder(keys);
    assert Before(keys, order[p], order[q]);
  }

  /** Sorting by count keeps the total. */
  lemma ByCountSum(t: LanguageCounts)
    ensures Sum(CountsOf(ByCount(t))) == Sum(CountsOf(t))
  {
    var keys := Negated(CountsOf(t));
    assert CountsOf(ByCount(t)) == Permute(CountsOf(t), StableOrder(keys));
    SumStableOrder(CountsOf(t), keys);
  }

  /**
   * `detect_languages`: the file count per language, sorted by count with
   * `reverse=True`, which keeps equal counts in insertion order.
   */
  function DetectLanguages(files: seq<FileRecord>): LanguageCounts {
    ByCount(Tally(LanguagesOf(files)))
  }

  /** Sorting a histogram by count keeps it a histogram, except for the order. */
  lemma ByCountCounts(xs: seq<string>, t: LanguageCounts)
    requires Counted(xs, t) && Covers(xs, t)
    ensures Counted(xs, ByCount(t)) && Covers(xs, ByCount(t))
  {
    var r := ByCount(t);
    ByCountSameEntries(t);
    forall k | 0 <= k < |r|
      ensures r[k].0 in xs && r[k].1 == multiset(xs)[r[k].0]
    {
      assert r[k] in t;
    }
    forall x | x in xs
      ensures x in Keys(r)
    {
      var j :| 0 <= j < |t| && Keys(t)[j] == x;
      assert t[j] in r;
      var k :| 0 <= k < |r| && r[k] == t[j];
      assert Keys(r)[k] == x;
    }
  }

  /** Entries of equal count keep the first-seen order of the histogram. */
  lemma ByCountTies(xs: seq<string>, t: LanguageCounts, p: nat, q: nat)
    requires InFirstSeenOrder(xs, t) && p < q < |t|
    requires ByCount(t)[p].1 == ByCount(t)[q].1
    ensures ByCount(t)[p].0 in xs && ByCount(t)[q].0 in xs
    ensures FirstSeen(xs, ByCount(t)[p].0) < FirstSeen(xs, ByCount(t)[q].0)
  {
    ByCountOrder(t, p, q);
    var i, j :| 0 <= i < j < |t| && t[i] == ByCount(t)[p] && t[j] == ByCount(t)[q];
  }

  /**
   * Sorting a histogram of `xs` by count lists every element of `xs` once
   * with its count, larger counts first, equal counts in first-seen order,
   * with the counts adding up to `|xs|`.
   */
  lemma SortedTally(xs: seq<string>)
    ensures Counted(xs, ByCount(Tally(xs))) && Covers(xs, ByCount(Tally(xs)))
    ensures forall p, q | 0 <= p < q < |ByCount(Tally(xs))| :: ByCount(Tally(xs))[p].1 >= ByCount(Tally(xs))[q].1
    ensures forall p, q | 0 <= p < q < |ByCount(Tally(xs))| && ByCount(Tally(xs))[p].1 == ByCount(Tally(xs))[q].1 ::
      FirstSeen(xs, ByCount(Tally(xs))[p].0) < FirstSeen(xs, ByCount(Tally(xs))[q].0)
    ensures Sum(CountsOf(ByCount(Tally(xs)))) == |xs|
  {
    var t := Tally(xs);
    TallyIsTally(xs);
    ByCountCounts(xs, t);
    forall p, q | 0 <= p < q < |t|
      ensures ByCount(t)[p].1 >= ByCount(t)[q].1
    {
      ByCountOrder(t, p, q);
    }
    forall p, q | 0 <= p < q < |t| && ByCount(t)[p].1 == ByCount(t)[q].1
      ensures FirstSeen(xs, ByCount(t)[p].0) < FirstSeen(xs, ByCount(t)[q].0)
    {
      ByCountTies(xs, t, p, q);
    }
    ByCountSum(t);
    TallySum(xs);
  }

  /**
   * The histogram lists every language of the files exactly once with its
   * file count, larger counts first, languages with equal counts in the
   * order their first file was seen, and the counts add up to the number of
   * files.
   */
  lemma DetectLanguagesSpec(files: seq<FileRecord>)
    ensures Counted(LanguagesOf(files), DetectLanguages(files))
    ensures Covers(LanguagesOf(files), DetectLanguages(files))
    ensures forall p, q | 0 <= p < q < |DetectLanguages(files)| ::
      DetectLanguages(files)[p].1 >= DetectLanguages(files)[q].1
    ensures forall p, q | 0 <= p < q < |DetectLanguages(files)| && DetectLanguages(files)[p].1 == DetectLanguages(files)[q].1 ::
      FirstSeen(LanguagesOf(files), DetectLanguages(files)[p].0) < FirstSeen(LanguagesOf(files), DetectLanguages(files)[q].0)
    ensures Sum(CountsOf(DetectLanguages(files))) == |files|
  {
    SortedTally(LanguagesOf(files));
  }
}

=== FILE: llm.dfy ===
/**
 * The pure parts of the LLM service: round-robin key rotation, the
 * formatting of code samples for the prompt, the extraction of JSON from a
 * fenced reply, and the construction of the health report, including the
 * fallback report for a reply that is not JSON.  The model call and
 * `json.loads` are parameters; the prompt template's wording is left out.
 */
module Llm {
  import opened Wrappers
  import opened Text
  import opened Schemas

  // ---------------------------------------------------------------- key rotation

  /** The configured keys and the position of the next one to use. */
  datatype KeyRing = KeyRing(keys: seq<string>, index: nat)

  /** There is a key, and the position points at one. */
  predicate ValidRing(r: KeyRing) {
    |r.keys| > 0 && r.index < |r.keys|
  }

  const NO_KEYS_CONFIGURED: string := "No Google API keys configured"

  /** The constructor: refuses an empty key list, and otherwise starts at the first key. */
  function NewKeyRing(keys: seq<string>): (r: Result<KeyRing, string>)
    ensures r.Failure? <==> |keys| == 0
    ensures r.Failure? ==> r.error == NO_KEYS_CONFIGURED
    ensures r.Success? ==> ValidRing(r.value) && r.value.keys == keys
  {
    if |keys| == 0 then Failure(NO_KEYS_CONFIGURED) else Success(KeyRing(keys, 0))
  }

  /** `_get_next_api_key`: the current key, and the ring advanced by one, wrapping around. */
  function NextKey(r: KeyRing): (res: (KeyRing, string))
    requires ValidRing(r)
    ensures ValidRing(res.0) && res.0.keys == r.keys
    ensures res.1 == r.keys[r.index]
  {
    (KeyRing(r.keys, (r.index + 1) % |r.keys|), r.keys[r.index])
  }

  /** `k` successive key requests: the final ring and the keys handed out. */
  function Draws(r: KeyRing, k: nat): (res: (KeyRing, seq<string>))
    requires ValidRing(r)
    ensures ValidRing(res.0) && res.0.keys == r.keys && |res.1| == k
    decreases k
  {
    if k == 0 then (r, [])
    else
      var (r1, ks) := Draws(r, k - 1);
      var (r2, key) := NextKey(r1);
      (r2, ks + [key])
  }

  /** Euclidean division has one quotient and remainder. */
  lemma DivModUnique(x: nat, n: nat, q: int, r: int)
    requires n > 0 && 0 <= r < n && x == q * n + r
    ensures x % n == r
  {
    var q', r' := x / n, x % n;
    assert x == q' * n + r';
    if q > q' {
      MulAtLeast(q - q', n);
    } else if q < q' {
      MulAtLeast(q' - q, n);
    }
  }

  lemma MulAtLeast(a: int, n: nat)
    requires a >= 1
    ensures a * n >= n
  {
  }

  /** Advancing a remainder by one and wrapping gives the next number's remainder. */
  lemma ModSucc(k: nat, n: nat)
    requires n > 0
    ensures (k % n + 1) % n == (k + 1) % n
  {
    var q, r := k / n, k % n;
    assert k == q * n + r;
    if r + 1 < n {
      DivModUnique(k + 1, n, q, r + 1);
      DivModUnique(r + 1, n, 0, r + 1);
    } else {
      assert k + 1 == (q + 1) * n + 0;
      DivModUnique(k + 1, n, q + 1, 0);
      DivModUnique(r + 1, n, 1, 0);
    }
  }

  /**
   * Round robin: starting from a fresh ring, the `i`-th request (from 0)
   * gets `keys[i mod n]`, and after `k` requests the ring points at
   * `k mod n`.
   */
  lemma {:induction false} RoundRobin(keys: seq<string>, k: nat)
    requires |keys| > 0
    ensures var (r, ks) := Draws(KeyRing(keys, 0), k);
      r.index == k % |keys| && forall i | 0 <= i < k :: ks[i] == keys[i % |keys|]
    decreases k
  {
    if k > 0 {
      RoundRobin(keys, k - 1);
      ModSucc(k - 1, |keys|);
    }
  }

  // ---------------------------------------------------------------- sample formatting

  /** The metadata of a sample as the formatter reads it; every field may be missing. */
  datatype SampleMeta = SampleMeta(filePath: Option<string>, language: Option<string>, chunkIndex: Option<int>)

  /** A code sample: its content and its metadata, either possibly missing. */
  datatype Sample = Sample(content: Option<string>, metadata: Option<SampleMeta>)

  /** At most this many samples are shown in the prompt. */
  const MAX_SHOWN_SAMPLES: nat := 20

  /** At most this many characters of a sample are shown. */
  const MAX_SAMPLE_CHARS: nat := 1200

  /** Appended to a sample that was cut. */
  const TRUNCATION_MARK: string := "\n... (truncated)"

  /** A sample's content cut to its first 1200 characters, marked when something was cut. */
  function Truncate(content: string): (r: string)
    ensures |content| <= MAX_SAMPLE_CHARS ==> r == content
    ensures |content| > MAX_SAMPLE_CHARS ==>
      |r| == MAX_SAMPLE_CHARS + |TRUNCATION_MARK| && r[..MAX_SAMPLE_CHARS] == content[..MAX_SAMPLE_CHARS]
      && r[MAX_SAMPLE_CHARS..] == TRUNCATION_MARK
  {
    if |content| > MAX_SAMPLE_CHARS then content[..MAX_SAMPLE_CHARS] + TRUNCATION_MARK else content
  }

  /** The metadata defaults: path and language `unknown`, chunk 0. */
  function MetaOf(s: Sample): SampleMeta {
    s.metadata.GetOr(SampleMeta(None, None, None))
  }

  /** The block shown for the sample numbered `idx`. */
  function Block(idx: nat, s: Sample): string {
    var m := MetaOf(s);
    "\n━━━ Sample " + NatToString(idx) + ": " + m.filePath.GetOr("unknown")
      + " (chunk " + IntToString(m.chunkIndex.GetOr(0)) + ") ━━━\nLanguage: "
      + m.language.GetOr("unknown") + "\n```\n" + Truncate(s.content.GetOr("")) + "\n```\n"
  }

  /** How many samples are shown. */
  function Shown(samples: seq<Sample>): (n: nat)
    ensures n <= MAX_SHOWN_SAMPLES && n <= |samples|
    ensures n == MAX_SHOWN_SAMPLES || n == |samples|
  {
    if |samples| <= MAX_SHOWN_SAMPLES then |samples| else MAX_SHOWN_SAMPLES
  }

  /** The blocks of the shown samples, numbered from 1. */
  function Blocks(samples: seq<Sample>): (bs: seq<string>)
    ensures |bs| == Shown(samples)
  {
    seq(Shown(samples), i requires 0 <= i < Shown(samples) => Block(i + 1, samples[i]))
  }

  /** `_format_code_samples`: the blocks joined by newlines. */
  function FormatSamples(samples: seq<Sample>): string {
    Join(Blocks(samples), "\n")
  }

  /**
   * Only the first 20 samples matter: the formatted text of any list is
   * that of its first 20 samples, and adding samples beyond the twentieth
   * changes nothing.
   */
  lemma FormatSeesTwenty(samples: seq<Sample>, more: seq<Sample>)
    ensures FormatSamples(samples) == FormatSamples(samples[..Shown(samples)])
    ensures |samples| >= MAX_SHOWN_SAMPLES ==> FormatSamples(samples + more) == FormatSamples(samples)
  {
    assert Blocks(samples) == Blocks(samples[..Shown(samples)]);
    if |samples| >= MAX_SHOWN_SAMPLES {
      assert Blocks(samples + more) == Blocks(samples);
    }
  }

  /** The `k`-th shown block carries the number `k + 1` and the `k`-th sample's defaults-filled metadata and cut content. */
  lemma BlockContents(samples: seq<Sample>, k: nat)
    requires k < Shown(samples)
    ensures var m := MetaOf(samples[k]);
      Blocks(samples)[k] == Block(k + 1, samples[k])
      && (samples[k].metadata.None? ==> m.filePath.GetOr("unknown") == "unknown" && m.language.GetOr("unknown") == "unknown" && m.chunkIndex.GetOr(0) == 0)
  {
  }

  // ---------------------------------------------------------------- fence extraction

  const FENCE: string := "```"
  const JSON_FENCE: string := "```json"

  /**
   * The JSON text of a reply: after the first "```json" up to the next
   * fence when there is one; else between the first two fences when there is
   * a fence; stripped in both cases; else the reply as is.
   */
  function ExtractJson(content: string): string {
    if Contains(content, JSON_FENCE) then
      var parts := Split(content, JSON_FENCE);
      assert |parts| >= 2 by { ContainsSplits(content, JSON_FENCE); }
      Strip(BeforeFirst(parts[1], FENCE))
    else if Contains(content, FENCE) then
      var parts := Split(content, FENCE);
      assert |parts| >= 2 by { ContainsSplits(content, FENCE); }
      Strip(BeforeFirst(parts[1], FENCE))
    else content
  }

  /** A separator that occurs splits the text into at least two pieces. */
  lemma ContainsSplits(s: string, sep: string)
    requires |sep| > 0 && Contains(s, sep)
    ensures |Split(s, sep)| >= 2
  {
  }

  /** No backquote in `s`. */
  predicate NoTicks(s: string) {
    forall i | 0 <= i < |s| :: s[i] != '`'
  }

  /** A reply without a fence is used as it is. */
  lemma ExtractUnfenced(content: string)
    requires !Contains(content, FENCE)
    ensures ExtractJson(content) == content
  {
    if Contains(content, JSON_FENCE) {
      var k := IndexOf(content, JSON_FENCE).value;
      assert content[k..k + 3] == content[k..k + 7][..3];
      OccursContains(content, FENCE, k);
    }
  }

  /**
   * A "```json" block round-trips: for text without backquotes before the
   * block and inside it, and anything after the closing fence that does not
   * begin with a backquote, the extracted text is the block's stripped body.
   */
  lemma ExtractJsonBlock(pre: string, body: string, post: string)
    requires NoTicks(pre) && NoTicks(body)
    requires |post| == 0 || post[0] != '`'
    ensures ExtractJson(pre + JSON_FENCE + body + FENCE + post) == Strip(body)
  {
    var s := pre + JSON_FENCE + (body + FENCE + post);
    assert s == pre + JSON_FENCE + body + FENCE + post;
    ContainsAt(pre, JSON_FENCE, body + FENCE + post);
    SplitSecond(pre, JSON_FENCE, body + FENCE + post);
    JsonPieceBody(body, post);
  }

  /** Cutting the piece after "```json" at the next fence leaves the body. */
  lemma JsonPieceBody(body: string, post: string)
    requires NoTicks(body)
    requires |post| == 0 || post[0] != '`'
    ensures BeforeFirst(BeforeFirst(body + FENCE + post, JSON_FENCE), FENCE) == body
  {
    var t := body + FENCE + post;
    var part := BeforeFirst(t, JSON_FENCE);
    assert t == body + (FENCE + post);
    IndexOfSkips(body, FENCE + post, JSON_FENCE);
    match IndexOf(t, JSON_FENCE)
    case None =>
      assert part == t;
      BeforeFirstSkip(body, FENCE, post);
    case Some(k) =>
      assert part == t[..k];
      assert k >= |body|;
      if k == |body| {
        assert part == body;
        BeforeFirstFree(body, FENCE);
      } else {
        FenceNotBeforeTail(body, post, k);
        assert part == body + FENCE + part[|body| + 3..];
        BeforeFirstSkip(body, FENCE, part[|body| + 3..]);
      }
  }

  /** Where "```json" occurs, character by character. */
  lemma JsonFenceAt(s: string, k: nat)
    ensures OccursAt(s, JSON_FENCE, k) <==>
      && k + 7 <= |s|
      && s[k] == '`' && s[k + 1] == '`' && s[k + 2] == '`'
      && s[k + 3] == 'j' && s[k + 4] == 's' && s[k + 5] == 'o' && s[k + 6] == 'n'
  {
    if k + 7 <= |s| {
      var w := s[k..k + 7];
      assert w[0] == s[k] && w[1] == s[k + 1] && w[2] == s[k + 2] && w[3] == s[k + 3];
      assert w[4] == s[k + 4] && w[5] == s[k + 5] && w[6] == s[k + 6];
    }
  }

  /** A "```json" cannot straddle a fence followed by something other than a backquote. */
  lemma FenceNotBeforeTail(body: string, post: string, k: nat)
    requires |post| == 0 || post[0] != '`'
    requires |body| < k
    ensures OccursAt(body + FENCE + post, JSON_FENCE, k) ==> k >= |body| + 3
  {
    var t := body + FENCE + post;
    JsonFenceAt(t, k);
    if |post| > 0 {
      assert t[|body| + 3] == post[0];
    }
  }

  /**
   * A plain fenced block round-trips: with no backquote anywhere outside the
   * fences, and neither the body nor the text after the block starting with
   * `json`, the extracted text is the block's stripped body.
   */
  lemma ExtractPlainBlock(pre: string, body: string, post: string)
    requires NoTicks(pre) && NoTicks(body) && NoTicks(post)
    requires !StartsWith(body, "json") && !StartsWith(post, "json")
    ensures ExtractJson(pre + FENCE + body + FENCE + post) == Strip(body)
  {
    var s := pre + FENCE + (body + FENCE + post);
    assert s == pre + FENCE + body + FENCE + post;
    NoJsonFence(pre, body, post);
    ContainsAt(pre, FENCE, body + FENCE + post);
    SplitSecond(pre, FENCE, body + FENCE + post);
    BeforeFirstSkip(body, FENCE, post);
  }

  /** In `pre + FENCE + body + FENCE + post` without other backquotes, the backquotes are exactly the two fences. */
  lemma TickPositions(pre: string, body: string, post: string)
    requires NoTicks(pre) && NoTicks(body) && NoTicks(post)
    ensures var s, a, b := pre + FENCE + body + FENCE + post, |pre|, |pre| + 3 + |body|;
      && |s| == b + 3 + |post|
      && (forall i | 0 <= i < |s| :: s[i] == '`' <==> (a <= i < a + 3 || b <= i < b + 3))
      && (forall i | 0 <= i < |body| :: s[a + 3 + i] == body[i])
      && (forall i | 0 <= i < |post| :: s[b + 3 + i] == post[i])
  {
  }

  /** Where backquotes come only in the two fences and neither body nor tail starts with `json`, there is no "```json". */
  lemma NoJsonFence(pre: string, body: string, post: string)
    requires NoTicks(pre) && NoTicks(body) && NoTicks(post)
    requires !StartsWith(body, "json") && !StartsWith(post, "json")
    ensures !Contains(pre + FENCE + body + FENCE + post, JSON_FENCE)
  {
    var s := pre + FENCE + body + FENCE + post;
    forall k: nat
      ensures !OccursAt(s, JSON_FENCE, k)
    {
      NoJsonFenceAt(pre, body, post, k);
    }
  }

  /** An occurrence of "```json" there would have to start at one of the fences, and then be followed by `json`. */
  lemma NoJsonFenceAt(pre: string, body: string, post: string, k: nat)
    requires NoTicks(pre) && NoTicks(body) && NoTicks(post)
    requires !StartsWith(body, "json") && !StartsWith(post, "json")
    ensures !OccursAt(pre + FENCE + body + FENCE + post, JSON_FENCE, k)
  {
    var s, a, b := pre + FENCE + body + FENCE + post, |pre|, |pre| + 3 + |body|;
    TickPositions(pre, body, post);
    JsonFenceAt(s, k);
    if k == a && |body| >= 4 {
      assert s[a + 3..a + 7] == body[..4];
    } else if k == b && |post| >= 4 {
      assert s[b + 3..b + 7] == post[..4];
    }
  }

  // ---------------------------------------------------------------- the report

  /** The score used when the reply gives none. */
  const DEFAULT_SCORE: Score := 50.0

  /** The summary used when the reply gives none. */
  const DEFAULT_SUMMARY: string := "Analysis completed"

  /** The start of the fallback report's summary; the parser's message follows. */
  const FALLBACK_PREFIX: string := "Analysis failed: Could not parse LLM response. Error: "

  /** The report's metadata is `meta`. */
  predicate Carries(r: HealthReportData, meta: ReportMeta) {
    && r.languagesDetected == meta.languages && r.dependenciesFound == meta.dependencies
    && r.totalFilesAnalyzed == meta.totalFiles && r.analysisTimestamp == meta.timestamp
  }

  /**
   * An item list read from the reply with `dict.get(name, [])` and iterated
   * into records: an absent field is the empty list; an array is validated
   * element by element; an empty object or empty string iterates to nothing;
   * any other value cannot be iterated into records.
   */
  function ReplyList(f: seq<(string, Json)>, name: string, sh: Shape): (r: Result<seq<Quad>, ValidationError>)
    ensures Get(f, name).None? ==> r == Success([])
    ensures Get(f, name).Some? && Get(f, name).value.JArr? ==> r == QuadList(Get(f, name).value.elems, sh)
    ensures r.Success? && r.value != [] ==> Get(f, name).Some? && Get(f, name).value.JArr?
  {
    match Get(f, name)
    case None => Success([])
    case Some(JArr(es)) => QuadList(es, sh)
    case Some(JObj(fs)) => if |fs| == 0 then Success([]) else Failure(WrongType(name))
    case Some(JStr(t)) => if |t| == 0 then Success([]) else Failure(WrongType(name))
    case Some(_) => Failure(WrongType(name))
  }

  /** The score with `dict.get(.., 50.0)`, then the model's bound check. */
  function ReplyScore(f: seq<(string, Json)>): (r: Result<Score, ValidationError>)
    ensures Get(f, "code_quality_score").None? ==> r == Success(DEFAULT_SCORE)
    ensures Get(f, "code_quality_score").Some? ==> r == ScoreField(f)
  {
    match Get(f, "code_quality_score")
    case None => Success(DEFAULT_SCORE)
    case Some(_) => ScoreField(f)
  }

  /** The summary with `dict.get(.., "Analysis completed")`; it must be a string. */
  function ReplySummary(f: seq<(string, Json)>): (r: Result<string, ValidationError>)
    ensures Get(f, "overall_summary").None? ==> r == Success(DEFAULT_SUMMARY)
    ensures Get(f, "overall_summary").Some? ==> r == StrField(f, "overall_summary")
  {
    match Get(f, "overall_summary")
    case None => Success(DEFAULT_SUMMARY)
    case Some(_) => StrField(f, "overall_summary")
  }

  /**
   * The report built from the decoded reply: the three item lists in order,
   * then the score and the summary; the metadata is what the service was
   * given, never what the reply says.  A reply that is not an object has no
   * `get`.
   */
  function ReportFromReply(j: Json, meta: ReportMeta): (r: Result<HealthReportData, ValidationError>)
    ensures !j.JObj? ==> r == Failure(NotAnObject)
    ensures r.Success? ==> Carries(r.value, meta)
  {
    if !j.JObj? then Failure(NotAnObject)
    else
      var f := j.fields;
      var vs :- ReplyList(f, "vulnerabilities", VULNERABILITY_SHAPE);
      var ts :- ReplyList(f, "tech_debt_items", TECH_DEBT_SHAPE);
      var ms :- ReplyList(f, "modernization_suggestions", MODERNIZATION_SHAPE);
      var score :- ReplyScore(f);
      var summary :- ReplySummary(f);
      Success(HealthReportData(score, VulnerabilitiesOf(vs), TechDebtsOf(ts), ModernizationsOf(ms), summary,
                               meta.languages, meta.dependencies, meta.totalFiles, meta.timestamp))
  }

  /** A reply object that names none of the report's fields gives the default report. */
  lemma ReplyDefaults(f: seq<(string, Json)>, meta: ReportMeta)
    requires forall i | 0 <= i < |f| :: f[i].0 !in REPORT_FIELDS[..5]
    ensures ReportFromReply(JObj(f), meta) == Success(HealthReportData(
      DEFAULT_SCORE, [], [], [], DEFAULT_SUMMARY, meta.languages, meta.dependencies, meta.totalFiles, meta.timestamp))
  {
    assert REPORT_FIELDS[..5] == ["code_quality_score", "vulnerabilities", "tech_debt_items",
                                  "modernization_suggestions", "overall_summary"];
  }

  /**
   * The reply reader accepts everything the stored-report reader accepts,
   * with the same body: where the five body fields validate as a stored
   * report, the reply gives that report with the service's metadata.
   */
  lemma ReplyAcceptsStored(f: seq<(string, Json)>, meta: ReportMeta)
    requires BodyFrom(f).Success?
    ensures var b := BodyFrom(f).value;
      ReportFromReply(JObj(f), meta) == Success(HealthReportData(
        b.score, b.vulnerabilities, b.techDebtItems, b.modernizationSuggestions, b.summary,
        meta.languages, meta.dependencies, meta.totalFiles, meta.timestamp))
  {
    assert ListField(f, "vulnerabilities", VULNERABILITY_SHAPE) == ReplyList(f, "vulnerabilities", VULNERABILITY_SHAPE);
    assert ListField(f, "tech_debt_items", TECH_DEBT_SHAPE) == ReplyList(f, "tech_debt_items", TECH_DEBT_SHAPE);
    assert ListField(f, "modernization_suggestions", MODERNIZATION_SHAPE)
      == ReplyList(f, "modernization_suggestions", MODERNIZATION_SHAPE);
  }

  /** A reply carrying a dumped report gives that report back, with the service's metadata in place of the dumped one. */
  lemma ReplyRoundTrip(r: HealthReportData, meta: ReportMeta)
    ensures ReportFromReply(ReportToJson(r), meta) == Success(HealthReportData(
      r.codeQualityScore, r.vulnerabilities, r.techDebtItems, r.modernizationSuggestions, r.overallSummary,
      meta.languages, meta.dependencies, meta.totalFiles, meta.timestamp))
  {
    var f := ReportToJson(r).fields;
    DumpedBodyFields(r);
    BodyRoundTrip(f, r);
    ReplyAcceptsStored(f, meta);
  }

  /** The report returned when the reply is not JSON: neutral score, no findings, the parser's message. */
  function FallbackReport(message: string, meta: ReportMeta): (r: HealthReportData)
    ensures r.codeQualityScore == DEFAULT_SCORE
    ensures r.vulnerabilities == [] && r.techDebtItems == [] && r.modernizationSuggestions == []
    ensures StartsWith(r.overallSummary, FALLBACK_PREFIX) && r.overallSummary[|FALLBACK_PREFIX|..] == message
    ensures r.languagesDetected == meta.languages && r.dependenciesFound == meta.dependencies
    ensures r.totalFilesAnalyzed == meta.totalFiles && r.analysisTimestamp == meta.timestamp
  {
    HealthReportData(DEFAULT_SCORE, [], [], [], FALLBACK_PREFIX + message,
                     meta.languages, meta.dependencies, meta.totalFiles, meta.timestamp)
  }

  // ---------------------------------------------------------------- generation

  /** What the prompt is filled with. */
  datatype Prompt = Prompt(
    languages: LanguageCounts,
    dependencies: Dependencies,
    totalFiles: int,
    codeSamples: string,
    numSamples: nat)

  /** The outcome of invoking the model: its reply text, or the exception it raised. */
  datatype LlmReply = Replied(content: string) | Raised(message: string)

  /** Why report generation raised: the call failed, or the decoded reply did not make a report. */
  datatype GenerateError = CallFailed(message: string) | BadReply(reason: ValidationError)

  /** The prompt for the given analysis: every sample counted, the first twenty formatted. */
  function PromptFor(languages: LanguageCounts, dependencies: Dependencies, totalFiles: int, samples: seq<Sample>): (p: Prompt)
    ensures p.numSamples == |samples| && p.totalFiles == totalFiles
    ensures p.languages == languages && p.dependencies == dependencies
  {
    Prompt(languages, dependencies, totalFiles, FormatSamples(samples), |samples|)
  }

  /**
   * Everything after the call: the exception is raised again; otherwise the
   * JSON is extracted and decoded, a decoding error gives the fallback
   * report, and a decoded value is turned into the report.
   */
  function Outcome(reply: LlmReply, parse: string -> Result<Json, string>, meta: ReportMeta): (r: Result<HealthReportData, GenerateError>)
    ensures reply.Raised? ==> r == Failure(CallFailed(reply.message))
    ensures r.Success? ==> Carries(r.value, meta)
  {
    match reply
    case Raised(e) => Failure(CallFailed(e))
    case Replied(content) =>
      match parse(ExtractJson(content))
      case Failure(message) => Success(FallbackReport(message, meta))
      case Success(j) =>
        match ReportFromReply(j, meta)
        case Success(report) => Success(report)
        case Failure(why) => Failure(BadReply(why))
  }

  /**
   * `generate_health_report`: the next key is drawn (before anything can
   * fail), the model is called with it, and the outcome is read; the ring
   * comes back advanced whatever happens.
   */
  function GenerateHealthReport(
    ring: KeyRing, languages: LanguageCounts, dependencies: Dependencies, totalFiles: int, samples: seq<Sample>,
    call: (string, Prompt) -> LlmReply, parse: string -> Result<Json, string>, now: int
  ): (res: (KeyRing, Result<HealthReportData, GenerateError>))
    requires ValidRing(ring)
    ensures ValidRing(res.0) && res.0.keys == ring.keys && res.0.index == (ring.index + 1) % |ring.keys|
    ensures res.1.Success? ==> Carries(res.1.value, ReportMeta(Some(languages), Some(dependencies), Some(totalFiles), Some(now)))
  {
    var (next, key) := NextKey(ring);
    var meta := ReportMeta(Some(languages), Some(dependencies), Some(totalFiles), Some(now));
    (next, Outcome(call(key, PromptFor(languages, dependencies, totalFiles, samples)), parse, meta))
  }

  /** Only the current key and the prompt matter: two models that answer that call alike give the same result. */
  lemma CurrentKeyDecides(
    ring: KeyRing, languages: LanguageCounts, dependencies: Dependencies, totalFiles: int, samples: seq<Sample>,
    call: (string, Prompt) -> LlmReply, other: (string, Prompt) -> LlmReply, parse: string -> Result<Json, string>, now: int)
    requires ValidRing(ring)
    requires call(ring.keys[ring.index], PromptFor(languages, dependencies, totalFiles, samples))
          == other(ring.keys[ring.index], PromptFor(languages, dependencies, totalFiles, samples))
    ensures GenerateHealthReport(ring, languages, dependencies, totalFiles, samples, call, parse, now)
         == GenerateHealthReport(ring, languages, dependencies, totalFiles, samples, other, parse, now)
  {
  }

  /** A reply that does not decode gives the fallback report carrying the decoder's message, never an exception. */
  lemma UndecodableGivesFallback(
    ring: KeyRing, languages: LanguageCounts, dependencies: Dependencies, totalFiles: int, samples: seq<Sample>,
    call: (string, Prompt) -> LlmReply, parse: string -> Result<Json, string>, now: int)
    requires ValidRing(ring)
    requires var reply := call(ring.keys[ring.index], PromptFor(languages, dependencies, totalFiles, samples));
      reply.Replied? && parse(ExtractJson(reply.content)).Failure?
    ensures var reply := call(ring.keys[ring.index], PromptFor(languages, dependencies, totalFiles, samples));
      var r := GenerateHealthReport(ring, languages, dependencies, totalFiles, samples, call, parse, now).1;
      && r.Success?
      && r.value.codeQualityScore == DEFAULT_SCORE
      && r.value.vulnerabilities == [] && r.value.techDebtItems == [] && r.value.modernizationSuggestions == []
      && r.value.overallSummary == FALLBACK_PREFIX + parse(ExtractJson(reply.content)).error
  {
  }

  /**
   * End to end: when the model answers with a "```json" block whose body
   * decodes to a dumped report, the service returns that report, with the
   * languages, dependencies, file count and time it was given.
   */
  lemma GenerateRoundTrip(
    ring: KeyRing, languages: LanguageCounts, dependencies: Dependencies, totalFiles: int, samples: seq<Sample>,
    call: (string, Prompt) -> LlmReply, parse: string -> Result<Json, string>, now: int,
    pre: string, body: string, post: string, r: HealthReportData)
    requires ValidRing(ring)
    requires NoTicks(pre) && NoTicks(body) && (|post| == 0 || post[0] != '`')
    requires call(ring.keys[ring.index], PromptFor(languages, dependencies, totalFiles, samples))
          == Replied(pre + JSON_FENCE + body + FENCE + post)
    requires parse(Strip(body)) == Success(ReportToJson(r))
    ensures GenerateHealthReport(ring, languages, dependencies, totalFiles, samples, call, parse, now).1
         == Success(HealthReportData(
              r.codeQualityScore, r.vulnerabilities, r.techDebtItems, r.modernizationSuggestions, r.overallSummary,
              Some(languages), Some(dependencies), Some(totalFiles), Some(now)))
  {
    ExtractJsonBlock(pre, body, post);
    ReplyRoundTrip(r, ReportMeta(Some(languages), Some(dependencies), Some(totalFiles), Some(now)));
  }
}

=== FILE: manifests.dfy ===
/**
 * `parse_dependencies`: the package lists read from the dependency manifests
 * at the top of a clone.  Whether each manifest exists, whether it could be
 * read, and (for `package.json`) the decoded JSON are inputs; a manifest
 * that cannot be read or parsed leaves its ecosystem out, as the service's
 * `except` clauses do.  Lines are the file's text after universal-newline
 * translation, split at `\n`.
 */
module Manifests {
  import opened Wrappers
  import opened Text
  import opened Schemas
  import GitHub

  /** A manifest file: missing, present but unreadable, or read. */
  datatype Manifest<T> = Absent | Unreadable | Present(content: T)

  /** What the parser finds at the top of the clone. */
  datatype ManifestFiles = ManifestFiles(
    requirements: Manifest<string>,
    packageJson: Manifest<Json>,
    pomXml: bool,
    goMod: Manifest<string>,
    cargoToml: bool)

  // ---------------------------------------------------------------- requirements.txt

  /** The version operators a requirement line is cut at, in the order they are applied. */
  const REQUIREMENT_OPERATORS: seq<string> := ["==", ">=", "<=", "~="]

  /** A character that can start or end a version operator. */
  predicate OperatorChar(c: char) {
    c == '=' || c == '<' || c == '>' || c == '~'
  }

  /** No character of `s` belongs to a version operator. */
  predicate OperatorFree(s: string) {
    forall i | 0 <= i < |s| :: !OperatorChar(s[i])
  }

  /** Every version operator is two characters, an operator character followed by `=`. */
  lemma OperatorShape(op: string)
    requires op in REQUIREMENT_OPERATORS
    ensures |op| == 2 && OperatorChar(op[0]) && op[1] == '='
  {
  }

  /** `s.split(ops[0])[0].split(ops[1])[0]...`: the text before the first of each operator in turn. */
  function CutAll(s: string, ops: seq<string>): (r: string)
    requires forall k | 0 <= k < |ops| :: |ops[k]| > 0
    ensures StartsWith(s, r)
    decreases |ops|
  {
    if |ops| == 0 then s
    else
      var head := BeforeFirst(s, ops[0]);
      var r := CutAll(head, ops[1..]);
      assert s[..|r|] == head[..|r|];
      r
  }

  /** A prefix of a string without `p` is without `p`. */
  lemma PrefixFree(s: string, r: string, p: string)
    requires StartsWith(s, r) && !Contains(s, p)
    ensures !Contains(r, p)
  {
    if Contains(r, p) {
      assert s[0..|r|] == r;
      ContainsSlice(s, 0, |r|, p);
    }
  }

  /** After the cuts, none of the operators is left. */
  lemma {:induction false} CutAllFree(s: string, ops: seq<string>)
    requires forall k | 0 <= k < |ops| :: |ops[k]| > 0
    ensures forall k | 0 <= k < |ops| :: !Contains(CutAll(s, ops), ops[k])
    decreases |ops|
  {
    if |ops| > 0 {
      var head := BeforeFirst(s, ops[0]);
      CutAllFree(head, ops[1..]);
      PrefixFree(head, CutAll(head, ops[1..]), ops[0]);
      assert forall k | 1 <= k < |ops| :: ops[k] == ops[1..][k - 1];
    }
  }

  /** Stripping what is left after the cuts keeps a prefix of the line that is free of every operator. */
  lemma StripCut(line: string, ops: seq<string>)
    requires |line| > 0 ==> !IsSpace(line[0])
    requires forall k | 0 <= k < |ops| :: |ops[k]| > 0
    ensures StartsWith(line, Strip(CutAll(line, ops)))
    ensures forall k | 0 <= k < |ops| :: !Contains(Strip(CutAll(line, ops)), ops[k])
  {
    var cut := CutAll(line, ops);
    CutAllFree(line, ops);
    StripKeepsPrefix(cut);
    var name := Strip(cut);
    assert line[..|name|] == cut[..|name|];
    forall k | 0 <= k < |ops|
      ensures !Contains(name, ops[k])
    {
      PrefixFree(cut, name, ops[k]);
    }
  }

  /**
   * The package name of a requirement line: the stripped line cut before the
   * first `==`, then the first `>=`, `<=` and `~=`, and stripped again.
   */
  function RequirementName(line: string): (name: string)
    ensures StartsWith(Strip(line), name)
    ensures forall k | 0 <= k < |REQUIREMENT_OPERATORS| :: !Contains(name, REQUIREMENT_OPERATORS[k])
    ensures |name| > 0 ==> !IsSpace(name[0]) && !IsSpace(name[|name| - 1])
  {
    StripCut(Strip(line), REQUIREMENT_OPERATORS);
    Strip(CutAll(Strip(line), REQUIREMENT_OPERATORS))
  }

  /** `p` does not occur in an operator-free string when `p` starts with an operator character. */
  lemma NotInOperatorFree(s: string, p: string)
    requires OperatorFree(s) && |p| > 0 && OperatorChar(p[0])
    ensures IndexOf(s, p) == None
  {
  }

  /** In `name + op + version` the operator `sep` occurs only if it is `op`, right after the name. */
  lemma IndexOfPinned(name: string, op: string, version: string, sep: string)
    requires OperatorFree(name) && OperatorFree(version)
    requires op in REQUIREMENT_OPERATORS && sep in REQUIREMENT_OPERATORS
    ensures IndexOf(name + op + version, sep) == if sep == op then Some(|name|) else None
  {
    OperatorShape(op);
    OperatorShape(sep);
    var tail := op + version;
    assert name + op + version == name + tail;
    IndexOfSkips(name, tail, sep);
    if sep == op {
      assert tail[0..2] == op;
      IndexOfIs(tail, sep, 0);
    }
  }

  /** `BeforeFirst` keeps all of a string in which the separator does not occur. */
  lemma BeforeFirstAbsent(s: string, sep: string)
    requires |sep| > 0 && IndexOf(s, sep) == None
    ensures BeforeFirst(s, sep) == s
  {
  }

  /** Cutting an operator-free string changes nothing. */
  lemma {:induction false} CutAllOperatorFree(s: string, ops: seq<string>)
    requires OperatorFree(s)
    requires forall k | 0 <= k < |ops| :: ops[k] in REQUIREMENT_OPERATORS
    ensures CutAll(s, ops) == s
    decreases |ops|
  {
    if |ops| > 0 {
      OperatorShape(ops[0]);
      NotInOperatorFree(s, ops[0]);
      BeforeFirstAbsent(s, ops[0]);
      CutAllOperatorFree(s, ops[1..]);
    }
  }

  /** Cutting `name + op + version` at a list of operators that includes `op` leaves the name. */
  lemma {:induction false} CutAllPinned(name: string, op: string, version: string, ops: seq<string>)
    requires OperatorFree(name) && OperatorFree(version) && op in REQUIREMENT_OPERATORS
    requires forall k | 0 <= k < |ops| :: ops[k] in REQUIREMENT_OPERATORS
    ensures CutAll(name + op + version, ops) == if op in ops then name else name + op + version
    decreases |ops|
  {
    if |ops| > 0 {
      var s := name + op + version;
      IndexOfPinned(name, op, version, ops[0]);
      if ops[0] == op {
        assert BeforeFirst(s, op) == s[..|name|] == name;
        CutAllOperatorFree(name, ops[1..]);
      } else {
        BeforeFirstAbsent(s, ops[0]);
        CutAllPinned(name, op, version, ops[1..]);
      }
    }
  }

  /** A character of a package name or version: ASCII letters, digits, `-`, `_`, `.`. */
  predicate NameChar(c: char) {
    IsAlnum(c) || c == '-' || c == '_' || c == '.'
  }

  /**
   * A pinned requirement `name<op>version` yields `name`, and a bare
   * `name` yields itself: the operator and the version are dropped.
   */
  lemma RequirementNamePinned(name: string, op: string, version: string)
    requires |name| > 0
    requires forall i | 0 <= i < |name| :: NameChar(name[i])
    requires forall i | 0 <= i < |version| :: NameChar(version[i])
    requires op in REQUIREMENT_OPERATORS
    ensures RequirementName(name + op + version) == name
    ensures RequirementName(name) == name
  {
    NameCharsPlain(name);
    NameCharsPlain(version);
    var line := name + op + version;
    OperatorShape(op);
    assert line[0] == name[0];
    assert !IsSpace(line[|line| - 1]) by {
      if |version| > 0 {
        assert line[|line| - 1] == version[|version| - 1];
      } else {
        assert line[|line| - 1] == op[1];
      }
    }
    assert LStrip(line) == line;
    assert RStrip(line) == line;
    CutAllPinned(name, op, version, REQUIREMENT_OPERATORS);
    CutAllOperatorFree(name, REQUIREMENT_OPERATORS);
    assert LStrip(name) == name;
    assert RStrip(name) == name;
  }

  /** Name characters are neither whitespace nor operator characters. */
  lemma NameCharsPlain(s: string)
    requires forall i | 0 <= i < |s| :: NameChar(s[i])
    ensures OperatorFree(s)
    ensures forall i | 0 <= i < |s| :: !IsSpace(s[i])
  {
  }

  /** A line that names a requirement: not blank and not a `#` comment once stripped. */
  predicate Significant(line: string) {
    var l := Strip(line);
    l != "" && !StartsWith(l, "#")
  }

  /** A per-line loop: what `entry` appends for each line, concatenated in line order. */
  function EachLine(lines: seq<string>, entry: string -> seq<string>): seq<string>
    decreases |lines|
  {
    if |lines| == 0 then [] else entry(lines[0]) + EachLine(lines[1..], entry)
  }

  /** A per-line loop handles lines independently: a concatenation yields the concatenated results. */
  lemma {:induction false} EachLineAppend(a: seq<string>, b: seq<string>, entry: string -> seq<string>)
    ensures EachLine(a + b, entry) == EachLine(a, entry) + EachLine(b, entry)
    decreases |a|
  {
    if |a| > 0 {
      assert (a + b)[0] == a[0];
      assert (a + b)[1..] == a[1..] + b;
      EachLineAppend(a[1..], b, entry);
    } else {
      assert a + b == b;
    }
  }

  /** What the requirement loop appends for one line: its name when the line is significant. */
  function RequirementEntry(line: string): (names: seq<string>)
    ensures |names| <= 1
  {
    if Significant(line) then [RequirementName(line)] else []
  }

  /** The names the requirement loop appends for `lines`, in order. */
  function RequirementLines(lines: seq<string>): seq<string> {
    EachLine(lines, RequirementEntry)
  }

  /**
   * The loop handles lines independently, a single line contributing its
   * name exactly when it is significant: so the list has one name per
   * significant line, in line order.
   */
  lemma RequirementLinesSpec(a: seq<string>, b: seq<string>, line: string)
    ensures RequirementLines(a + b) == RequirementLines(a) + RequirementLines(b)
    ensures RequirementLines([line]) == if Significant(line) then [RequirementName(line)] else []
    ensures RequirementLines([]) == []
  {
    EachLineAppend(a, b, RequirementEntry);
    assert EachLine([line][1..], RequirementEntry) == [];
  }

  /** The `Python` list: one name per significant line of `requirements.txt`. */
  function Requirements(text: string): seq<string> {
    RequirementLines(Split(text, "\n"))
  }

  // ---------------------------------------------------------------- go.mod

  /** The `require ` prefix the go.mod loop looks for. */
  const REQUIRE: string := "require "

  /**
   * `line.replace("require ", "").split()[0]` for a stripped line that starts
   * with `require `; `None` stands for the `IndexError` of an empty split.
   */
  function GoEntry(line: string): Option<string>
  {
    var tokens := Tokens(RemoveAll(line, REQUIRE));
    if |tokens| == 0 then None else Some(tokens[0])
  }

  /** A stripped line that starts with `require ` always yields a token: the `IndexError` cannot happen. */
  lemma GoEntryDefined(line: string)
    requires StartsWith(line, REQUIRE)
    requires |line| > 0 && !IsSpace(line[|line| - 1])
    ensures GoEntry(line).Some? && IsToken(GoEntry(line).value)
  {
    RemoveAllKeepsNonBlankEnd(line, REQUIRE);
  }

  /** What the go.mod loop appends for one line, or `None` if the line raises. */
  function GoLineEntry(line: string): Option<seq<string>> {
    var l := Strip(line);
    if StartsWith(l, REQUIRE) then
      match GoEntry(l)
      case None => None
      case Some(e) => Some([e])
    else Some([])
  }

  /** Every line is handled without raising, and what it appends are single tokens. */
  lemma GoLineEntryDefined(line: string)
    ensures GoLineEntry(line).Some?
    ensures forall k | 0 <= k < |GoLineEntry(line).value| :: IsToken(GoLineEntry(line).value[k])
  {
    var l := Strip(line);
    if StartsWith(l, REQUIRE) {
      GoEntryDefined(l);
    }
  }

  /** A per-line loop inside a `try`: the concatenated results, or `None` if some line raised. */
  function EachLineOrRaise(lines: seq<string>, entry: string -> Option<seq<string>>): Option<seq<string>>
    decreases |lines|
  {
    if |lines| == 0 then Some([])
    else
      match entry(lines[0])
      case None => None
      case Some(head) =>
        match EachLineOrRaise(lines[1..], entry)
        case None => None
        case Some(rest) => Some(head + rest)
  }

  /** A loop whose every line succeeds with tokens succeeds with tokens. */
  lemma {:induction false} EachLineOrRaiseTokens(lines: seq<string>, entry: string -> Option<seq<string>>)
    requires forall l :: entry(l).Some?
    requires forall l :: forall k | 0 <= k < |entry(l).value| :: IsToken(entry(l).value[k])
    ensures EachLineOrRaise(lines, entry).Some?
    ensures forall k | 0 <= k < |EachLineOrRaise(lines, entry).value| :: IsToken(EachLineOrRaise(lines, entry).value[k])
    decreases |lines|
  {
    if |lines| > 0 {
      EachLineOrRaiseTokens(lines[1..], entry);
      var head := entry(lines[0]).value;
      var rest := EachLineOrRaise(lines[1..], entry).value;
      assert forall k | 0 <= k < |head| :: IsToken(head[k]);
      assert EachLineOrRaise(lines, entry).value == head + rest;
    }
  }

  /** The names the go.mod loop appends for `lines`, or `None` if some line raised. */
  function GoLines(lines: seq<string>): Option<seq<string>> {
    EachLineOrRaise(lines, GoLineEntry)
  }

  /** The go.mod loop never raises, and every name it appends is a single token. */
  lemma GoLinesDefined(lines: seq<string>)
    ensures GoLines(lines).Some?
    ensures forall k | 0 <= k < |GoLines(lines).value| :: IsToken(GoLines(lines).value[k])
  {
    forall l
      ensures GoLineEntry(l).Some?
      ensures forall k | 0 <= k < |GoLineEntry(l).value| :: IsToken(GoLineEntry(l).value[k])
    {
      GoLineEntryDefined(l);
    }
    EachLineOrRaiseTokens(lines, GoLineEntry);
  }

  /** A single-line `require module version` yields the module path. */
  lemma GoEntryModule(path: string, rest: string)
    requires IsToken(path)
    requires |rest| > 0 ==> IsSpace(rest[0])
    requires !Contains(path + rest, REQUIRE)
    ensures GoEntry(REQUIRE + path + rest) == Some(path)
  {
    var line := REQUIRE + path + rest;
    var s := path + rest;
    assert line == REQUIRE + s;
    assert line[|REQUIRE|..] == s;
    RemoveAbsent(s, REQUIRE);
    assert RemoveAll(line, REQUIRE) == s;
    TokensHead(path, rest);
  }

  /**
   * The opening line of a `require ( ... )` block yields the entry `(`, and
   * the module lines inside the block do not start with `require ` and are
   * skipped.
   */
  lemma GoEntryBlock()
    ensures GoEntry("require (") == Some("(")
  {
    var s := "(";
    assert "require (" == REQUIRE + s;
    assert RemoveAll(REQUIRE + s, REQUIRE) == RemoveAll(s, REQUIRE);
    assert RemoveAll(s, REQUIRE) == s;
    assert Word(s) == s;
    assert Tokens(s)[0] == s;
  }

  /** The `Go` list of a readable go.mod. */
  function GoModules(text: string): Option<seq<string>> {
    GoLines(Split(text, "\n"))
  }

  // ---------------------------------------------------------------- package.json

  /** The distinct keys of a JSON object in first-occurrence order, as `dict.keys()` lists them. */
  function ObjectKeys(fields: seq<(string, Json)>): seq<string> {
    GitHub.Keys(GitHub.Tally(GitHub.Keys(fields)))
  }

  /** Python's `key in value` for a decoded JSON value; `None` is the `TypeError` of a scalar. */
  function JsonIn(value: Json, key: string): (r: Option<bool>)
    ensures r.None? <==> !(value.JObj? || value.JArr? || value.JStr?)
  {
    match value
    case JObj(fields) => Some(key in GitHub.Keys(fields))
    case JArr(elems) => Some(JStr(key) in elems)
    case JStr(s) => Some(Contains(s, key))
    case _ => None
  }

  /**
   * `pkg_json[key].keys()` when `key in pkg_json`, else nothing; `None` is an
   * exception (indexing a list or string by a string, or `.keys()` on
   * something that is not an object).
   */
  function DependencyKeys(value: Json, key: string): Option<seq<string>>
  {
    match JsonIn(value, key)
    case None => None
    case Some(false) => Some([])
    case Some(true) =>
      if value.JObj? then
        match Get(value.fields, key)
        case Some(JObj(deps)) => Some(ObjectKeys(deps))
        case _ => None
      else None
  }

  /** The `JavaScript/Node` list: the `dependencies` keys, then the `devDependencies` keys. */
  function PackageDependencies(value: Json): Option<seq<string>>
  {
    match DependencyKeys(value, "dependencies")
    case None => None
    case Some(runtime) =>
      match DependencyKeys(value, "devDependencies")
      case None => None
      case Some(dev) => Some(runtime + dev)
  }

  /** The listed keys of an object are its keys, each once, in the order they first occur. */
  lemma ObjectKeysSpec(fields: seq<(string, Json)>)
    ensures forall k :: k in ObjectKeys(fields) <==> k in GitHub.Keys(fields)
    ensures forall i, j | 0 <= i < j < |ObjectKeys(fields)| :: ObjectKeys(fields)[i] != ObjectKeys(fields)[j]
    ensures forall i, j | 0 <= i < j < |ObjectKeys(fields)| ::
      GitHub.FirstSeen(GitHub.Keys(fields), ObjectKeys(fields)[i]) < GitHub.FirstSeen(GitHub.Keys(fields), ObjectKeys(fields)[j])
  {
    var ks := GitHub.Keys(fields);
    var t := GitHub.Tally(ks);
    GitHub.TallyIsTally(ks);
    forall i, j | 0 <= i < j < |t|
      ensures t[i].0 != t[j].0
    {
      GitHub.OrderedKeysDistinct(ks, t, i, j);
    }
  }

  /** With objects under both keys, the runtime keys come first, then the development keys. */
  lemma PackageDependenciesObjects(fields: seq<(string, Json)>, runtime: seq<(string, Json)>, dev: seq<(string, Json)>)
    requires Get(fields, "dependencies") == Some(JObj(runtime))
    requires Get(fields, "devDependencies") == Some(JObj(dev))
    ensures PackageDependencies(JObj(fields)) == Some(ObjectKeys(runtime) + ObjectKeys(dev))
  {
    GetPresence(fields, "dependencies");
    GetPresence(fields, "devDependencies");
  }

  /** A manifest with neither key lists no packages but still names the ecosystem. */
  lemma PackageDependenciesNone(fields: seq<(string, Json)>)
    requires Get(fields, "dependencies") == None && Get(fields, "devDependencies") == None
    ensures PackageDependencies(JObj(fields)) == Some([])
  {
    GetPresence(fields, "dependencies");
    GetPresence(fields, "devDependencies");
    assert DependencyKeys(JObj(fields), "dependencies") == Some([]);
    assert DependencyKeys(JObj(fields), "devDependencies") == Some([]);
    var none: seq<string> := [];
    assert none + none == none;
  }

  /** A value under either key that is not an object raises, and the ecosystem is left out. */
  lemma PackageDependenciesNotObject(fields: seq<(string, Json)>, key: string, v: Json)
    requires key == "dependencies" || key == "devDependencies"
    requires Get(fields, key) == Some(v) && !v.JObj?
    ensures PackageDependencies(JObj(fields)) == None
  {
    GetPresence(fields, key);
    if key == "devDependencies" {
      GetPresence(fields, "dependencies");
    }
  }

  /** A manifest that is a number, boolean or null cannot be searched, and the ecosystem is left out. */
  lemma PackageDependenciesScalar(j: Json)
    requires !(j.JObj? || j.JArr? || j.JStr?)
    ensures PackageDependencies(j) == None
  {
  }

  /**
   * A manifest that is a list or a string lists nothing when it does not
   * mention either key, and raises (leaving the ecosystem out) when it does.
   */
  lemma PackageDependenciesSequence(j: Json)
    requires j.JArr? || j.JStr?
    ensures PackageDependencies(j) == if JsonIn(j, "dependencies") == Some(false) && JsonIn(j, "devDependencies") == Some(false) then Some([]) else None
  {
    assert DependencyKeys(j, "dependencies") == if JsonIn(j, "dependencies") == Some(false) then Some([]) else None;
    assert DependencyKeys(j, "devDependencies") == if JsonIn(j, "devDependencies") == Some(false) then Some([]) else None;
    var none: seq<string> := [];
    assert none + none == none;
  }

  /** A key is present in an object exactly when `Get` finds it. */
  lemma GetPresence(fields: seq<(string, Json)>, key: string)
    ensures Get(fields, key).Some? <==> key in GitHub.Keys(fields)
  {
    var ks := GitHub.Keys(fields);
    match Get(fields, key)
    case Some(v) =>
      var i :| 0 <= i < |fields| && fields[i] == (key, v);
      assert ks[i] == key;
    case None =>
  }

  // ---------------------------------------------------------------- all manifests

  /** The placeholder list of a `pom.xml`. */
  const POM_PLACEHOLDER: seq<string> := ["See pom.xml"]
  /** The placeholder list of a `Cargo.toml`. */
  const CARGO_PLACEHOLDER: seq<string> := ["See Cargo.toml"]

  /** The ecosystem names in the order `parse_dependencies` tries them. */
  const ECOSYSTEMS: seq<string> := ["Python", "JavaScript/Node", "Java (Maven)", "Go", "Rust"]

  /** What each of the five parsers produces, aligned with `ECOSYSTEMS`; `None` leaves the ecosystem out. */
  function EcosystemLists(m: ManifestFiles): (lists: seq<Option<seq<string>>>)
    ensures |lists| == |ECOSYSTEMS|
  {
    [ if m.requirements.Present? then Some(Requirements(m.requirements.content)) else None,
      if m.packageJson.Present? then PackageDependencies(m.packageJson.content) else None,
      if m.pomXml then Some(POM_PLACEHOLDER) else None,
      if m.goMod.Present? then GoModules(m.goMod.content) else None,
      if m.cargoToml then Some(CARGO_PLACEHOLDER) else None ]
  }

  /** The positions of `vals` from `from` on that hold a value, in increasing order. */
  function PresentFrom<T>(vals: seq<Option<T>>, from: nat): (idx: seq<nat>)
    ensures forall i | 0 <= i < |idx| :: from <= idx[i] < |vals| && vals[idx[i]].Some?
    ensures forall i, j | 0 <= i < j < |idx| :: idx[i] < idx[j]
    ensures forall k | from <= k < |vals| && vals[k].Some? :: k in idx
    decreases |vals| - from
  {
    if from >= |vals| then []
    else
      var rest := PresentFrom(vals, from + 1);
      if vals[from].Some? then [from] + rest else rest
  }

  /** `parse_dependencies`: the ecosystems whose parser produced a list, in the order they are tried. */
  function ParseDependencies(m: ManifestFiles): (deps: Dependencies)
  {
    var lists := EcosystemLists(m);
    var idx := PresentFrom(lists, 0);
    seq(|idx|, i requires 0 <= i < |idx| => (ECOSYSTEMS[idx[i]], lists[idx[i]].value))
  }

  /** Each parser produces a list exactly when its manifest exists and was read; go.mod parsing never fails. */
  lemma EcosystemListsSpec(m: ManifestFiles)
    ensures EcosystemLists(m)[0] == if m.requirements.Present? then Some(Requirements(m.requirements.content)) else None
    ensures EcosystemLists(m)[1].Some? <==> m.packageJson.Present? && PackageDependencies(m.packageJson.content).Some?
    ensures EcosystemLists(m)[2].Some? <==> m.pomXml
    ensures EcosystemLists(m)[3].Some? <==> m.goMod.Present?
    ensures EcosystemLists(m)[4].Some? <==> m.cargoToml
  {
    var lists := EcosystemLists(m);
    assert lists[3] == if m.goMod.Present? then GoModules(m.goMod.content) else None;
    if m.goMod.Present? {
      GoLinesDefined(Split(m.goMod.content, "\n"));
      assert GoModules(m.goMod.content).Some?;
    }
  }

  /**
   * The result lists an ecosystem exactly when its parser produced a list,
   * with that list, each ecosystem once and in the order they are tried.
   */
  lemma ParseDependenciesSpec(m: ManifestFiles, k: nat)
    requires k < |ECOSYSTEMS|
    ensures (exists i | 0 <= i < |ParseDependencies(m)| :: ParseDependencies(m)[i].0 == ECOSYSTEMS[k]) <==> EcosystemLists(m)[k].Some?
    ensures forall i | 0 <= i < |ParseDependencies(m)| && ParseDependencies(m)[i].0 == ECOSYSTEMS[k] ::
      ParseDependencies(m)[i].1 == EcosystemLists(m)[k].value
    ensures forall i, j | 0 <= i < j < |ParseDependencies(m)| ::
      EcosystemRank(ParseDependencies(m)[i].0) < EcosystemRank(ParseDependencies(m)[j].0)
  {
    var lists := EcosystemLists(m);
    var idx := PresentFrom(lists, 0);
    var r := ParseDependencies(m);
    EcosystemsDistinct();
    if lists[k].Some? {
      var i :| 0 <= i < |idx| && idx[i] == k;
      assert r[i].0 == ECOSYSTEMS[k];
    }
    forall i | 0 <= i < |r|
      ensures EcosystemRank(r[i].0) == idx[i]
    {
      assert r[i].0 == ECOSYSTEMS[idx[i]];
    }
  }

  /** The ecosystem names are distinct. */
  lemma EcosystemsDistinct()
    ensures forall a, b | 0 <= a < b < |ECOSYSTEMS| :: ECOSYSTEMS[a] != ECOSYSTEMS[b]
  {
  }

  /** The position of an ecosystem name in `ECOSYSTEMS`. */
  function EcosystemRank(name: string): (k: nat)
    ensures forall j | 0 <= j < |ECOSYSTEMS| && ECOSYSTEMS[j] == name :: k == j
  {
    if name == "Python" then 0
    else if name == "JavaScript/Node" then 1
    else if name == "Java (Maven)" then 2
    else if name == "Go" then 3
    else 4
  }
}

=== FILE: rag_index.dfy ===
/**
 * The bookkeeping of the RAG service: the collection name derived from the
 * repository URL and the job id, and the documents, metadata, ids and
 * progress reports `create_embeddings` assembles before handing everything
 * to the vector store.  The text splitter is an arbitrary function from file
 * content to chunks; the embedding model and the store are left out, except
 * that storing may fail.
 */
module RagIndex {
  import opened Wrappers
  import opened Text
  import Config
  import GitHub

  // ---------------------------------------------------------------- collection name

  /** The store's limit on collection-name length. */
  const MAX_COLLECTION_NAME: nat := 63

  /** A character kept as is: ASCII letters and digits, `_` and `-`. */
  predicate KeptChar(c: char) {
    IsAlnum(c) || c == '_' || c == '-'
  }

  /** A character of a finished collection name: lower-case letter, digit, `_` or `-`. */
  predicate NameChar(c: char) {
    ('a' <= c <= 'z') || ('0' <= c <= '9') || c == '_' || c == '-'
  }

  /** Replaces every character that is not kept by `_`. */
  function Clean(s: string): (r: string)
    ensures |r| == |s|
    ensures forall i | 0 <= i < |s| :: r[i] == if KeptChar(s[i]) then s[i] else '_'
  {
    seq(|s|, i requires 0 <= i < |s| => if KeptChar(s[i]) then s[i] else '_')
  }

  /** The name before cleaning: `{owner}_{repo}_{job_id}` from the last two URL segments, or `repo_{job_id}`. */
  function RawCollectionName(url: string, jobId: nat): string {
    var parts := Split(RStripChar(url, '/'), "/");
    if |parts| >= 2 then
      var owner := parts[|parts| - 2];
      var repo := RemoveAll(parts[|parts| - 1], ".git");
      owner + "_" + repo + "_" + NatToString(jobId)
    else
      "repo_" + NatToString(jobId)
  }

  /** The first `n` characters of `s` (`s[:n]`). */
  function Prefix(s: string, n: nat): (r: string)
    ensures |r| <= n && StartsWith(s, r)
    ensures |s| <= n ==> r == s
  {
    if |s| <= n then s else s[..n]
  }

  /** `_sanitize_collection_name`: cleaned, lower-cased and cut to the length limit. */
  function SanitizeCollectionName(url: string, jobId: nat): (name: string)
    ensures |name| <= MAX_COLLECTION_NAME
    ensures forall i | 0 <= i < |name| :: NameChar(name[i])
  {
    var lowered := Lower(Clean(RawCollectionName(url, jobId)));
    var name := Prefix(lowered, MAX_COLLECTION_NAME);
    assert forall i | 0 <= i < |name| :: name[i] == lowered[i];
    name
  }

  /** Splitting at `/` gives at least two parts exactly when there is a `/`. */
  lemma SplitSlashParts(s: string)
    ensures |Split(s, "/")| >= 2 <==> Contains(s, "/")
  {
  }

  /** A character of an owner or repository name the sanitiser leaves unchanged. */
  predicate PlainChar(c: char) {
    ('a' <= c <= 'z') || ('0' <= c <= '9') || c == '_' || c == '-'
  }

  /** Every character is plain. */
  predicate Plain(s: string) {
    forall i | 0 <= i < |s| :: PlainChar(s[i])
  }

  /** A plain string survives cleaning and lower-casing unchanged. */
  lemma PlainUnchanged(s: string)
    requires Plain(s)
    ensures Lower(Clean(s)) == s
  {
  }

  /** The parts of `prefix/owner/rest` end with `owner` and `rest` when neither contains a `/`. */
  lemma LastTwoParts(prefix: string, owner: string, rest: string)
    requires !Contains(owner, "/") && !Contains(rest, "/")
    ensures var parts := Split(prefix + "/" + owner + "/" + rest, "/");
      |parts| >= 2 && parts[|parts| - 2] == owner && parts[|parts| - 1] == rest
  {
    var sep: string := "/";
    assert prefix + "/" + owner + "/" + rest == prefix + [sep[0]] + (owner + [sep[0]] + rest);
    SplitConcat(prefix, owner + "/" + rest, '/');
    SplitConcat(owner, rest, '/');
  }

  /** The URL `{prefix}/{owner}/{repo}` with an optional `.git` and trailing slashes. */
  function RepositoryUrl(prefix: string, owner: string, repo: string, gitSuffix: bool, slashes: nat): string {
    prefix + "/" + owner + "/" + (repo + (if gitSuffix then ".git" else "")) + seq(slashes, _ => '/')
  }

  /** Trailing slashes are stripped back to the repository segment. */
  lemma RepositoryUrlStem(prefix: string, owner: string, repo: string, gitSuffix: bool, slashes: nat)
    requires Plain(repo) && |repo| > 0
    ensures RStripChar(RepositoryUrl(prefix, owner, repo, gitSuffix, slashes), '/')
      == prefix + "/" + owner + "/" + (repo + (if gitSuffix then ".git" else ""))
  {
    var rest := repo + (if gitSuffix then ".git" else "");
    var stem := prefix + "/" + owner + "/" + rest;
    assert stem[|stem| - 1] == rest[|rest| - 1];
    assert PlainChar(repo[|repo| - 1]);
    RStripSlashes(stem, slashes);
  }

  /** Removing `.git` from the repository segment leaves the plain repository name. */
  lemma RepositorySegment(repo: string, gitSuffix: bool)
    requires Plain(repo)
    ensures !Contains(repo + (if gitSuffix then ".git" else ""), "/")
    ensures RemoveAll(repo + (if gitSuffix then ".git" else ""), ".git") == repo
  {
    PlainNoSlash(repo);
    assert forall i | 0 <= i < |repo| :: repo[i] != '.';
    if gitSuffix {
      NoSlashConcat(repo, ".git");
      RemoveAllAfterFree(repo, ".git", ".git");
      RemoveAllSelf(".git");
    } else {
      assert repo + "" == repo;
      RemoveAllAfterFree(repo, "", ".git");
    }
  }

  /** The unsanitised name of a repository URL is `{owner}_{repo}_{job_id}`. */
  lemma RawRepositoryUrl(prefix: string, owner: string, repo: string, gitSuffix: bool, slashes: nat, jobId: nat)
    requires Plain(owner) && Plain(repo) && |repo| > 0
    ensures RawCollectionName(RepositoryUrl(prefix, owner, repo, gitSuffix, slashes), jobId)
      == owner + "_" + repo + "_" + NatToString(jobId)
  {
    var rest := repo + (if gitSuffix then ".git" else "");
    RepositoryUrlStem(prefix, owner, repo, gitSuffix, slashes);
    PlainNoSlash(owner);
    RepositorySegment(repo, gitSuffix);
    LastTwoParts(prefix, owner, rest);
  }

  /**
   * For a URL `{prefix}/{owner}/{repo}` or `{prefix}/{owner}/{repo}.git`,
   * with any number of trailing slashes, whose owner and repository names are
   * plain and short enough, the collection name is `{owner}_{repo}_{job_id}`.
   */
  lemma SanitizeRepositoryUrl(prefix: string, owner: string, repo: string, gitSuffix: bool, slashes: nat, jobId: nat)
    requires Plain(owner) && Plain(repo) && |repo| > 0
    requires |owner| + |repo| + |NatToString(jobId)| + 2 <= MAX_COLLECTION_NAME
    ensures SanitizeCollectionName(RepositoryUrl(prefix, owner, repo, gitSuffix, slashes), jobId)
      == owner + "_" + repo + "_" + NatToString(jobId)
  {
    var raw := owner + "_" + repo + "_" + NatToString(jobId);
    RawRepositoryUrl(prefix, owner, repo, gitSuffix, slashes, jobId);
    DigitsPlain(NatToString(jobId));
    assert Plain(raw);
    PlainUnchanged(raw);
  }

  /** Decimal digits are plain. */
  lemma DigitsPlain(s: string)
    requires AllDigits(s)
    ensures Plain(s)
  {
    assert forall i | 0 <= i < |s| :: IsDigit(s[i]);
  }

  /** Stripping the trailing slashes after a stem that ends in something else leaves the stem. */
  lemma {:induction false} RStripSlashes(stem: string, slashes: nat)
    requires |stem| > 0 && stem[|stem| - 1] != '/'
    ensures RStripChar(stem + seq(slashes, _ => '/'), '/') == stem
    decreases slashes
  {
    var s := stem + seq(slashes, _ => '/');
    if slashes > 0 {
      assert s[..|s| - 1] == stem + seq(slashes - 1, _ => '/');
      RStripSlashes(stem, slashes - 1);
    } else {
      assert s == stem;
    }
  }

  /** A plain string has no slash. */
  lemma PlainNoSlash(s: string)
    requires Plain(s)
    ensures !Contains(s, "/")
  {
    SlashFree(s);
  }

  /** A string none of whose characters is `/` does not contain `/`. */
  lemma SlashFree(s: string)
    requires forall i | 0 <= i < |s| :: s[i] != '/'
    ensures !Contains(s, "/")
  {
    forall j: nat
      ensures !OccursAt(s, "/", j)
    {
      if j + 1 <= |s| {
        assert s[j..j + 1][0] == s[j];
      }
    }
  }

  /** A string without a slash followed by slash-free characters has no slash. */
  lemma NoSlashConcat(a: string, b: string)
    requires !Contains(a, "/") && forall i | 0 <= i < |b| :: b[i] != '/'
    ensures !Contains(a + b, "/")
  {
    NoCharMeansNoStart(a, '/');
    SlashFree(a + b);
  }

  /** A URL with no `/` left after stripping trailing slashes gives `repo_{job_id}`. */
  lemma SanitizeBareUrl(url: string, jobId: nat)
    requires !Contains(RStripChar(url, '/'), "/")
    requires |NatToString(jobId)| + 5 <= MAX_COLLECTION_NAME
    ensures SanitizeCollectionName(url, jobId) == "repo_" + NatToString(jobId)
  {
    var raw := "repo_" + NatToString(jobId);
    assert RawCollectionName(url, jobId) == raw;
    DigitsPlain(NatToString(jobId));
    assert Plain(raw);
    PlainUnchanged(raw);
  }

  // ---------------------------------------------------------------- chunk bookkeeping

  /** The metadata stored with a chunk. */
  datatype ChunkMeta = ChunkMeta(filePath: string, chunkIndex: nat, language: string, totalChunks: nat)

  /** What the assembly loop has collected: documents, metadata, ids, and the file positions reported as progress. */
  datatype Batch = Batch(documents: seq<string>, metadatas: seq<ChunkMeta>, ids: seq<string>, progress: seq<nat>)

  /** The id of the `n`-th chunk of the collection. */
  function ChunkId(n: nat): string {
    "chunk_" + NatToString(n)
  }

  /** The metadata of the chunks of one file. */
  function FileMetas(f: GitHub.FileRecord, n: nat): (ms: seq<ChunkMeta>)
    ensures |ms| == n
    ensures forall c | 0 <= c < n :: ms[c] == ChunkMeta(f.path, c, f.extension, n)
  {
    seq(n, c requires 0 <= c < n => ChunkMeta(f.path, c, f.extension, n))
  }

  /** The ids `chunk_{start}`, ..., `chunk_{start + n - 1}`. */
  function Ids(start: nat, n: nat): (ids: seq<string>)
    ensures |ids| == n
    ensures forall c | 0 <= c < n :: ids[c] == ChunkId(start + c)
  {
    seq(n, c requires 0 <= c < n => ChunkId(start + c))
  }

  /** The progress message for the first `k` of `total` files. */
  function ProgressMessage(k: nat, total: nat): string {
    "Embedding files (" + NatToString(k) + "/" + NatToString(total) + ")"
  }

  /**
   * The assembly loop of `create_embeddings` over `files`: a file whose
   * content is blank is skipped; any other file contributes its chunks with
   * their metadata and consecutive ids, and a progress report after the
   * `k`-th file when a callback is given and `k` is a multiple of
   * `BATCH_UPDATE_INTERVAL`.
   */
  function Assemble(files: seq<GitHub.FileRecord>, split: string -> seq<string>, callback: bool): Batch
    decreases |files|
  {
    if |files| == 0 then Batch([], [], [], [])
    else
      var prev := Assemble(files[..|files| - 1], split, callback);
      var f := files[|files| - 1];
      if IsBlank(f.content) then prev
      else
        var chunks := split(f.content);
        var n := |chunks|;
        Batch(
          prev.documents + chunks,
          prev.metadatas + FileMetas(f, n),
          prev.ids + Ids(|prev.ids|, n),
          if callback && |files| % Config.BATCH_UPDATE_INTERVAL == 0 then prev.progress + [|files|] else prev.progress)
  }

  /** `create_embeddings` up to the store call: the loop with its running chunk counter. */
  method AssembleBatch(files: seq<GitHub.FileRecord>, split: string -> seq<string>, callback: bool) returns (b: Batch)
    ensures b == Assemble(files, split, callback)
  {
    var documents: seq<string> := [];
    var metadatas: seq<ChunkMeta> := [];
    var ids: seq<string> := [];
    var progress: seq<nat> := [];
    var chunkId: nat := 0;
    for idx := 0 to |files|
      invariant Batch(documents, metadatas, ids, progress) == Assemble(files[..idx], split, callback)
      invariant chunkId == |ids|
    {
      assert files[..idx + 1][..idx] == files[..idx];
      var f := files[idx];
      if IsBlank(f.content) {
        continue;
      }
      var chunks := split(f.content);
      documents, metadatas, ids, chunkId := AddFileChunks(documents, metadatas, ids, chunkId, f, chunks);
      if callback && (idx + 1) % Config.BATCH_UPDATE_INTERVAL == 0 {
        progress := progress + [idx + 1];
      }
    }
    assert files[..|files|] == files;
    b := Batch(documents, metadatas, ids, progress);
  }

  /** The inner loop over one file's chunks: documents, metadata and ids, with the counter running on. */
  method AddFileChunks(documents: seq<string>, metadatas: seq<ChunkMeta>, ids: seq<string>, start: nat,
                       f: GitHub.FileRecord, chunks: seq<string>)
    returns (documents': seq<string>, metadatas': seq<ChunkMeta>, ids': seq<string>, next: nat)
    ensures documents' == documents + chunks
    ensures metadatas' == metadatas + FileMetas(f, |chunks|)
    ensures ids' == ids + Ids(start, |chunks|)
    ensures next == start + |chunks|
  {
    documents', metadatas', ids', next := documents, metadatas, ids, start;
    for c := 0 to |chunks|
      invariant documents' == documents + chunks[..c]
      invariant metadatas' == metadatas + FileMetas(f, |chunks|)[..c]
      invariant ids' == ids + Ids(start, |chunks|)[..c]
      invariant next == start + c
    {
      documents' := documents' + [chunks[c]];
      metadatas' := metadatas' + [ChunkMeta(f.path, c, f.extension, |chunks|)];
      ids' := ids' + [ChunkId(next)];
      next := next + 1;
      assert chunks[..c + 1] == chunks[..c] + [chunks[c]];
      assert FileMetas(f, |chunks|)[..c + 1] == FileMetas(f, |chunks|)[..c] + [FileMetas(f, |chunks|)[c]];
      assert Ids(start, |chunks|)[..c + 1] == Ids(start, |chunks|)[..c] + [Ids(start, |chunks|)[c]];
    }
    assert chunks[..|chunks|] == chunks;
    assert FileMetas(f, |chunks|)[..|chunks|] == FileMetas(f, |chunks|);
    assert Ids(start, |chunks|)[..|chunks|] == Ids(start, |chunks|);
  }

  /** Documents, metadata and ids stay aligned, and the `k`-th id is `chunk_{k}`. */
  lemma {:induction false} AssembleAligned(files: seq<GitHub.FileRecord>, split: string -> seq<string>, callback: bool)
    ensures var b := Assemble(files, split, callback);
      |b.documents| == |b.metadatas| == |b.ids|
      && forall k | 0 <= k < |b.ids| :: b.ids[k] == ChunkId(k)
    decreases |files|
  {
    if |files| > 0 {
      AssembleAligned(files[..|files| - 1], split, callback);
    }
  }

  /** No two chunks share an id. */
  lemma AssembleIdsUnique(files: seq<GitHub.FileRecord>, split: string -> seq<string>, callback: bool, i: nat, j: nat)
    requires i < j < |Assemble(files, split, callback).ids|
    ensures Assemble(files, split, callback).ids[i] != Assemble(files, split, callback).ids[j]
  {
    AssembleAligned(files, split, callback);
    if ChunkId(i) == ChunkId(j) {
      var p := "chunk_";
      assert NatToString(i) == ChunkId(i)[|p|..];
      assert NatToString(j) == ChunkId(j)[|p|..];
      NatToStringInjective(i, j);
    }
  }

  /** What the loop has collected after some files is a prefix of what it collects after all of them. */
  lemma {:induction false} AssemblePrefix(files: seq<GitHub.FileRecord>, split: string -> seq<string>, callback: bool, i: nat)
    requires i <= |files|
    ensures var p, b := Assemble(files[..i], split, callback), Assemble(files, split, callback);
      && |p.documents| <= |b.documents| && b.documents[..|p.documents|] == p.documents
      && |p.metadatas| <= |b.metadatas| && b.metadatas[..|p.metadatas|] == p.metadatas
      && |p.progress| <= |b.progress| && b.progress[..|p.progress|] == p.progress
    decreases |files| - i
  {
    if i < |files| {
      var init := files[..|files| - 1];
      assert init[..i] == files[..i];
      AssemblePrefix(init, split, callback, i);
    } else {
      assert files[..i] == files;
    }
  }

  /** The chunks of the last file, when it is not blank, end the batch. */
  lemma LastFileBlock(files: seq<GitHub.FileRecord>, split: string -> seq<string>, callback: bool, c: nat)
    requires |files| > 0 && !IsBlank(files[|files| - 1].content)
    requires c < |split(files[|files| - 1].content)|
    ensures var start := |Assemble(files[..|files| - 1], split, callback).documents|;
      var b := Assemble(files, split, callback);
      var f := files[|files| - 1];
      && start + c < |b.documents| && start + c < |b.metadatas|
      && b.documents[start + c] == split(f.content)[c]
      && b.metadatas[start + c] == ChunkMeta(f.path, c, f.extension, |split(f.content)|)
  {
    AssembleAligned(files[..|files| - 1], split, callback);
  }

  /**
   * A non-blank file at position `i` with `n` chunks owns the block of
   * positions starting where the earlier files' chunks end: its chunks in
   * order, with `chunk_index` 0 to `n - 1`, `total_chunks` n and its
   * extension as language.
   */
  lemma FileBlock(files: seq<GitHub.FileRecord>, split: string -> seq<string>, callback: bool, i: nat, c: nat)
    requires i < |files| && !IsBlank(files[i].content)
    requires c < |split(files[i].content)|
    ensures var start := |Assemble(files[..i], split, callback).documents|;
      var b := Assemble(files, split, callback);
      && start + c < |b.documents| && start + c < |b.metadatas|
      && b.documents[start + c] == split(files[i].content)[c]
      && b.metadatas[start + c] == ChunkMeta(files[i].path, c, files[i].extension, |split(files[i].content)|)
  {
    var upto := files[..i + 1];
    assert upto[..i] == files[..i];
    assert upto[|upto| - 1] == files[i];
    LastFileBlock(upto, split, callback, c);
    AssemblePrefix(files, split, callback, i + 1);
  }

  /** A blank file contributes nothing, not even a progress report. */
  lemma BlankFileSkipped(files: seq<GitHub.FileRecord>, split: string -> seq<string>, callback: bool, i: nat)
    requires i < |files| && IsBlank(files[i].content)
    ensures Assemble(files[..i + 1], split, callback) == Assemble(files[..i], split, callback)
  {
    assert files[..i + 1][..i] == files[..i];
  }

  /**
   * Progress is reported after the `k`-th file exactly when a callback is
   * given, the file is not blank, and `k` is a multiple of
   * `BATCH_UPDATE_INTERVAL`; the reports come in file order.
   */
  lemma {:induction false} ProgressPoints(files: seq<GitHub.FileRecord>, split: string -> seq<string>, callback: bool, k: nat)
    ensures k in Assemble(files, split, callback).progress <==>
      callback && 1 <= k <= |files| && k % Config.BATCH_UPDATE_INTERVAL == 0 && !IsBlank(files[k - 1].content)
    ensures forall a, b | 0 <= a < b < |Assemble(files, split, callback).progress| ::
      Assemble(files, split, callback).progress[a] < Assemble(files, split, callback).progress[b]
    ensures forall a | 0 <= a < |Assemble(files, split, callback).progress| :: Assemble(files, split, callback).progress[a] <= |files|
    decreases |files|
  {
    if |files| > 0 {
      var init := files[..|files| - 1];
      ProgressPoints(init, split, callback, k);
      if 1 <= k < |files| {
        assert init[k - 1] == files[k - 1];
      }
    }
  }

  /**
   * `create_embeddings`: the collection name, or a raised error.  Opening the
   * collection (`create_collection`, falling back to `get_collection`) and
   * the final `count()` may raise whatever the batch is (`openOk`); storing
   * the batch may raise too (`storeOk`), but it is attempted only when there
   * are documents.
   */
  function CreateEmbeddings(files: seq<GitHub.FileRecord>, url: string, jobId: nat, split: string -> seq<string>, openOk: bool, storeOk: bool): (r: Result<string, string>)
    ensures r.Success? <==> openOk && (storeOk || Assemble(files, split, false).documents == [])
    ensures !openOk ==> r == Failure(COLLECTION_FAILED)
    ensures r.Success? ==> r.value == SanitizeCollectionName(url, jobId)
  {
    var b := Assemble(files, split, false);
    if !openOk then Failure(COLLECTION_FAILED)
    else if b.documents != [] && !storeOk then Failure(EMBEDDING_FAILED)
    else Success(SanitizeCollectionName(url, jobId))
  }

  /** The store's error when the collection cannot be opened or counted. */
  const COLLECTION_FAILED: string := "collection unavailable"
  /** The store's error when embedding or adding the batch fails. */
  const EMBEDDING_FAILED: string := "embedding failed"
}

=== FILE: rag_samples.dfy ===
/**
 * `get_representative_samples`: the chunks of a collection are grouped by
 * file, files are ranked by an importance score, and two passes pick
 * chunks.  Samples are modelled as positions in the collection, so that
 * "no chunk twice" can be stated.  `Path(p).parent` is a parameter.
 */
module RagSamples {
  import opened Wrappers
  import opened Text
  import opened Sorting

  // ---------------------------------------------------------------- the two passes, over ranked files

  /**
   * One ranked file: its score, path and directory, its chunk positions in
   * `chunk_index` order, and in collection order.
   */
  datatype Entry = Entry(score: int, path: string, dir: string, sorted: seq<nat>, raw: seq<nat>)

  /**
   * The samples the `len(samples) >= max_samples` checks let through: the
   * first `n` elements, all of them when fewer, none for a budget `n <= 0`.
   */
  function Take<T>(s: seq<T>, n: int): (r: seq<T>)
    ensures n <= 0 ==> r == []
    ensures 0 <= n ==> |r| == if |s| <= n then |s| else n
    ensures |r| <= |s| && r == s[..|r|]
  {
    if n <= 0 then [] else if |s| <= n then s else s[..n]
  }

  /** What the first pass takes from a file when room allows: its first chunk, and its second when the score is at least 10. */
  function Contribution(e: Entry): (c: seq<nat>)
    ensures |c| <= 2 && |c| <= |e.sorted|
    ensures |e.sorted| > 0 ==> |c| > 0 && c[0] == e.sorted[0]
    ensures |c| == 2 <==> e.score >= 10 && |e.sorted| > 1
    ensures |c| == 2 ==> c[1] == e.sorted[1]
  {
    if |e.sorted| == 0 then []
    else if e.score >= 10 && |e.sorted| > 1 then [e.sorted[0], e.sorted[1]]
    else [e.sorted[0]]
  }

  /** The contributions of all files, in rank order. */
  function Contributions(es: seq<Entry>): seq<nat>
    decreases |es|
  {
    if |es| == 0 then [] else Contribution(es[0]) + Contributions(es[1..])
  }

  /** The first pass: files in rank order until `max` samples are taken, recording each visited file's directory. */
  function FirstPass(es: seq<Entry>, max: int, samples: seq<nat>, seen: set<string>): (seq<nat>, set<string>)
    decreases |es|
  {
    if |es| == 0 || |samples| >= max then (samples, seen)
    else
      var e := es[0];
      if |e.sorted| > 0 then
        var one := samples + [e.sorted[0]];
        var two := if e.score >= 10 && |e.sorted| > 1 && |one| < max then one + [e.sorted[1]] else one;
        FirstPass(es[1..], max, two, seen + {e.dir})
      else FirstPass(es[1..], max, samples, seen)
  }

  /** The second pass: the middle chunk, in collection order, of each file of more than two chunks from an unseen directory. */
  function SecondPass(es: seq<Entry>, max: int, samples: seq<nat>, seen: set<string>): seq<nat>
    decreases |es|
  {
    if |es| == 0 || |samples| >= max then samples
    else
      var e := es[0];
      if e.dir in seen then SecondPass(es[1..], max, samples, seen)
      else if |e.raw| > 2 then SecondPass(es[1..], max, samples + [e.raw[|e.raw| / 2]], seen + {e.dir})
      else SecondPass(es[1..], max, samples, seen)
  }

  /** Both passes, the second only while there is room. */
  function Select(es: seq<Entry>, max: int): seq<nat> {
    var (samples, seen) := FirstPass(es, max, [], {});
    if |samples| < max then SecondPass(es, max, samples, seen) else samples
  }

  /** The first pass takes the contributions in rank order, cut at `max`. */
  lemma {:induction false} FirstPassTakes(es: seq<Entry>, max: int, samples: seq<nat>, seen: set<string>)
    requires |samples| <= max
    ensures FirstPass(es, max, samples, seen).0 == Take(samples + Contributions(es), max)
    decreases |es|
  {
    if |es| == 0 {
      assert samples + Contributions(es) == samples;
    } else if |samples| >= max {
      assert (samples + Contributions(es))[..max] == samples;
    } else {
      var e := es[0];
      var c := Contribution(e);
      var rest := Contributions(es[1..]);
      assert samples + Contributions(es) == (samples + c) + rest;
      if |e.sorted| > 0 {
        var one := samples + [e.sorted[0]];
        var two := if e.score >= 10 && |e.sorted| > 1 && |one| < max then one + [e.sorted[1]] else one;
        FirstPassTakes(es[1..], max, two, seen + {e.dir});
        TakeAfterPrefix(samples + c, rest, two, max);
      } else {
        assert c == [];
        assert samples + c == samples;
        FirstPassTakes(es[1..], max, samples, seen);
      }
    }
  }

  /** Cutting at `max` is unaffected by first settling on a prefix that is either everything or already `max` long. */
  lemma TakeAfterPrefix(t: seq<nat>, rest: seq<nat>, p: seq<nat>, max: int)
    requires |p| <= |t| && t[..|p|] == p && |p| <= max
    requires p == t || |p| == max
    ensures Take(p + rest, max) == Take(t + rest, max)
  {
    if p != t {
      assert (t + rest)[..max] == p;
      assert (p + rest)[..max] == p;
    }
  }

  /** After the first pass, either there is no room left or every visited file's directory has been seen. */
  lemma {:induction false} FirstPassSeen(es: seq<Entry>, max: int, samples: seq<nat>, seen: set<string>)
    ensures seen <= FirstPass(es, max, samples, seen).1
    ensures var (s, seen') := FirstPass(es, max, samples, seen);
      |s| >= max || forall k | 0 <= k < |es| && |es[k].sorted| > 0 :: es[k].dir in seen'
    decreases |es|
  {
    if |es| > 0 && |samples| < max {
      var e := es[0];
      if |e.sorted| > 0 {
        var one := samples + [e.sorted[0]];
        var two := if e.score >= 10 && |e.sorted| > 1 && |one| < max then one + [e.sorted[1]] else one;
        FirstPassSeen(es[1..], max, two, seen + {e.dir});
      } else {
        FirstPassSeen(es[1..], max, samples, seen);
      }
      var (s, seen') := FirstPass(es, max, samples, seen);
      if |s| < max {
        forall k | 0 <= k < |es| && |es[k].sorted| > 0
          ensures es[k].dir in seen'
        {
          if k > 0 {
            assert es[1..][k - 1] == es[k];
          }
        }
      }
    }
  }

  /** The second pass adds nothing when every file with more than two chunks has its directory seen. */
  lemma {:induction false} SecondPassIdle(es: seq<Entry>, max: int, samples: seq<nat>, seen: set<string>)
    requires forall k | 0 <= k < |es| && |es[k].raw| > 2 :: es[k].dir in seen
    ensures SecondPass(es, max, samples, seen) == samples
    decreases |es|
  {
    if |es| > 0 && |samples| < max {
      assert forall k | 0 <= k < |es[1..]| :: es[1..][k] == es[k + 1];
      SecondPassIdle(es[1..], max, samples, seen);
    }
  }

  /** Files list as many chunks in both orders. */
  predicate SameCounts(es: seq<Entry>) {
    forall k | 0 <= k < |es| :: |es[k].sorted| == |es[k].raw|
  }

  /**
   * The second pass never adds a sample: every file the first pass visits
   * marks its directory, and the first pass visits every file unless it
   * runs out of room.  The selection is the contributions cut at `max`.
   */
  lemma SelectIsFirstPass(es: seq<Entry>, max: int)
    requires SameCounts(es)
    ensures Select(es, max) == Take(Contributions(es), max)
  {
    var none: seq<nat> := [];
    if 0 <= max {
      FirstPassTakes(es, max, none, {});
      assert none + Contributions(es) == Contributions(es);
    }
    FirstPassSeen(es, max, none, {});
    var (s, seen) := FirstPass(es, max, none, {});
    if |s| < max {
      SecondPassIdle(es, max, s, seen);
    }
  }

  /** Every contributed position is the first chunk of a file, or the second chunk of a file scoring at least 10. */
  lemma {:induction false} ContributionsOrigin(es: seq<Entry>, i: nat)
    requires i < |Contributions(es)|
    ensures exists k | 0 <= k < |es| ::
      (|es[k].sorted| > 0 && Contributions(es)[i] == es[k].sorted[0])
      || (es[k].score >= 10 && |es[k].sorted| > 1 && Contributions(es)[i] == es[k].sorted[1])
    decreases |es|
  {
    var c := Contribution(es[0]);
    if i < |c| {
      assert Contributions(es)[i] == c[i];
      assert 0 <= 0 < |es|;
    } else {
      assert Contributions(es)[i] == Contributions(es[1..])[i - |c|];
      ContributionsOrigin(es[1..], i - |c|);
      var k :| 0 <= k < |es[1..]| &&
        ((|es[1..][k].sorted| > 0 && Contributions(es[1..])[i - |c|] == es[1..][k].sorted[0])
        || (es[1..][k].score >= 10 && |es[1..][k].sorted| > 1 && Contributions(es[1..])[i - |c|] == es[1..][k].sorted[1]));
      assert es[1..][k] == es[k + 1];
    }
  }

  /** Every contributed position comes from some file's chunks. */
  lemma {:induction false} ContributionsFrom(es: seq<Entry>, x: nat)
    requires x in Contributions(es)
    ensures exists k | 0 <= k < |es| :: x in es[k].sorted
    decreases |es|
  {
    var c := Contribution(es[0]);
    if x in c {
      assert x in es[0].sorted;
    } else {
      assert x in Contributions(es[1..]);
      ContributionsFrom(es[1..], x);
      var k :| 0 <= k < |es[1..]| && x in es[1..][k].sorted;
      assert es[1..][k] == es[k + 1];
    }
  }

  /** No repeats in a sequence. */
  predicate Distinct(s: seq<nat>) {
    forall i, j | 0 <= i < j < |s| :: s[i] != s[j]
  }

  /** Each file's chunks are distinct, and no two files share a chunk. */
  predicate Separate(es: seq<Entry>) {
    && (forall k | 0 <= k < |es| :: Distinct(es[k].sorted))
    && (forall j, k, x | 0 <= j < k < |es| && x in es[j].sorted :: x !in es[k].sorted)
  }

  /** Contributions of separate files have no repeats. */
  lemma {:induction false} ContributionsDistinct(es: seq<Entry>)
    requires Separate(es)
    ensures Distinct(Contributions(es))
    decreases |es|
  {
    if |es| > 0 {
      var c := Contribution(es[0]);
      var rest := Contributions(es[1..]);
      assert Separate(es[1..]) by {
        forall j, k, x | 0 <= j < k < |es[1..]| && x in es[1..][j].sorted
          ensures x !in es[1..][k].sorted
        {
          assert es[1..][j] == es[j + 1] && es[1..][k] == es[k + 1];
        }
        forall k | 0 <= k < |es[1..]|
          ensures Distinct(es[1..][k].sorted)
        {
          assert es[1..][k] == es[k + 1];
        }
      }
      ContributionsDistinct(es[1..]);
      assert Distinct(es[0].sorted);
      forall i, j | 0 <= i < j < |c + rest|
        ensures (c + rest)[i] != (c + rest)[j]
      {
        if j >= |c| && i < |c| {
          var x := (c + rest)[j];
          assert x == rest[j - |c|];
          ContributionsFrom(es[1..], x);
          var k :| 0 <= k < |es[1..]| && x in es[1..][k].sorted;
          assert es[1..][k] == es[k + 1];
          assert (c + rest)[i] in es[0].sorted;
        }
      }
    }
  }

  // ---------------------------------------------------------------- grouping by file

  /** The positions of one file's chunks, in collection order. */
  datatype FileGroup = FileGroup(path: string, positions: seq<nat>)

  /** The group for `path`, if there is one. */
  function FindGroup(gs: seq<FileGroup>, path: string): (r: Option<nat>)
    ensures r.Some? ==> r.value < |gs| && gs[r.value].path == path
    ensures r.None? ==> forall j | 0 <= j < |gs| :: gs[j].path != path
    decreases |gs|
  {
    if |gs| == 0 then None
    else if gs[0].path == path then Some(0)
    else match FindGroup(gs[1..], path)
      case None => None
      case Some(j) => Some(j + 1)
  }

  /** Files the chunk at `pos` to its path's group, opening a new group at the end for a new path. */
  function AddTo(gs: seq<FileGroup>, path: string, pos: nat): seq<FileGroup> {
    match FindGroup(gs, path)
    case None => gs + [FileGroup(path, [pos])]
    case Some(j) => gs[j := FileGroup(path, gs[j].positions + [pos])]
  }

  /** The grouping loop: a dict from path to chunk list, which keeps paths in first-seen order. */
  function Group(paths: seq<string>): seq<FileGroup>
    decreases |paths|
  {
    if |paths| == 0 then [] else AddTo(Group(paths[..|paths| - 1]), paths[|paths| - 1], |paths| - 1)
  }

  /** One group per path. */
  predicate PathsDistinct(gs: seq<FileGroup>) {
    forall j, k | 0 <= j < k < |gs| :: gs[j].path != gs[k].path
  }

  /** Every group lists at least one position. */
  predicate NonEmpty(gs: seq<FileGroup>) {
    forall j | 0 <= j < |gs| :: |gs[j].positions| > 0
  }

  /** Groups list only positions holding their path. */
  predicate Labelled(paths: seq<string>, gs: seq<FileGroup>) {
    forall j, p | 0 <= j < |gs| && 0 <= p < |gs[j].positions| ::
      gs[j].positions[p] < |paths| && paths[gs[j].positions[p]] == gs[j].path
  }

  /** Each group lists its positions in increasing order. */
  predicate Increasing(gs: seq<FileGroup>) {
    forall j, p, q | 0 <= j < |gs| && 0 <= p < q < |gs[j].positions| :: gs[j].positions[p] < gs[j].positions[q]
  }

  /** Groups come in order of their paths' first appearance. */
  predicate FirstSeenOrder(gs: seq<FileGroup>)
    requires NonEmpty(gs)
  {
    forall j, k | 0 <= j < k < |gs| :: gs[j].positions[0] < gs[k].positions[0]
  }

  /**
   * `gs` groups the positions of `paths` by path: one non-empty group per
   * path, in order of first appearance, each listing only positions holding
   * its path, in increasing order.
   */
  predicate GroupShape(paths: seq<string>, gs: seq<FileGroup>) {
    PathsDistinct(gs) && NonEmpty(gs) && Labelled(paths, gs) && Increasing(gs) && FirstSeenOrder(gs)
  }

  /** ... and every position is listed in its path's group. */
  predicate IsGrouping(paths: seq<string>, gs: seq<FileGroup>) {
    && GroupShape(paths, gs)
    && (forall i | 0 <= i < |paths| :: Holds(gs, paths[i], i))
  }

  /** Some group for `path` lists `pos`. */
  predicate Holds(gs: seq<FileGroup>, path: string, pos: nat) {
    match FindGroup(gs, path)
    case None => false
    case Some(j) => pos in gs[j].positions
  }

  /** Labels survive appending a path, and a group of the new position is labelled. */
  lemma LabelledAppend(paths: seq<string>, gs: seq<FileGroup>, path: string)
    requires Labelled(paths, gs)
    ensures Labelled(paths + [path], gs + [FileGroup(path, [|paths|])])
  {
    var ps := paths + [path];
    assert forall i | 0 <= i < |paths| :: ps[i] == paths[i];
  }

  /** A position for a new path opens a group at the end. */
  lemma AddNewShape(paths: seq<string>, gs: seq<FileGroup>, path: string)
    requires GroupShape(paths, gs) && FindGroup(gs, path).None?
    ensures GroupShape(paths + [path], AddTo(gs, path, |paths|))
  {
    var n := |paths|;
    var hs := gs + [FileGroup(path, [n])];
    assert hs == AddTo(gs, path, n);
    assert PathsDistinct(hs);
    assert NonEmpty(hs);
    LabelledAppend(paths, gs, path);
    assert Increasing(hs);
    assert FirstSeenOrder(hs) by {
      forall j, k | 0 <= j < k < |hs|
        ensures hs[j].positions[0] < hs[k].positions[0]
      {
        if k == |gs| {
          assert gs[j].positions[0] < n;
        }
      }
    }
  }

  /** Labels survive appending a path and appending its position to that path's group. */
  lemma LabelledExtend(paths: seq<string>, gs: seq<FileGroup>, path: string, j: nat)
    requires Labelled(paths, gs) && j < |gs| && gs[j].path == path
    ensures Labelled(paths + [path], gs[j := FileGroup(path, gs[j].positions + [|paths|])])
  {
    var ps := paths + [path];
    var hs := gs[j := FileGroup(path, gs[j].positions + [|paths|])];
    assert forall i | 0 <= i < |paths| :: ps[i] == paths[i];
    assert forall p | 0 <= p < |gs[j].positions| :: hs[j].positions[p] == gs[j].positions[p];
  }

  /** A position for a known path goes at the end of that path's group. */
  lemma AddOldShape(paths: seq<string>, gs: seq<FileGroup>, path: string, j: nat)
    requires GroupShape(paths, gs) && FindGroup(gs, path) == Some(j)
    ensures GroupShape(paths + [path], AddTo(gs, path, |paths|))
  {
    var n := |paths|;
    var hs := gs[j := FileGroup(path, gs[j].positions + [n])];
    assert hs == AddTo(gs, path, n);
    assert forall p | 0 <= p < |gs[j].positions| :: hs[j].positions[p] == gs[j].positions[p];
    assert PathsDistinct(hs);
    assert NonEmpty(hs);
    LabelledExtend(paths, gs, path, j);
    assert Increasing(hs) by {
      forall k, p, q | 0 <= k < |hs| && 0 <= p < q < |hs[k].positions|
        ensures hs[k].positions[p] < hs[k].positions[q]
      {
        if k == j && q == |gs[j].positions| {
          assert gs[j].positions[p] < n;
        }
      }
    }
    assert FirstSeenOrder(hs);
  }

  /** Adding the next position keeps every position listed in its path's group. */
  lemma AddToHolds(paths: seq<string>, gs: seq<FileGroup>, path: string)
    requires IsGrouping(paths, gs)
    requires GroupShape(paths + [path], AddTo(gs, path, |paths|))
    ensures forall i | 0 <= i < |paths| + 1 :: Holds(AddTo(gs, path, |paths|), (paths + [path])[i], i)
  {
    var ps := paths + [path];
    var n := |paths|;
    var hs := AddTo(gs, path, n);
    forall i | 0 <= i < |ps|
      ensures Holds(hs, ps[i], i)
    {
      if i < n {
        assert ps[i] == paths[i];
        assert Holds(gs, paths[i], i);
        var k := FindGroup(gs, paths[i]).value;
        assert i in hs[k].positions by {
          if hs[k] != gs[k] {
            assert hs[k].positions == gs[k].positions + [n];
          }
        }
        FindGroupUnique(hs, paths[i], k);
      } else {
        match FindGroup(gs, path)
        case None =>
          FindGroupUnique(hs, path, |gs|);
        case Some(j) =>
          FindGroupUnique(hs, path, j);
      }
    }
  }

  /** Adding the next position keeps the grouping a grouping. */
  lemma AddToGrouping(paths: seq<string>, gs: seq<FileGroup>, path: string)
    requires IsGrouping(paths, gs)
    ensures IsGrouping(paths + [path], AddTo(gs, path, |paths|))
  {
    match FindGroup(gs, path) {
      case None => AddNewShape(paths, gs, path);
      case Some(j) => AddOldShape(paths, gs, path, j);
    }
    AddToHolds(paths, gs, path);
  }

  /** With distinct paths, the group holding a path is the one found. */
  lemma FindGroupUnique(gs: seq<FileGroup>, path: string, j: nat)
    requires forall a, b | 0 <= a < b < |gs| :: gs[a].path != gs[b].path
    requires j < |gs| && gs[j].path == path
    ensures FindGroup(gs, path) == Some(j)
  {
  }

  /** The grouping loop builds a grouping. */
  lemma {:induction false} GroupIsGrouping(paths: seq<string>)
    ensures IsGrouping(paths, Group(paths))
    decreases |paths|
  {
    if |paths| > 0 {
      var init, last := paths[..|paths| - 1], paths[|paths| - 1];
      assert init + [last] == paths;
      assert Group(paths) == AddTo(Group(init), last, |init|);
      GroupIsGrouping(init);
      AddToGrouping(init, Group(init), last);
    }
  }

  // ---------------------------------------------------------------- chunk order within a file

  /** `r` lists `positions` ordered by `key`, ties in collection order. */
  ghost predicate InChunkOrder(r: seq<nat>, positions: seq<nat>, key: nat -> int) {
    && |r| == |positions|
    && (forall x :: x in r <==> x in positions)
    && (forall a, b | 0 <= a < b < |r| :: key(r[a]) < key(r[b]) || (key(r[a]) == key(r[b]) && r[a] < r[b]))
  }

  /** `sorted(chunks, key=lambda x: x["chunk_index"])`: a stable sort of a file's positions. */
  function ChunkOrder(positions: seq<nat>, key: nat -> int): seq<nat> {
    Permute(positions, StableOrder(seq(|positions|, p requires 0 <= p < |positions| => key(positions[p]))))
  }

  /** The stable sort orders a file's increasing positions by chunk index. */
  lemma ChunkOrderSpec(positions: seq<nat>, key: nat -> int)
    requires forall p, q | 0 <= p < q < |positions| :: positions[p] < positions[q]
    ensures InChunkOrder(ChunkOrder(positions, key), positions, key)
  {
    var keys := seq(|positions|, p requires 0 <= p < |positions| => key(positions[p]));
    var o := StableOrder(keys);
    var r := ChunkOrder(positions, key);
    assert forall a | 0 <= a < |r| :: r[a] == positions[o[a]] && key(r[a]) == keys[o[a]];
    forall a, b | 0 <= a < b < |r|
      ensures key(r[a]) < key(r[b]) || (key(r[a]) == key(r[b]) && r[a] < r[b])
    {
      assert Before(keys, o[a], o[b]);
    }
    forall x
      ensures x in r <==> x in positions
    {
      if x in positions {
        var p :| 0 <= p < |positions| && positions[p] == x;
        assert p in o;
        var a :| 0 <= a < |o| && o[a] == p;
        assert r[a] == x;
      }
    }
  }

  /** An order that is strict somewhere lists no position twice. */
  lemma ChunkOrderDistinct(r: seq<nat>, positions: seq<nat>, key: nat -> int)
    requires InChunkOrder(r, positions, key)
    ensures Distinct(r)
  {
  }

  // ---------------------------------------------------------------- ranking files

  /** The files ranked by `score`, highest first, ties in first-seen order (Python's sort is stable). */
  function Entries(gs: seq<FileGroup>, score: string -> int, key: nat -> int, parent: string -> string): (es: seq<Entry>) {
    var ranks := seq(|gs|, j requires 0 <= j < |gs| => -score(gs[j].path));
    var order := StableOrder(ranks);
    seq(|order|, k requires 0 <= k < |order| =>
      var g := gs[order[k]];
      Entry(score(g.path), g.path, parent(g.path), ChunkOrder(g.positions, key), g.positions))
  }

  /** The `k`-th ranked entry is the group at some position `j`, with its score, directory and chunk order. */
  lemma EntryGroup(gs: seq<FileGroup>, score: string -> int, key: nat -> int, parent: string -> string, k: nat) returns (j: nat)
    requires k < |Entries(gs, score, key, parent)|
    ensures |Entries(gs, score, key, parent)| == |gs| && j < |gs|
    ensures Entries(gs, score, key, parent)[k]
      == Entry(score(gs[j].path), gs[j].path, parent(gs[j].path), ChunkOrder(gs[j].positions, key), gs[j].positions)
  {
    var ranks := seq(|gs|, i requires 0 <= i < |gs| => -score(gs[i].path));
    j := StableOrder(ranks)[k];
  }

  /** Every group is ranked. */
  lemma GroupRanked(gs: seq<FileGroup>, score: string -> int, key: nat -> int, parent: string -> string, j: nat)
    requires j < |gs|
    ensures exists k | 0 <= k < |Entries(gs, score, key, parent)| :: Entries(gs, score, key, parent)[k].path == gs[j].path
  {
    var ranks := seq(|gs|, i requires 0 <= i < |gs| => -score(gs[i].path));
    var order := StableOrder(ranks);
    assert j in order;
    var k :| 0 <= k < |order| && order[k] == j;
    assert Entries(gs, score, key, parent)[k].path == gs[j].path;
  }

  /** Each ranked entry is one file's group, with its score, its directory and its chunks in chunk order; every file is ranked. */
  lemma EntriesAreGroups(paths: seq<string>, gs: seq<FileGroup>, score: string -> int, key: nat -> int, parent: string -> string)
    requires GroupShape(paths, gs)
    ensures var es := Entries(gs, score, key, parent);
      && |es| == |gs|
      && (forall k | 0 <= k < |es| ::
          && es[k].score == score(es[k].path) && es[k].dir == parent(es[k].path)
          && FindGroup(gs, es[k].path).Some?
          && gs[FindGroup(gs, es[k].path).value].positions == es[k].raw
          && InChunkOrder(es[k].sorted, es[k].raw, key))
      && (forall j | 0 <= j < |gs| :: exists k | 0 <= k < |es| :: es[k].path == gs[j].path)
  {
    var es := Entries(gs, score, key, parent);
    forall k | 0 <= k < |es|
      ensures && es[k].score == score(es[k].path) && es[k].dir == parent(es[k].path)
              && FindGroup(gs, es[k].path).Some?
              && gs[FindGroup(gs, es[k].path).value].positions == es[k].raw
              && InChunkOrder(es[k].sorted, es[k].raw, key)
    {
      var j := EntryGroup(gs, score, key, parent, k);
      FindGroupUnique(gs, gs[j].path, j);
      ChunkOrderSpec(gs[j].positions, key);
    }
    forall j | 0 <= j < |gs|
      ensures exists k | 0 <= k < |es| :: es[k].path == gs[j].path
    {
      GroupRanked(gs, score, key, parent, j);
    }
  }

  /** Ranked files list each chunk at most once: no two files share a chunk. */
  lemma EntriesSeparate(paths: seq<string>, gs: seq<FileGroup>, score: string -> int, key: nat -> int, parent: string -> string)
    requires GroupShape(paths, gs)
    ensures SameCounts(Entries(gs, score, key, parent))
    ensures Separate(Entries(gs, score, key, parent))
  {
    var ranks := seq(|gs|, j requires 0 <= j < |gs| => -score(gs[j].path));
    var order := StableOrder(ranks);
    var es := Entries(gs, score, key, parent);
    forall k | 0 <= k < |es|
      ensures |es[k].sorted| == |es[k].raw| && Distinct(es[k].sorted)
      ensures forall x | x in es[k].sorted :: x < |paths| && paths[x] == es[k].path
    {
      ChunkOrderSpec(gs[order[k]].positions, key);
      ChunkOrderDistinct(es[k].sorted, es[k].raw, key);
      forall x | x in es[k].sorted
        ensures x < |paths| && paths[x] == es[k].path
      {
        assert x in gs[order[k]].positions;
      }
    }
    forall j, k, x | 0 <= j < k < |es| && x in es[j].sorted
      ensures x !in es[k].sorted
    {
      assert Before(ranks, order[j], order[k]);
    }
  }

  /** Ranked files come highest score first, equal scores in first-seen order. */
  lemma EntriesRanked(paths: seq<string>, gs: seq<FileGroup>, score: string -> int, key: nat -> int, parent: string -> string)
    requires GroupShape(paths, gs)
    ensures var es := Entries(gs, score, key, parent);
      forall a, b | 0 <= a < b < |es| ::
        |es[a].raw| > 0 && |es[b].raw| > 0
        && (es[a].score > es[b].score || (es[a].score == es[b].score && es[a].raw[0] < es[b].raw[0]))
  {
    var ranks := seq(|gs|, j requires 0 <= j < |gs| => -score(gs[j].path));
    var order := StableOrder(ranks);
    var es := Entries(gs, score, key, parent);
    forall a, b | 0 <= a < b < |es|
      ensures |es[a].raw| > 0 && |es[b].raw| > 0
      ensures es[a].score > es[b].score || (es[a].score == es[b].score && es[a].raw[0] < es[b].raw[0])
    {
      assert Before(ranks, order[a], order[b]);
    }
  }

  // ---------------------------------------------------------------- importance score

  /** Name fragments that mark an important file. */
  const IMPORTANT_PATTERNS: seq<string> := [
    "main", "index", "app", "server", "client",
    "config", "setup", "init", "routes", "api",
    "controller", "service", "model", "handler"
  ]

  /** Path fragments that mark a source directory. */
  const SOURCE_DIRS: seq<string> := ["src/", "lib/", "app/", "server/", "client/"]

  /** How many of `patterns` occur in `s`. */
  function Hits(s: string, patterns: seq<string>): (n: nat)
    ensures n <= |patterns|
    ensures n > 0 <==> exists k | 0 <= k < |patterns| :: Contains(s, patterns[k])
    decreases |patterns|
  {
    if |patterns| == 0 then 0
    else
      var rest := Hits(s, patterns[1..]);
      assert forall k | 0 <= k < |patterns[1..]| :: patterns[1..][k] == patterns[k + 1];
      assert (exists k | 1 <= k < |patterns| :: Contains(s, patterns[k])) ==> rest > 0 by {
        if exists k | 1 <= k < |patterns| :: Contains(s, patterns[k]) {
          var k :| 1 <= k < |patterns| && Contains(s, patterns[k]);
          assert Contains(s, patterns[1..][k - 1]);
        }
      }
      (if Contains(s, patterns[0]) then 1 else 0) + rest
  }

  /** The bonus for a root-level file: at most one `/` and at most one `\\`. */
  function RootBonus(path: string): int {
    if CountChar(path, '/') <= 1 && CountChar(path, '\\') <= 1 then 5 else 0
  }

  /** A file's importance given the name fragments and the source-directory fragments to look for. */
  function ScoreWith(path: string, important: seq<string>, sources: seq<string>): int {
    10 * Hits(Lower(path), important) + RootBonus(path) + (if Hits(Lower(path), sources) > 0 then 3 else 0)
  }

  /** A file's importance: 10 per important name fragment in the lower-cased path, 5 at root level, 3 under a source directory. */
  function Score(path: string): int {
    ScoreWith(path, IMPORTANT_PATTERNS, SOURCE_DIRS)
  }

  /**
   * The score decomposes: its tens count the important fragments found, its
   * last digit is 5 or more exactly for a root-level file, and it is 3
   * modulo 5 exactly under a source directory.  In particular a file scores
   * at least 10 exactly when its lower-cased path contains an important
   * fragment.
   */
  lemma ScoreParts(path: string, important: seq<string>, sources: seq<string>)
    ensures ScoreWith(path, important, sources) / 10 == Hits(Lower(path), important)
    ensures ScoreWith(path, important, sources) % 10 >= 5 <==> CountChar(path, '/') <= 1 && CountChar(path, '\\') <= 1
    ensures ScoreWith(path, important, sources) % 5 == 3 <==> exists k | 0 <= k < |sources| :: Contains(Lower(path), sources[k])
    ensures ScoreWith(path, important, sources) >= 10 <==> exists k | 0 <= k < |important| :: Contains(Lower(path), important[k])
  {
    var low := Lower(path);
    var h := Hits(low, important);
    var root := CountChar(path, '/') <= 1 && CountChar(path, '\\') <= 1;
    var source := Hits(low, sources) > 0;
    ScoreDigits(ScoreWith(path, important, sources), h, root, source);
  }

  /** Tens and units of `10 * h + 5 * root + 3 * source`. */
  lemma ScoreDigits(v: int, h: nat, root: bool, source: bool)
    requires v == 10 * h + (if root then 5 else 0) + (if source then 3 else 0)
    ensures v / 10 == h && (v % 10 >= 5 <==> root) && (v % 5 == 3 <==> source) && (v >= 10 <==> h > 0)
  {
    var b := (if root then 5 else 0) + (if source then 3 else 0);
    assert v == b + 10 * h;
    assert v % 10 == b && v / 10 == h;
    assert v % 5 == b % 5 by {
      assert v == b + 5 * (2 * h);
    }
  }

  // ---------------------------------------------------------------- the collection

  /** A stored chunk's metadata: `file_path` and `chunk_index`, either possibly missing. */
  datatype StoredMeta = StoredMeta(filePath: Option<string>, chunkIndex: Option<int>)

  /** A stored chunk: its text and its metadata, which the store may return as `None`. */
  datatype StoredChunk = StoredChunk(content: string, metadata: Option<StoredMeta>)

  /** Every chunk carries metadata. */
  predicate HasMetadata(chunks: seq<StoredChunk>) {
    forall i | 0 <= i < |chunks| :: chunks[i].metadata.Some?
  }

  /** `metadata.get("file_path", "unknown")`. */
  function PathOf(chunks: seq<StoredChunk>, i: nat): string
    requires i < |chunks| && chunks[i].metadata.Some?
  {
    chunks[i].metadata.value.filePath.GetOr("unknown")
  }

  /** `metadata.get("chunk_index", 0)`, as a key over positions. */
  function ChunkKey(chunks: seq<StoredChunk>): nat -> int {
    (i: nat) => if i < |chunks| && chunks[i].metadata.Some? then chunks[i].metadata.value.chunkIndex.GetOr(0) else 0
  }

  /** The file path of every chunk. */
  function Paths(chunks: seq<StoredChunk>): (paths: seq<string>)
    requires HasMetadata(chunks)
    ensures |paths| == |chunks|
  {
    seq(|chunks|, i requires 0 <= i < |chunks| => PathOf(chunks, i))
  }

  /** The files of the collection, ranked. */
  function RankedFiles(chunks: seq<StoredChunk>, parent: string -> string): seq<Entry>
    requires HasMetadata(chunks)
  {
    Entries(Group(Paths(chunks)), Score, ChunkKey(chunks), parent)
  }

  /**
   * `get_representative_samples` as positions in the collection: nothing when
   * the collection cannot be opened (`None`), is empty, or has a chunk
   * without metadata (the attribute error is caught); otherwise both passes
   * over the ranked files.
   */
  function SamplePositions(collection: Option<seq<StoredChunk>>, maxSamples: int, parent: string -> string): seq<nat> {
    match collection
    case None => []
    case Some(chunks) =>
      if |chunks| == 0 || !HasMetadata(chunks) then [] else Select(RankedFiles(chunks, parent), maxSamples)
  }

  /** The chunks at the sample positions. */
  function RepresentativeSamples(collection: Option<seq<StoredChunk>>, maxSamples: int, parent: string -> string): (r: seq<StoredChunk>)
    ensures |r| == |SamplePositions(collection, maxSamples, parent)|
  {
    var pos := SamplePositions(collection, maxSamples, parent);
    match collection
    case None => []
    case Some(chunks) =>
      assert forall i | 0 <= i < |pos| :: pos[i] < |chunks| by {
        if |chunks| > 0 && HasMetadata(chunks) {
          SamplesInRange(chunks, maxSamples, parent);
        }
      }
      seq(|pos|, i requires 0 <= i < |pos| => chunks[pos[i]])
  }

  /** The ranked files of a collection are its files, kept apart. */
  lemma RankedFilesShape(chunks: seq<StoredChunk>, parent: string -> string)
    requires HasMetadata(chunks)
    ensures SameCounts(RankedFiles(chunks, parent)) && Separate(RankedFiles(chunks, parent))
    ensures forall k, x | 0 <= k < |RankedFiles(chunks, parent)| && x in RankedFiles(chunks, parent)[k].sorted :: x < |chunks|
  {
    var paths := Paths(chunks);
    GroupIsGrouping(paths);
    var gs := Group(paths);
    EntriesSeparate(paths, gs, Score, ChunkKey(chunks), parent);
    EntriesAreGroups(paths, gs, Score, ChunkKey(chunks), parent);
    var es := RankedFiles(chunks, parent);
    forall k, x | 0 <= k < |es| && x in es[k].sorted
      ensures x < |chunks|
    {
      var j := FindGroup(gs, es[k].path).value;
      assert x in gs[j].positions;
    }
  }

  /** Sample positions lie inside the collection. */
  lemma SamplesInRange(chunks: seq<StoredChunk>, maxSamples: int, parent: string -> string)
    requires |chunks| > 0 && HasMetadata(chunks)
    ensures forall i | 0 <= i < |SamplePositions(Some(chunks), maxSamples, parent)| ::
      SamplePositions(Some(chunks), maxSamples, parent)[i] < |chunks|
  {
    var es := RankedFiles(chunks, parent);
    RankedFilesShape(chunks, parent);
    SelectIsFirstPass(es, maxSamples);
    var r := SamplePositions(Some(chunks), maxSamples, parent);
    forall i | 0 <= i < |r|
      ensures r[i] < |chunks|
    {
      assert r[i] == Contributions(es)[i];
      ContributionsFrom(es, r[i]);
    }
  }

  /**
   * The selection: the second pass adds nothing, so the samples are the
   * files' contributions in rank order cut at `max_samples`; no chunk is
   * taken twice; and each sample is the first chunk (by chunk index) of a
   * ranked file, or the second chunk of a file scoring at least 10.
   */
  lemma SamplesSpec(chunks: seq<StoredChunk>, maxSamples: int, parent: string -> string)
    requires |chunks| > 0 && HasMetadata(chunks)
    ensures var es, r := RankedFiles(chunks, parent), SamplePositions(Some(chunks), maxSamples, parent);
      && r == Take(Contributions(es), maxSamples)
      && Distinct(r)
      && (forall i | 0 <= i < |r| :: exists k | 0 <= k < |es| ::
            (|es[k].sorted| > 0 && r[i] == es[k].sorted[0])
            || (es[k].score >= 10 && |es[k].sorted| > 1 && r[i] == es[k].sorted[1]))
  {
    var es := RankedFiles(chunks, parent);
    RankedFilesShape(chunks, parent);
    SelectIsFirstPass(es, maxSamples);
    ContributionsDistinct(es);
    var r := SamplePositions(Some(chunks), maxSamples, parent);
    forall i | 0 <= i < |r|
      ensures exists k | 0 <= k < |es| ::
            (|es[k].sorted| > 0 && r[i] == es[k].sorted[0])
            || (es[k].score >= 10 && |es[k].sorted| > 1 && r[i] == es[k].sorted[1])
    {
      assert r[i] == Contributions(es)[i];
      ContributionsOrigin(es, i);
    }
  }

  /** A grouping's group for a path lists exactly the positions holding that path. */
  lemma GroupMembers(paths: seq<string>, gs: seq<FileGroup>, j: nat, x: nat)
    requires Labelled(paths, gs) && PathsDistinct(gs)
    requires forall i | 0 <= i < |paths| :: Holds(gs, paths[i], i)
    requires j < |gs|
    ensures x in gs[j].positions <==> x < |paths| && paths[x] == gs[j].path
  {
    if x < |paths| && paths[x] == gs[j].path {
      assert Holds(gs, paths[x], x);
      FindGroupUnique(gs, gs[j].path, j);
    }
  }

  /** Every path of a grouping has a group. */
  lemma PathGrouped(paths: seq<string>, gs: seq<FileGroup>, i: nat) returns (j: nat)
    requires forall i | 0 <= i < |paths| :: Holds(gs, paths[i], i)
    requires i < |paths|
    ensures j < |gs| && gs[j].path == paths[i]
  {
    assert Holds(gs, paths[i], i);
    j := FindGroup(gs, paths[i]).value;
  }

  /**
   * The ranked files of a collection: one per distinct path, highest score
   * first with ties in first-seen order, each with its score, its directory,
   * exactly the positions holding its path, and those ordered by chunk index.
   */
  lemma RankedFilesSpec(chunks: seq<StoredChunk>, parent: string -> string)
    requires HasMetadata(chunks)
    ensures var es, paths := RankedFiles(chunks, parent), Paths(chunks);
      && (forall k | 0 <= k < |es| ::
          && es[k].score == Score(es[k].path) && es[k].dir == parent(es[k].path)
          && InChunkOrder(es[k].sorted, es[k].raw, ChunkKey(chunks)))
      && (forall k, x: nat | 0 <= k < |es| :: x in es[k].raw <==> x < |paths| && paths[x] == es[k].path)
      && (forall i | 0 <= i < |paths| :: exists k | 0 <= k < |es| :: es[k].path == paths[i])
      && (forall a, b | 0 <= a < b < |es| ::
          |es[a].raw| > 0 && |es[b].raw| > 0
          && (es[a].score > es[b].score || (es[a].score == es[b].score && es[a].raw[0] < es[b].raw[0])))
  {
    var paths := Paths(chunks);
    GroupIsGrouping(paths);
    var gs := Group(paths);
    var es := RankedFiles(chunks, parent);
    EntriesAreGroups(paths, gs, Score, ChunkKey(chunks), parent);
    EntriesRanked(paths, gs, Score, ChunkKey(chunks), parent);
    forall k, x: nat | 0 <= k < |es|
      ensures x in es[k].raw <==> x < |paths| && paths[x] == es[k].path
    {
      var j := EntryGroup(gs, Score, ChunkKey(chunks), parent, k);
      GroupMembers(paths, gs, j, x);
    }
    forall i | 0 <= i < |paths|
      ensures exists k | 0 <= k < |es| :: es[k].path == paths[i]
    {
      var j := PathGrouped(paths, gs, i);
      GroupRanked(gs, Score, ChunkKey(chunks), parent, j);
    }
  }

  /** Nothing is returned when the collection cannot be opened, is empty, or lacks metadata, or when `max_samples` is not positive; never more than `max_samples`. */
  lemma SamplesEmptyCases(collection: Option<seq<StoredChunk>>, maxSamples: int, parent: string -> string)
    ensures collection.None? ==> SamplePositions(collection, maxSamples, parent) == []
    ensures collection.Some? && (|collection.value| == 0 || !HasMetadata(collection.value)) ==>
      SamplePositions(collection, maxSamples, parent) == []
    ensures maxSamples <= 0 ==> SamplePositions(collection, maxSamples, parent) == []
    ensures |SamplePositions(collection, maxSamples, parent)| <= if maxSamples < 0 then 0 else maxSamples
  {
    if collection.Some? && |collection.value| > 0 && HasMetadata(collection.value) {
      RankedFilesShape(collection.value, parent);
      SelectIsFirstPass(RankedFiles(collection.value, parent), maxSamples);
    }
  }
}

=== FILE: routes.dfy ===
/**
 * The job orchestration of the API: the single-flight lock, the job table,
 * submission, the background analysis run over abstract stage outcomes,
 * and the status and report queries.  A background run is one step here:
 * the queries cannot interleave with it.  Each run also records, in order,
 * the side effects it performed, so that their order can be stated.
 */
module Routes {
  import opened Wrappers
  import opened Text
  import opened Schemas
  import opened Database

  // ---------------------------------------------------------------- state

  /**
   * The service state: the lock flag, the two tables, the next job id,
   * the background runs queued and not yet started, the job ids with a
   * clone on disk and the vector-store collections that exist.
   */
  datatype State = State(
    locked: bool,
    jobs: Jobs,
    reports: seq<ReportRow>,
    nextId: nat,
    queued: seq<nat>,
    clones: set<nat>,
    collections: set<string>)

  /** An HTTP error: status code and detail. */
  datatype HttpError = HttpError(code: nat, detail: string)

  /** Python truthiness of an optional string: present and non-empty. */
  predicate Truthy(o: Option<string>) {
    o.Some? && |o.value| > 0
  }

  /**
   * `update_job_status`: an unknown id changes nothing; otherwise the status
   * and the update time are always set, while the progress text and the
   * error text are replaced only by truthy values.
   */
  function UpdateJobStatus(jobs: Jobs, id: nat, status: string, progress: Option<string>, error: Option<string>, now: int): (r: Jobs)
    ensures id !in jobs ==> r == jobs
    ensures r.Keys == jobs.Keys
    ensures forall k | k in jobs && k != id :: r[k] == jobs[k]
    ensures id in jobs ==> (r[id].status == status && r[id].updatedAt == now
                            && r[id].repoUrl == jobs[id].repoUrl && r[id].createdAt == jobs[id].createdAt)
    ensures id in jobs && Truthy(progress) ==> r[id].progressDetail == progress
    ensures id in jobs && !Truthy(progress) ==> r[id].progressDetail == jobs[id].progressDetail
    ensures id in jobs && Truthy(error) ==> r[id].errorMessage == error
    ensures id in jobs && !Truthy(error) ==> r[id].errorMessage == jobs[id].errorMessage
  {
    if id !in jobs then jobs
    else
      var job := jobs[id];
      jobs[id := job.(
        status := status,
        progressDetail := if Truthy(progress) then progress else job.progressDetail,
        errorMessage := if Truthy(error) then error else job.errorMessage,
        updatedAt := now)]
  }

  // ---------------------------------------------------------------- submission

  const BUSY: string := "Another analysis is already in progress. Please wait."
  const INVALID_URL: string := "Invalid GitHub repository URL"
  const QUEUED: string := "Analysis queued"

  /** The basic URL check: `github.com` somewhere in the lowercased URL. */
  predicate GitHubUrl(url: string) {
    Contains(Lower(url), "github.com")
  }

  /**
   * `analyze_repository`: refused with 503 while a run holds the lock (before
   * the URL is looked at), then with 400 for a URL that fails the check;
   * otherwise a pending job is created, the lock is taken and the run is
   * queued.
   */
  function Submit(s: State, url: string, now: int): (res: (State, Result<(nat, AnalysisJob), HttpError>))
    ensures s.locked ==> res == (s, Failure(HttpError(503, BUSY)))
    ensures !s.locked && !GitHubUrl(url) ==> res == (s, Failure(HttpError(400, INVALID_URL)))
    ensures res.1.Success? <==> !s.locked && GitHubUrl(url)
    ensures res.1.Success? ==>
      var (id, job) := res.1.value;
      && res.0.locked && res.0.jobs == s.jobs[id := job] && res.0.queued == s.queued + [id]
      && job == AnalysisJob(url, PENDING, Some(QUEUED), None, now, now)
      && res.0.reports == s.reports && res.0.clones == s.clones && res.0.collections == s.collections
  {
    if s.locked then (s, Failure(HttpError(503, BUSY)))
    else if !GitHubUrl(url) then (s, Failure(HttpError(400, INVALID_URL)))
    else
      var id := s.nextId;
      var job := AnalysisJob(url, PENDING, Some(QUEUED), None, now, now);
      (s.(jobs := s.jobs[id := job], nextId := id + 1, locked := true, queued := s.queued + [id]), Success((id, job)))
  }

  // ---------------------------------------------------------------- the background run

  /** What cloning and reading the repository produced. */
  datatype Analysis = Analysis(fileCount: nat, languages: LanguageCounts, dependencies: Dependencies)

  /**
   * The outcomes of the stages a run depends on: the repository analysis,
   * the progress messages the embedding step reports and then its
   * collection name, and the generated report; each stage may raise.  The
   * last two say whether the job's clone directory can be removed and
   * whether the collection can be deleted.  The removal and the deletion in
   * the error branch log and swallow their own errors
   * (github_service.py:218-229, rag_service.py:242-246), so a failure there
   * leaves the directory or the collection in place without raising.
   * `cloneRemovable` is a property of the directory, not of one call: the
   * stale-directory removal at the start of cloning
   * (github_service.py:34-35) succeeds or fails with it, and when it fails
   * the analysis stage raises.
   */
  datatype Stages = Stages(
    analysis: Result<Analysis, string>,
    embeddingProgress: seq<string>,
    embedding: Result<string, string>,
    report: Result<HealthReportData, string>,
    cloneRemovable: bool,
    collectionDeletable: bool)

  /** A side effect of a run, on the job, the tables, the disk, the store or the lock. */
  datatype Effect =
    | SetStatus(status: string, progress: Option<string>, error: Option<string>)
    | AddClone
    | RemoveClone
    | CreateCollection(name: string)
    | DropCollection(name: string)
    | StoreReport(reportJson: Json)
    | Unlock

  const CLONING: string := "Cloning repository"
  const EMBEDDING: string := "Creating embeddings"
  const ANALYZING: string := "Analyzing code with AI"
  const GENERATING: string := "Generating health report"
  const CLEANING: string := "Cleaning up ChromaDB"
  const SUCCEEDED: string := "Analysis completed successfully"
  const NO_FILES: string := "No valid text files found in repository"

  /** The progress text after the files are read. */
  function ParsingMessage(n: nat): string {
    "Parsing files (" + NatToString(n) + " found)"
  }

  /** The effect of one step on the state of the run for job `id`. */
  function Apply(s: State, id: nat, e: Effect, now: int): State {
    match e
    case SetStatus(status, progress, error) => s.(jobs := UpdateJobStatus(s.jobs, id, status, progress, error, now))
    case AddClone => s.(clones := s.clones + {id})
    case RemoveClone => s.(clones := s.clones - {id})
    case CreateCollection(name) => s.(collections := s.collections + {name})
    case DropCollection(name) => s.(collections := s.collections - {name})
    case StoreReport(j) => s.(reports := s.reports + [ReportRow(id, j)])
    case Unlock => s.(locked := false)
  }

  /**
   * The place of an effect in the success order: storing the report (1)
   * comes before dropping the collection (2), which comes before the
   * `completed` status (3); other effects are unordered (0).
   */
  function Rank(e: Effect): nat {
    match e
    case StoreReport(_) => 1
    case DropCollection(_) => 2
    case SetStatus(status, _, _) => if status == COMPLETED then 3 else 0
    case _ => 0
  }

  /** The highest rank in a log. */
  function MaxRank(log: seq<Effect>): nat
    decreases |log|
  {
    if |log| == 0 then 0
    else
      var m := MaxRank(log[..|log| - 1]);
      if Rank(log[|log| - 1]) > m then Rank(log[|log| - 1]) else m
  }

  /** Each ranked effect has at least the highest rank before it. */
  predicate Ordered(log: seq<Effect>)
    decreases |log|
  {
    |log| == 0 || (Ordered(log[..|log| - 1]) && (Rank(log[|log| - 1]) == 0 || MaxRank(log[..|log| - 1]) <= Rank(log[|log| - 1])))
  }

  /** The highest rank bounds every rank in the log. */
  lemma {:induction false} MaxRankBounds(log: seq<Effect>, i: nat)
    requires i < |log|
    ensures Rank(log[i]) <= MaxRank(log)
    decreases |log|
  {
    if i < |log| - 1 {
      MaxRankBounds(log[..|log| - 1], i);
    }
  }

  /** An ordered log, pairwise: no ranked effect is followed by one of lower rank. */
  lemma {:induction false} OrderedPairs(log: seq<Effect>, i: nat, j: nat)
    requires Ordered(log) && i < j < |log| && Rank(log[j]) > 0
    ensures Rank(log[i]) <= Rank(log[j])
    decreases |log|
  {
    if j < |log| - 1 {
      OrderedPairs(log[..|log| - 1], i, j);
    } else {
      MaxRankBounds(log[..|log| - 1], i);
    }
  }

  /** A run in progress: the state so far and the effects performed so far, oldest first. */
  datatype Progress = Progress(state: State, log: seq<Effect>)

  /** The lock has not been released yet. */
  predicate NoUnlock(log: seq<Effect>) {
    forall i | 0 <= i < |log| :: log[i] != Unlock
  }

  /** The lock is released by the last effect and by no other. */
  predicate UnlockedLast(log: seq<Effect>) {
    |log| > 0 && log[|log| - 1] == Unlock && NoUnlock(log[..|log| - 1])
  }

  /** Performs one effect and records it. */
  function Do(p: Progress, id: nat, e: Effect, now: int): (q: Progress)
    ensures q.log == p.log + [e] && q.state == Apply(p.state, id, e, now)
    ensures NoUnlock(q.log) <==> NoUnlock(p.log) && e != Unlock
    ensures e == Unlock && NoUnlock(p.log) ==> UnlockedLast(q.log)
    ensures Ordered(q.log) <==> Ordered(p.log) && (Rank(e) == 0 || MaxRank(p.log) <= Rank(e))
    ensures MaxRank(q.log) == if Rank(e) > MaxRank(p.log) then Rank(e) else MaxRank(p.log)
  {
    var log := p.log + [e];
    assert log[..|log| - 1] == p.log;
    assert forall i | 0 <= i < |p.log| :: log[i] == p.log[i];
    assert log[|p.log|] == e;
    Progress(Apply(p.state, id, e, now), log)
  }

  /** The status updates the embedding step's progress callback makes. */
  function ProgressAll(p: Progress, id: nat, messages: seq<string>, now: int): (q: Progress)
    ensures q.state.locked == p.state.locked && q.state.reports == p.state.reports && q.state.nextId == p.state.nextId
    ensures q.state.queued == p.state.queued && q.state.clones == p.state.clones && q.state.collections == p.state.collections
    ensures q.state.jobs.Keys == p.state.jobs.Keys
    ensures forall k | k in p.state.jobs && k != id :: q.state.jobs[k] == p.state.jobs[k]
    ensures id in p.state.jobs ==> (q.state.jobs[id].repoUrl == p.state.jobs[id].repoUrl
                                    && q.state.jobs[id].createdAt == p.state.jobs[id].createdAt
                                    && q.state.jobs[id].errorMessage == p.state.jobs[id].errorMessage)
    ensures NoUnlock(q.log) <==> NoUnlock(p.log)
    ensures MaxRank(q.log) == MaxRank(p.log) && (Ordered(q.log) <==> Ordered(p.log))
    decreases |messages|
  {
    if |messages| == 0 then p
    else
      ProgressAll(Do(p, id, SetStatus(PROCESSING, Some(messages[0]), None), now), id, messages[1..], now)
  }

  /**
   * The `except` branch: the clone is removed when `removable`, the
   * collection deleted when it is named and `deletable`, then the job is
   * failed with the error text and the lock released.
   */
  function Abort(p: Progress, id: nat, error: string, collection: Option<string>, removable: bool, deletable: bool, now: int): (q: Progress)
    ensures Unranked(p) ==> UnlockedLast(q.log) && Ordered(q.log)
    ensures !q.state.locked && q.state.reports == p.state.reports
    ensures q.state.jobs.Keys == p.state.jobs.Keys && q.state.nextId == p.state.nextId && q.state.queued == p.state.queued
    ensures forall k | k in p.state.jobs && k != id :: q.state.jobs[k] == p.state.jobs[k]
    ensures id in p.state.jobs ==> q.state.jobs[id].status == FAILED && q.state.jobs[id].createdAt == p.state.jobs[id].createdAt
    ensures id in p.state.jobs ==> q.state.jobs[id].repoUrl == p.state.jobs[id].repoUrl
    ensures id in p.state.jobs && |error| > 0 ==> q.state.jobs[id].errorMessage == Some(error)
    ensures removable ==> q.state.clones == p.state.clones - {id}
    ensures !removable ==> q.state.clones == p.state.clones
    ensures Truthy(collection) && deletable ==> q.state.collections == p.state.collections - {collection.value}
    ensures !(Truthy(collection) && deletable) ==> q.state.collections == p.state.collections
  {
    var p2 := Release(p, id, collection, removable, deletable, now);
    Do(Do(p2, id, SetStatus(FAILED, None, Some(error)), now), id, Unlock, now)
  }

  /**
   * The resources an aborted run gives back: the clone when its removal
   * succeeds, then the collection when one was named and its deletion
   * succeeds.
   */
  function Release(p: Progress, id: nat, collection: Option<string>, removable: bool, deletable: bool, now: int): (q: Progress)
    ensures Unranked(p) ==> Ordered(q.log)
    ensures NoUnlock(q.log) <==> NoUnlock(p.log)
    ensures q.state.locked == p.state.locked && q.state.jobs == p.state.jobs && q.state.reports == p.state.reports
    ensures q.state.nextId == p.state.nextId && q.state.queued == p.state.queued
    ensures removable ==> q.state.clones == p.state.clones - {id}
    ensures !removable ==> q.state.clones == p.state.clones
    ensures Truthy(collection) && deletable ==> q.state.collections == p.state.collections - {collection.value}
    ensures !(Truthy(collection) && deletable) ==> q.state.collections == p.state.collections
  {
    var p1 := if removable then Do(p, id, RemoveClone, now) else p;
    if Truthy(collection) && deletable then Do(p1, id, DropCollection(collection.value), now) else p1
  }

  /** A run that has so far only updated the status, added the clone or created the collection. */
  predicate Unranked(p: Progress) {
    NoUnlock(p.log) && Ordered(p.log) && MaxRank(p.log) == 0
  }

  /**
   * `analyze_repository_background` for job `id`: the stages in order with
   * their status updates; no files ends the run as failed, keeping the
   * clone; an exception from any stage goes to `Abort`.  Every path ends by
   * releasing the lock.
   */
  function RunJob(s: State, id: nat, st: Stages, now: int): (p: Progress)
    ensures UnlockedLast(p.log) && !p.state.locked && Ordered(p.log)
  {
    var p1 := Do(Progress(s, []), id, SetStatus(PROCESSING, Some(CLONING), None), now);
    match st.analysis
    case Failure(e) => Abort(p1, id, e, None, st.cloneRemovable, st.collectionDeletable, now)
    case Success(a) =>
      var p2 := Do(Do(p1, id, AddClone, now), id, SetStatus(PROCESSING, Some(ParsingMessage(a.fileCount)), None), now);
      if a.fileCount == 0 then
        Do(Do(p2, id, SetStatus(FAILED, None, Some(NO_FILES)), now), id, Unlock, now)
      else
        Embed(Do(p2, id, SetStatus(PROCESSING, Some(EMBEDDING), None), now), id, st, now)
  }

  /** From the embedding step on: progress updates, then the collection, or the exception. */
  function Embed(p: Progress, id: nat, st: Stages, now: int): (q: Progress)
    requires Unranked(p)
    ensures UnlockedLast(q.log) && !q.state.locked && Ordered(q.log)
  {
    var p3 := ProgressAll(p, id, st.embeddingProgress, now);
    match st.embedding
    case Failure(e) => Abort(p3, id, e, None, st.cloneRemovable, st.collectionDeletable, now)
    case Success(name) =>
      var p4 := Do(Do(Do(p3, id, CreateCollection(name), now),
                      id, SetStatus(PROCESSING, Some(ANALYZING), None), now),
                   id, SetStatus(PROCESSING, Some(GENERATING), None), now);
      Finish(p4, id, name, st, now)
  }

  /**
   * From the report on: a raised generation, or the unique constraint
   * refusing the row, goes to `Abort` with the collection; otherwise the
   * report is stored, the collection deleted when that succeeds, and the
   * job completed, keeping the clone for the retention policy.
   */
  function Finish(p: Progress, id: nat, name: string, st: Stages, now: int): (q: Progress)
    requires Unranked(p)
    ensures UnlockedLast(q.log) && !q.state.locked && Ordered(q.log)
  {
    match st.report
    case Failure(e) => Abort(p, id, e, Some(name), st.cloneRemovable, st.collectionDeletable, now)
    case Success(r) =>
      match AddReport(p.state.reports, ReportRow(id, ReportToJson(r)))
      case Failure(e) => Abort(p, id, e, Some(name), st.cloneRemovable, st.collectionDeletable, now)
      case Success(_) => Complete(p, id, name, r, st.collectionDeletable, now)
  }

  /**
   * The success path: the report is stored, the collection dropped when it
   * is named and its deletion succeeds, the job completed and the lock
   * released.
   */
  function Complete(p: Progress, id: nat, name: string, r: HealthReportData, deletable: bool, now: int): (q: Progress)
    requires Unranked(p)
    ensures UnlockedLast(q.log) && !q.state.locked && Ordered(q.log)
  {
    var p5 := Do(Do(p, id, StoreReport(ReportToJson(r)), now), id, SetStatus(PROCESSING, Some(CLEANING), None), now);
    var p6 := if |name| > 0 && deletable then Do(p5, id, DropCollection(name), now) else p5;
    Do(Do(p6, id, SetStatus(COMPLETED, Some(SUCCEEDED), None), now), id, Unlock, now)
  }

  // ---------------------------------------------------------------- how a run ends

  /**
   * The end of a run as the stage outcomes decide it.  A failure records
   * whether the run had cloned by then and whether the clone and the
   * collection could be removed; a completion whether the collection could.
   */
  datatype Ending =
    | NoFiles
    | Failed(error: string, collection: Option<string>, cloned: bool, removable: bool, deletable: bool)
    | Completed(report: HealthReportData, name: string, deletable: bool)

  /**
   * How a run ends, read off the stage outcomes alone and whether the job
   * already had a report: the first stage to raise fails the run (with the
   * collection, once there is one), and an empty repository fails it
   * without raising.
   */
  function EndingOf(st: Stages, hasReport: bool): Ending {
    match st.analysis
    case Failure(e) => Failed(e, None, false, st.cloneRemovable, st.collectionDeletable)
    case Success(a) =>
      if a.fileCount == 0 then NoFiles
      else
        match st.embedding
        case Failure(e) => Failed(e, None, true, st.cloneRemovable, st.collectionDeletable)
        case Success(name) => ReportEnding(st, hasReport, name)
  }

  /** The end of a run once the collection `name` exists. */
  function ReportEnding(st: Stages, hasReport: bool, name: string): Ending {
    match st.report
    case Failure(e) => Failed(e, Some(name), true, st.cloneRemovable, st.collectionDeletable)
    case Success(r) =>
      if hasReport then Failed(UNIQUE_VIOLATION, Some(name), true, st.cloneRemovable, st.collectionDeletable)
      else Completed(r, name, st.collectionDeletable)
  }

  /**
   * What a run leaves alone: the queue, the id counter, the other jobs and
   * their clones, and the key fields of its own job.
   */
  predicate Mid(s: State, id: nat, t: State) {
    && id in s.jobs
    && t.queued == s.queued && t.nextId == s.nextId
    && t.jobs.Keys == s.jobs.Keys
    && (forall k | k in s.jobs && k != id :: t.jobs[k] == s.jobs[k])
    && t.clones - {id} == s.clones - {id}
    && t.jobs[id].repoUrl == s.jobs[id].repoUrl && t.jobs[id].createdAt == s.jobs[id].createdAt
  }

  /**
   * The collections after a run that created `c`: a named one is gone again
   * when its deletion succeeds; an unnamed one (falsy, so never deleted) or
   * one whose deletion fails stays; the others are as before.
   */
  predicate Leftover(before: set<string>, after: set<string>, c: Option<string>, deletable: bool) {
    match c
    case None => after == before
    case Some(name) => after - {name} == before - {name} && (name in after <==> |name| == 0 || !deletable)
  }

  /** The state `t` a run of job `id` from `s` ends in, for each ending. */
  predicate Ends(s: State, id: nat, t: State, ending: Ending) {
    && Mid(s, id, t) && !t.locked
    && match ending
       case NoFiles =>
         && t.jobs[id].status == FAILED && t.jobs[id].errorMessage == Some(NO_FILES)
         && id in t.clones && t.reports == s.reports && t.collections == s.collections
       case Failed(e, c, cloned, removable, deletable) =>
         && t.jobs[id].status == FAILED && (|e| > 0 ==> t.jobs[id].errorMessage == Some(e))
         && (id in t.clones <==> !removable && (cloned || id in s.clones))
         && t.reports == s.reports && Leftover(s.collections, t.collections, c, deletable)
       case Completed(r, name, deletable) =>
         && t.jobs[id].status == COMPLETED && t.jobs[id].progressDetail == Some(SUCCEEDED)
         && t.reports == s.reports + [ReportRow(id, ReportToJson(r))]
         && id in t.clones && Leftover(s.collections, t.collections, Some(name), deletable)
  }

  /** One effect keeps what a run leaves alone. */
  lemma DoMid(s: State, p: Progress, id: nat, e: Effect, now: int)
    requires Mid(s, id, p.state)
    ensures Mid(s, id, Do(p, id, e, now).state)
  {
  }

  /**
   * The `except` branch ends the run as failed; the clone is left exactly
   * when there was one and its removal fails.
   */
  lemma AbortEnds(s: State, p: Progress, id: nat, error: string, c: Option<string>, cloned: bool, removable: bool, deletable: bool, now: int)
    requires Mid(s, id, p.state) && p.state.reports == s.reports
    requires id in p.state.clones <==> cloned || id in s.clones
    requires p.state.collections == if c.Some? then s.collections + {c.value} else s.collections
    ensures Ends(s, id, Abort(p, id, error, c, removable, deletable, now).state, Failed(error, c, cloned, removable, deletable))
  {
    var q := Abort(p, id, error, c, removable, deletable, now);
    assert q.state.clones - {id} == s.clones - {id} by {
      assert q.state.clones - {id} == p.state.clones - {id};
    }
    if c.Some? {
      DroppedLeftover(s.collections, c.value, deletable);
    }
  }

  /** From the report on, the run ends as `ReportEnding` says. */
  lemma FinishEnds(s: State, p: Progress, id: nat, name: string, st: Stages, now: int)
    requires Unranked(p) && Mid(s, id, p.state) && p.state.reports == s.reports
    requires id in p.state.clones && p.state.collections == s.collections + {name}
    ensures Ends(s, id, Finish(p, id, name, st, now).state, ReportEnding(st, FindReport(s.reports, id).Some?, name))
  {
    match st.report
    case Failure(e) => AbortEnds(s, p, id, e, Some(name), true, st.cloneRemovable, st.collectionDeletable, now);
    case Success(r) =>
      if AddReport(p.state.reports, ReportRow(id, ReportToJson(r))).Failure? {
        AbortEnds(s, p, id, UNIQUE_VIOLATION, Some(name), true, st.cloneRemovable, st.collectionDeletable, now);
      } else {
        CompleteEnds(s, p, id, name, r, st.collectionDeletable, now);
      }
  }

  /** The success path ends the run completed, with its report stored. */
  lemma CompleteEnds(s: State, p: Progress, id: nat, name: string, r: HealthReportData, deletable: bool, now: int)
    requires Unranked(p) && Mid(s, id, p.state) && p.state.reports == s.reports
    requires id in p.state.clones && p.state.collections == s.collections + {name}
    ensures Ends(s, id, Complete(p, id, name, r, deletable, now).state, Completed(r, name, deletable))
  {
    var p1 := Do(p, id, StoreReport(ReportToJson(r)), now);
    DoMid(s, p, id, StoreReport(ReportToJson(r)), now);
    var p5 := Do(p1, id, SetStatus(PROCESSING, Some(CLEANING), None), now);
    DoMid(s, p1, id, SetStatus(PROCESSING, Some(CLEANING), None), now);
    assert p5.state.reports == s.reports + [ReportRow(id, ReportToJson(r))];
    DroppedLeftover(s.collections, name, deletable);
    if |name| > 0 && deletable {
      var p6 := Do(p5, id, DropCollection(name), now);
      DoMid(s, p5, id, DropCollection(name), now);
      CompletedFrom(s, p6, id, r, name, deletable, now);
    } else {
      CompletedFrom(s, p5, id, r, name, deletable, now);
    }
  }

  /** The last two steps of the success path, from the state after the drop. */
  lemma CompletedFrom(s: State, p: Progress, id: nat, r: HealthReportData, name: string, deletable: bool, now: int)
    requires Mid(s, id, p.state) && id in p.state.clones
    requires p.state.reports == s.reports + [ReportRow(id, ReportToJson(r))]
    requires Leftover(s.collections, p.state.collections, Some(name), deletable)
    ensures Ends(s, id, Do(Do(p, id, SetStatus(COMPLETED, Some(SUCCEEDED), None), now), id, Unlock, now).state, Completed(r, name, deletable))
  {
    var p7 := Do(p, id, SetStatus(COMPLETED, Some(SUCCEEDED), None), now);
    DoMid(s, p, id, SetStatus(COMPLETED, Some(SUCCEEDED), None), now);
    DoMid(s, p7, id, Unlock, now);
  }

  /** Deleting a created collection, when it is named and deletable, leaves the collections as `Leftover` says. */
  lemma DroppedLeftover(before: set<string>, name: string, deletable: bool)
    ensures |name| > 0 && deletable ==> Leftover(before, before + {name} - {name}, Some(name), deletable)
    ensures !(|name| > 0 && deletable) ==> Leftover(before, before + {name}, Some(name), deletable)
  {
    assert before + {name} - {name} == before - {name};
  }

  /** From the embedding step on, the run ends as its stages say. */
  lemma EmbedEnds(s: State, p: Progress, id: nat, st: Stages, now: int)
    requires Unranked(p) && Mid(s, id, p.state) && p.state.reports == s.reports
    requires id in p.state.clones && p.state.collections == s.collections
    ensures Ends(s, id, Embed(p, id, st, now).state,
                 match st.embedding
                 case Failure(e) => Failed(e, None, true, st.cloneRemovable, st.collectionDeletable)
                 case Success(name) => ReportEnding(st, FindReport(s.reports, id).Some?, name))
  {
    var p3 := ProgressAll(p, id, st.embeddingProgress, now);
    match st.embedding
    case Failure(e) => AbortEnds(s, p3, id, e, None, true, st.cloneRemovable, st.collectionDeletable, now);
    case Success(name) => CollectionEnds(s, p3, id, name, st, now);
  }

  /** Once the collection exists, the run ends as `ReportEnding` says. */
  lemma CollectionEnds(s: State, p: Progress, id: nat, name: string, st: Stages, now: int)
    requires Unranked(p) && Mid(s, id, p.state) && p.state.reports == s.reports
    requires id in p.state.clones && p.state.collections == s.collections
    ensures Ends(s, id, Finish(Do(Do(Do(p, id, CreateCollection(name), now),
                                     id, SetStatus(PROCESSING, Some(ANALYZING), None), now),
                                  id, SetStatus(PROCESSING, Some(GENERATING), None), now),
                               id, name, st, now).state,
                 ReportEnding(st, FindReport(s.reports, id).Some?, name))
  {
    var p4 := Do(p, id, CreateCollection(name), now);
    DoMid(s, p, id, CreateCollection(name), now);
    var p5 := Do(p4, id, SetStatus(PROCESSING, Some(ANALYZING), None), now);
    DoMid(s, p4, id, SetStatus(PROCESSING, Some(ANALYZING), None), now);
    DoMid(s, p5, id, SetStatus(PROCESSING, Some(GENERATING), None), now);
    FinishEnds(s, Do(p5, id, SetStatus(PROCESSING, Some(GENERATING), None), now), id, name, st, now);
  }

  /**
   * A run of an existing job ends as `EndingOf` says: failed with the first
   * raised error (the clone removed and the collection deleted when those
   * calls succeed), failed for an empty repository (the clone kept), or
   * completed with its report stored (the clone kept for the retention
   * policy, the collection deleted when that succeeds); the lock is released
   * and nothing else changes.
   */
  lemma RunEnds(s: State, id: nat, st: Stages, now: int)
    requires id in s.jobs
    ensures Ends(s, id, RunJob(s, id, st, now).state, EndingOf(st, FindReport(s.reports, id).Some?))
  {
    var p0 := Progress(s, []);
    var p1 := Do(p0, id, SetStatus(PROCESSING, Some(CLONING), None), now);
    DoMid(s, p0, id, SetStatus(PROCESSING, Some(CLONING), None), now);
    match st.analysis
    case Failure(e) => AbortEnds(s, p1, id, e, None, false, st.cloneRemovable, st.collectionDeletable, now);
    case Success(a) =>
      var p2 := Do(p1, id, AddClone, now);
      DoMid(s, p1, id, AddClone, now);
      var p3 := Do(p2, id, SetStatus(PROCESSING, Some(ParsingMessage(a.fileCount)), None), now);
      DoMid(s, p2, id, SetStatus(PROCESSING, Some(ParsingMessage(a.fileCount)), None), now);
      if a.fileCount == 0 {
        NoFilesEnds(s, p3, id, now);
      } else {
        DoMid(s, p3, id, SetStatus(PROCESSING, Some(EMBEDDING), None), now);
        EmbedEnds(s, Do(p3, id, SetStatus(PROCESSING, Some(EMBEDDING), None), now), id, st, now);
      }
  }

  /** An empty repository fails the run, keeping the clone. */
  lemma NoFilesEnds(s: State, p: Progress, id: nat, now: int)
    requires Mid(s, id, p.state) && p.state.reports == s.reports
    requires id in p.state.clones && p.state.collections == s.collections
    ensures Ends(s, id, Do(Do(p, id, SetStatus(FAILED, None, Some(NO_FILES)), now), id, Unlock, now).state, NoFiles)
  {
    var p4 := Do(p, id, SetStatus(FAILED, None, Some(NO_FILES)), now);
    DoMid(s, p, id, SetStatus(FAILED, None, Some(NO_FILES)), now);
    DoMid(s, p4, id, Unlock, now);
  }

  // ---------------------------------------------------------------- the task runner

  /**
   * The background task runner takes the oldest queued run after the
   * response has gone out and runs it against the state as it then is.
   */
  function Background(s: State, st: Stages, now: int): (t: State)
    requires |s.queued| > 0
    ensures !t.locked
  {
    RunJob(s.(queued := s.queued[1..]), s.queued[0], st, now).state
  }

  // ---------------------------------------------------------------- the queries

  /** `JobStatus`: the job's id and its row. */
  datatype JobStatus = JobStatus(jobId: nat, job: AnalysisJob)

  /** `HealthReportResponse`: the job's id and its validated report (the row's time is not modelled). */
  datatype ReportResponse = ReportResponse(jobId: nat, report: HealthReportData)

  /** The 404 detail for an unknown job. */
  function NotFound(id: nat): string {
    "Job " + NatToString(id) + " not found"
  }

  /** `get_job_status`: the row of a known job, 404 otherwise. */
  function GetJobStatus(s: State, id: nat): (r: Result<JobStatus, HttpError>)
    ensures r.Success? <==> id in s.jobs
    ensures r.Success? ==> r.value == JobStatus(id, s.jobs[id])
    ensures r.Failure? ==> r.error == HttpError(404, NotFound(id))
  {
    if id in s.jobs then Success(JobStatus(id, s.jobs[id])) else Failure(HttpError(404, NotFound(id)))
  }

  /** The 400 detail for a job that has not completed. */
  function NotCompleted(id: nat, status: string): string {
    "Job " + NatToString(id) + " is not completed yet. Current status: " + status
  }

  /** The 404 detail for a completed job without a report row. */
  function NoReport(id: nat): string {
    "Report not found for job " + NatToString(id)
  }

  /** The response to an exception the route does not catch. */
  const INTERNAL_ERROR: HttpError := HttpError(500, "Internal Server Error")

  /**
   * `get_health_report`: 404 for an unknown job, then 400 for one not
   * completed, then 404 when the completed job has no report row; a stored
   * report that does not validate raises, which the framework answers
   * with 500.
   */
  function GetHealthReport(s: State, id: nat): (r: Result<ReportResponse, HttpError>)
    ensures id !in s.jobs ==> r == Failure(HttpError(404, NotFound(id)))
    ensures id in s.jobs && s.jobs[id].status != COMPLETED ==> r == Failure(HttpError(400, NotCompleted(id, s.jobs[id].status)))
    ensures id in s.jobs && s.jobs[id].status == COMPLETED && FindReport(s.reports, id).None? ==> r == Failure(HttpError(404, NoReport(id)))
    ensures r.Success? <==> id in s.jobs && s.jobs[id].status == COMPLETED && FindReport(s.reports, id).Some?
                            && ReportFromJson(FindReport(s.reports, id).value).Success?
    ensures r.Success? ==> r.value == ReportResponse(id, ReportFromJson(FindReport(s.reports, id).value).value)
    ensures r.Failure? && r.error.code == 500 ==> r.error == INTERNAL_ERROR
  {
    if id !in s.jobs then Failure(HttpError(404, NotFound(id)))
    else if s.jobs[id].status != COMPLETED then Failure(HttpError(400, NotCompleted(id, s.jobs[id].status)))
    else
      match FindReport(s.reports, id)
      case None => Failure(HttpError(404, NoReport(id)))
      case Some(j) =>
        match ReportFromJson(j)
        case Failure(_) => Failure(INTERNAL_ERROR)
        case Success(report) => Success(ReportResponse(id, report))
  }

  // ---------------------------------------------------------------- the service invariant

  /** The state at start-up: unlocked, empty tables, ids from 1. */
  const INITIAL: State := State(false, map[], [], 1, [], {}, {})

  /** Every stored report is one a run dumped. */
  predicate Dumped(rows: seq<ReportRow>) {
    forall i | 0 <= i < |rows| :: ReportFromJson(rows[i].reportJson).Success?
                                 && ReportToJson(ReportFromJson(rows[i].reportJson).value) == rows[i].reportJson
  }

  /**
   * The invariant the routes keep: ids below the counter; the lock is held
   * exactly while one run is queued, and that job is pending without a
   * report; one report per job, of a known job, as dumped; and a job is
   * completed exactly when it has a report.
   */
  predicate Valid(s: State) {
    && (forall k | k in s.jobs :: k < s.nextId)
    && |s.queued| <= 1 && (s.locked <==> |s.queued| == 1)
    && (|s.queued| == 1 ==> s.queued[0] in s.jobs && s.jobs[s.queued[0]].status == PENDING)
    && OneReportPerJob(s.reports)
    && (forall i | 0 <= i < |s.reports| :: s.reports[i].jobId in s.jobs)
    && Dumped(s.reports)
    && (forall k | k in s.jobs :: s.jobs[k].status == COMPLETED <==> FindReport(s.reports, k).Some?)
  }

  /** The service starts in a valid state. */
  lemma InitialValid()
    ensures Valid(INITIAL)
  {
  }

  /** A submission keeps the invariant; an accepted one queues the new pending job. */
  lemma SubmitValid(s: State, url: string, now: int)
    requires Valid(s)
    ensures Valid(Submit(s, url, now).0)
  {
    var (t, r) := Submit(s, url, now);
    if r.Success? {
      var id := s.nextId;
      assert id !in s.jobs;
      forall k | k in t.jobs
        ensures t.jobs[k].status == COMPLETED <==> FindReport(t.reports, k).Some?
      {
        if k == id {
          assert forall i | 0 <= i < |s.reports| :: s.reports[i].jobId != id;
        }
      }
    }
  }

  /** A finished run keeps the reports of the other jobs where they were. */
  lemma OthersFound(s: State, t: State, id: nat, row: ReportRow)
    requires Valid(s) && row.jobId == id && FindReport(s.reports, id).None?
    requires t.reports == s.reports + [row]
    ensures OneReportPerJob(t.reports)
    ensures forall k | k != id :: FindReport(t.reports, k) == FindReport(s.reports, k)
    ensures FindReport(t.reports, id) == Some(row.reportJson)
  {
    AddReportKeepsOne(s.reports, row, id);
    forall k | k != id
      ensures FindReport(t.reports, k) == FindReport(s.reports, k)
    {
      FindAppended(s.reports, row, k);
    }
  }

  /** Running the queued job keeps the invariant, whatever its stages did. */
  lemma BackgroundValid(s: State, st: Stages, now: int)
    requires Valid(s) && |s.queued| > 0
    ensures Valid(Background(s, st, now))
  {
    var id := s.queued[0];
    assert FindReport(s.reports, id).None?;
    RunEnds(s.(queued := s.queued[1..]), id, st, now);
    EndsValid(s, Background(s, st, now), EndingOf(st, false));
  }

  /** Whatever way the queued run ends, the invariant holds afterwards. */
  lemma EndsValid(s: State, t: State, ending: Ending)
    requires Valid(s) && |s.queued| == 1
    requires Ends(s.(queued := []), s.queued[0], t, ending)
    ensures Valid(t)
  {
    if ending.Completed? {
      CompletedValid(s, t, ending.report, ending.name, ending.deletable);
    } else {
      var id := s.queued[0];
      assert FindReport(s.reports, id).None?;
    }
  }

  /** A completed run adds the one report of its job, as dumped. */
  lemma CompletedValid(s: State, t: State, r: HealthReportData, name: string, deletable: bool)
    requires Valid(s) && |s.queued| == 1
    requires Ends(s.(queued := []), s.queued[0], t, Completed(r, name, deletable))
    ensures Valid(t)
  {
    ReportAddedValid(s, t, s.queued[0], r);
  }

  /** The invariant after the queued job completes with report `r` and nothing else changes. */
  lemma ReportAddedValid(s: State, t: State, id: nat, r: HealthReportData)
    requires Valid(s) && s.queued == [id]
    requires t.queued == [] && !t.locked && t.nextId == s.nextId && t.jobs.Keys == s.jobs.Keys
    requires forall k | k in s.jobs && k != id :: t.jobs[k] == s.jobs[k]
    requires t.jobs[id].status == COMPLETED
    requires t.reports == s.reports + [ReportRow(id, ReportToJson(r))]
    ensures Valid(t)
  {
    var row := ReportRow(id, ReportToJson(r));
    assert FindReport(s.reports, id).None?;
    OthersFound(s, t, id, row);
    DumpedAppend(s.reports, row, r);
    KnownAppend(s.reports, row, s.jobs.Keys);
    StatusFollowsReports(s, t, id);
  }

  /** Appending a row of a known job keeps every row's job known. */
  lemma KnownAppend(rows: seq<ReportRow>, row: ReportRow, ids: set<nat>)
    requires forall i | 0 <= i < |rows| :: rows[i].jobId in ids
    requires row.jobId in ids
    ensures forall i | 0 <= i < |rows + [row]| :: (rows + [row])[i].jobId in ids
  {
    assert forall i | 0 <= i < |rows + [row]| :: (rows + [row])[i] == if i < |rows| then rows[i] else row;
  }

  /** Completing job `id` with its report found keeps "completed exactly when reported". */
  lemma StatusFollowsReports(s: State, t: State, id: nat)
    requires forall k | k in s.jobs :: s.jobs[k].status == COMPLETED <==> FindReport(s.reports, k).Some?
    requires t.jobs.Keys == s.jobs.Keys && id in s.jobs
    requires forall k | k in s.jobs && k != id :: t.jobs[k] == s.jobs[k]
    requires t.jobs[id].status == COMPLETED && FindReport(t.reports, id).Some?
    requires forall k | k != id :: FindReport(t.reports, k) == FindReport(s.reports, k)
    ensures forall k | k in t.jobs :: t.jobs[k].status == COMPLETED <==> FindReport(t.reports, k).Some?
  {
    forall k | k in t.jobs
      ensures t.jobs[k].status == COMPLETED <==> FindReport(t.reports, k).Some?
    {
      if k != id {
        assert t.jobs[k] == s.jobs[k];
      }
    }
  }

  /** Appending the dump of a report keeps every stored report a dump. */
  lemma DumpedAppend(rows: seq<ReportRow>, row: ReportRow, r: HealthReportData)
    requires Dumped(rows) && row.reportJson == ReportToJson(r)
    ensures Dumped(rows + [row])
  {
    ReportRoundTrip(r);
    assert forall i | 0 <= i < |rows + [row]| :: (rows + [row])[i] == if i < |rows| then rows[i] else row;
  }

  /** While a run is queued every submission is refused as busy. */
  lemma QueuedMeansBusy(s: State, url: string, now: int)
    requires Valid(s) && |s.queued| > 0
    ensures Submit(s, url, now) == (s, Failure(HttpError(503, BUSY)))
  {
  }

  /**
   * In a valid state the report query never reaches its second 404 or a
   * 500: a completed job's report is served, any other job gets 400.
   */
  lemma ValidReportServed(s: State, id: nat)
    requires Valid(s) && id in s.jobs
    ensures s.jobs[id].status == COMPLETED <==> GetHealthReport(s, id).Success?
    ensures GetHealthReport(s, id).Failure? ==> GetHealthReport(s, id).error.code == 400
  {
    if s.jobs[id].status == COMPLETED {
      var j := FindReport(s.reports, id).value;
      var i :| 0 <= i < |s.reports| && s.reports[i] == ReportRow(id, j);
      assert ReportFromJson(s.reports[i].reportJson).Success?;
    }
  }

  /**
   * A run whose stages all succeed on a non-empty repository completes its
   * job, and the report query then returns exactly the generated report.
   */
  lemma RunThenReport(s: State, st: Stages, now: int)
    requires Valid(s) && |s.queued| > 0
    requires st.analysis.Success? && st.analysis.value.fileCount > 0
    requires st.embedding.Success? && st.report.Success?
    ensures GetJobStatus(Background(s, st, now), s.queued[0]).Success?
    ensures GetJobStatus(Background(s, st, now), s.queued[0]).value.job.status == COMPLETED
    ensures GetHealthReport(Background(s, st, now), s.queued[0]) == Success(ReportResponse(s.queued[0], st.report.value))
  {
    var id := s.queued[0];
    var s0 := s.(queued := s.queued[1..]);
    var t := Background(s, st, now);
    RunEnds(s0, id, st, now);
    var row := ReportRow(id, ReportToJson(st.report.value));
    OthersFound(s, t, id, row);
    ReportRoundTrip(st.report.value);
  }

  /**
   * A run ends completed exactly when every stage succeeded on a non-empty
   * repository; otherwise the job is failed and has no report.
   */
  lemma CompletedIffStagesSucceed(s: State, st: Stages, now: int)
    requires Valid(s) && |s.queued| > 0
    ensures var t := Background(s, st, now);
      && s.queued[0] in t.jobs
      && (t.jobs[s.queued[0]].status == COMPLETED <==>
            st.analysis.Success? && st.analysis.value.fileCount > 0 && st.embedding.Success? && st.report.Success?)
      && (t.jobs[s.queued[0]].status != COMPLETED ==>
            t.jobs[s.queued[0]].status == FAILED && FindReport(t.reports, s.queued[0]).None?)
  {
    var id := s.queued[0];
    var s0 := s.(queued := s.queued[1..]);
    assert FindReport(s0.reports, id).None?;
    RunEnds(s0, id, st, now);
    EndsStatus(s0, id, Background(s, st, now), st);
  }

  /** The job's final status, read off the way its run ended. */
  lemma EndsStatus(s: State, id: nat, t: State, st: Stages)
    requires FindReport(s.reports, id).None? && Ends(s, id, t, EndingOf(st, false))
    ensures id in t.jobs
    ensures t.jobs[id].status == COMPLETED <==>
      st.analysis.Success? && st.analysis.value.fileCount > 0 && st.embedding.Success? && st.report.Success?
    ensures t.jobs[id].status != COMPLETED ==> t.jobs[id].status == FAILED && FindReport(t.reports, id).None?
  {
  }

  /** Some stage raised, so the run went through the `except` branch. */
  predicate Raised(st: Stages) {
    || st.analysis.Failure?
    || (st.analysis.value.fileCount > 0 && (st.embedding.Failure? || st.report.Failure?))
  }

  /**
   * The job's clone is on disk after its run exactly when the run cloned
   * (or a clone was there already) and it was not removed: only the
   * `except` branch removes it, and only when the removal succeeds.
   */
  lemma CloneAfterRun(s: State, st: Stages, now: int)
    requires Valid(s) && |s.queued| > 0
    ensures s.queued[0] in Background(s, st, now).clones <==>
      (st.analysis.Success? || s.queued[0] in s.clones) && !(Raised(st) && st.cloneRemovable)
  {
    var id := s.queued[0];
    var s0 := s.(queued := s.queued[1..]);
    assert FindReport(s0.reports, id).None?;
    RunEnds(s0, id, st, now);
    EndsClone(s0, id, Background(s, st, now), st);
  }

  /** The clone, read off the way the run ended. */
  lemma EndsClone(s: State, id: nat, t: State, st: Stages)
    requires Ends(s, id, t, EndingOf(st, false))
    ensures id in t.clones <==> (st.analysis.Success? || id in s.clones) && !(Raised(st) && st.cloneRemovable)
  {
  }
}

=== FILE: schemas.dfy ===
/**
 * The health-report records and their validation.  A record is built from a
 * decoded JSON object the way the pydantic models build it: required fields
 * must be present with the right type, optional fields may be absent or
 * null, unknown fields are ignored, and the quality score must lie in
 * [0, 100].  Timestamps are abstract integers; the report's JSON form is the
 * one `model_dump_json` writes and `model_validate_json` reads back.
 */
module Schemas {
  import opened Wrappers

  /** `code_quality_score`: a float constrained to [0, 100], both ends included. */
  type Score = r: real | 0.0 <= r <= 100.0

  /** A decoded JSON value; an object keeps its fields in document order. */
  datatype Json =
    | JNull
    | JBool(b: bool)
    | JNum(n: real)
    | JStr(s: string)
    | JArr(elems: seq<Json>)
    | JObj(fields: seq<(string, Json)>)

  /** Why a record could not be built. */
  datatype ValidationError =
    | Missing(field: string)
    | WrongType(field: string)
    | OutOfRange(field: string)
    | NotAnObject

  /** An entry of `vulnerabilities`. */
  datatype VulnerabilityItem = VulnerabilityItem(
    severity: string,
    description: string,
    affectedComponent: Option<string>,
    recommendation: Option<string>)

  /** An entry of `tech_debt_items`. */
  datatype TechDebtItem = TechDebtItem(
    category: string,
    description: string,
    filePath: Option<string>,
    priority: Option<string>)

  /** An entry of `modernization_suggestions` (`type` in the JSON). */
  datatype ModernizationSuggestion = ModernizationSuggestion(
    kind: string,
    description: string,
    rationale: Option<string>,
    effortEstimate: Option<string>)

  /** A `Dict[str, int]` of file counts per language, in insertion order. */
  type LanguageCounts = seq<(string, int)>

  /** A `Dict[str, List[str]]` of packages per ecosystem, in insertion order. */
  type Dependencies = seq<(string, seq<string>)>

  /** `HealthReportData`. */
  datatype HealthReportData = HealthReportData(
    codeQualityScore: Score,
    vulnerabilities: seq<VulnerabilityItem>,
    techDebtItems: seq<TechDebtItem>,
    modernizationSuggestions: seq<ModernizationSuggestion>,
    overallSummary: string,
    languagesDetected: Option<LanguageCounts>,
    dependenciesFound: Option<Dependencies>,
    totalFilesAnalyzed: Option<int>,
    analysisTimestamp: Option<int>)

  /** The report with only its required fields given: every list and every metadata field takes its default. */
  function NewReport(score: Score, summary: string): (r: HealthReportData)
    ensures r.vulnerabilities == [] && r.techDebtItems == [] && r.modernizationSuggestions == []
    ensures r.languagesDetected.None? && r.dependenciesFound.None?
    ensures r.totalFilesAnalyzed.None? && r.analysisTimestamp.None?
    ensures r.codeQualityScore == score && r.overallSummary == summary
  {
    HealthReportData(score, [], [], [], summary, None, None, None, None)
  }

  // ---------------------------------------------------------------- fields

  /** The value of the last field named `name` (duplicate keys: the last one wins). */
  function Get(fields: seq<(string, Json)>, name: string): (r: Option<Json>)
    ensures r.Some? ==> (name, r.value) in fields
    ensures r.None? ==> forall i | 0 <= i < |fields| :: fields[i].0 != name
    decreases |fields|
  {
    if |fields| == 0 then None
    else if fields[|fields| - 1].0 == name then Some(fields[|fields| - 1].1)
    else Get(fields[..|fields| - 1], name)
  }

  /** A field whose name occurs only once is found with its value. */
  lemma {:induction false} GetUnique(fields: seq<(string, Json)>, k: nat)
    requires k < |fields|
    requires forall i | 0 <= i < |fields| && i != k :: fields[i].0 != fields[k].0
    ensures Get(fields, fields[k].0) == Some(fields[k].1)
    decreases |fields|
  {
    if k < |fields| - 1 {
      GetUnique(fields[..|fields| - 1], k);
    }
  }

  /** A required `str` field. */
  function StrField(fields: seq<(string, Json)>, name: string): (r: Result<string, ValidationError>)
    ensures r.Success? <==> Get(fields, name).Some? && Get(fields, name).value.JStr?
    ensures r.Success? ==> r.value == Get(fields, name).value.s
    ensures Get(fields, name).None? ==> r == Failure(Missing(name))
  {
    match Get(fields, name)
    case None => Failure(Missing(name))
    case Some(JStr(s)) => Success(s)
    case Some(_) => Failure(WrongType(name))
  }

  /** An `Optional[str] = None` field: absent and null both give `None`. */
  function OptStrField(fields: seq<(string, Json)>, name: string): (r: Result<Option<string>, ValidationError>)
    ensures Get(fields, name).None? ==> r == Success(None)
    ensures r.Success? <==> Get(fields, name).None? || Get(fields, name).value.JNull? || Get(fields, name).value.JStr?
    ensures r.Success? && r.value.Some? ==> Get(fields, name) == Some(JStr(r.value.value))
  {
    match Get(fields, name)
    case None => Success(None)
    case Some(JNull) => Success(None)
    case Some(JStr(s)) => Success(Some(s))
    case Some(_) => Failure(WrongType(name))
  }

  /** The JSON of an optional string, as `model_dump_json` writes it. */
  function OptStrJson(o: Option<string>): Json {
    match o
    case None => JNull
    case Some(s) => JStr(s)
  }

  /** `x` is a whole number. */
  predicate IsIntegral(x: real) {
    x == x.Floor as real
  }

  /** An `Optional[int] = None` field: a JSON number with no fractional part. */
  function OptIntField(fields: seq<(string, Json)>, name: string): (r: Result<Option<int>, ValidationError>)
    ensures Get(fields, name).None? ==> r == Success(None)
    ensures r.Success? && r.value.Some? ==> Get(fields, name) == Some(JNum(r.value.value as real))
  {
    match Get(fields, name)
    case None => Success(None)
    case Some(JNull) => Success(None)
    case Some(JNum(x)) => if IsIntegral(x) then Success(Some(x.Floor)) else Failure(WrongType(name))
    case Some(_) => Failure(WrongType(name))
  }

  /** The JSON of an optional integer. */
  function OptIntJson(o: Option<int>): Json {
    match o
    case None => JNull
    case Some(n) => JNum(n as real)
  }

  /** The required score field: a number, then the bound check. */
  function ScoreField(fields: seq<(string, Json)>): (r: Result<Score, ValidationError>)
    ensures r.Success? <==> (Get(fields, "code_quality_score").Some? && Get(fields, "code_quality_score").value.JNum?
                             && 0.0 <= Get(fields, "code_quality_score").value.n <= 100.0)
    ensures r.Success? ==> Get(fields, "code_quality_score") == Some(JNum(r.value))
  {
    match Get(fields, "code_quality_score")
    case None => Failure(Missing("code_quality_score"))
    case Some(JNum(x)) => if 0.0 <= x <= 100.0 then Success(x) else Failure(OutOfRange("code_quality_score"))
    case Some(_) => Failure(WrongType("code_quality_score"))
  }

  // ---------------------------------------------------------------- items

  /** The names of a record with two required and two optional string fields. */
  datatype Shape = Shape(first: string, second: string, third: string, fourth: string)

  const VULNERABILITY_SHAPE: Shape := Shape("severity", "description", "affected_component", "recommendation")
  const TECH_DEBT_SHAPE: Shape := Shape("category", "description", "file_path", "priority")
  const MODERNIZATION_SHAPE: Shape := Shape("type", "description", "rationale", "effort_estimate")

  /** The four field values of such a record. */
  datatype Quad = Quad(first: string, second: string, third: Option<string>, fourth: Option<string>)

  /** Reads a record of shape `sh`: both required fields, then both optional ones. */
  function QuadFrom(fields: seq<(string, Json)>, sh: Shape): (r: Result<Quad, ValidationError>)
    ensures Get(fields, sh.first).None? || Get(fields, sh.second).None? ==> r.Failure?
    ensures r.Success? ==> (Get(fields, sh.first) == Some(JStr(r.value.first))
                            && Get(fields, sh.second) == Some(JStr(r.value.second)))
    ensures r.Success? && Get(fields, sh.third).None? ==> r.value.third.None?
    ensures r.Success? && Get(fields, sh.fourth).None? ==> r.value.fourth.None?
    ensures (StrField(fields, sh.first).Success? && StrField(fields, sh.second).Success?
             && OptStrField(fields, sh.third).Success? && OptStrField(fields, sh.fourth).Success?) ==> r.Success?
  {
    var a :- StrField(fields, sh.first);
    var b :- StrField(fields, sh.second);
    var c :- OptStrField(fields, sh.third);
    var d :- OptStrField(fields, sh.fourth);
    Success(Quad(a, b, c, d))
  }

  /** The JSON object `model_dump_json` writes for a record of shape `sh`. */
  function QuadJson(q: Quad, sh: Shape): seq<(string, Json)> {
    [(sh.first, JStr(q.first)), (sh.second, JStr(q.second)),
     (sh.third, OptStrJson(q.third)), (sh.fourth, OptStrJson(q.fourth))]
  }

  /** The four names of a shape are distinct. */
  predicate DistinctNames(sh: Shape) {
    sh.first != sh.second && sh.first != sh.third && sh.first != sh.fourth
    && sh.second != sh.third && sh.second != sh.fourth && sh.third != sh.fourth
  }

  /** Dumping a record and reading it back gives the record. */
  lemma QuadRoundTrip(q: Quad, sh: Shape)
    requires DistinctNames(sh)
    ensures QuadFrom(QuadJson(q, sh), sh) == Success(q)
  {
    var f := QuadJson(q, sh);
    GetUnique(f, 0);
    GetUnique(f, 1);
    GetUnique(f, 2);
    GetUnique(f, 3);
  }

  function VulnerabilityOf(q: Quad): VulnerabilityItem {
    VulnerabilityItem(q.first, q.second, q.third, q.fourth)
  }

  function TechDebtOf(q: Quad): TechDebtItem {
    TechDebtItem(q.first, q.second, q.third, q.fourth)
  }

  function ModernizationOf(q: Quad): ModernizationSuggestion {
    ModernizationSuggestion(q.first, q.second, q.third, q.fourth)
  }

  /** `VulnerabilityItem(**fields)`. */
  function VulnerabilityFrom(fields: seq<(string, Json)>): (r: Result<VulnerabilityItem, ValidationError>)
    ensures Get(fields, "severity").None? || Get(fields, "description").None? ==> r.Failure?
    ensures r.Success? ==> (Get(fields, "severity") == Some(JStr(r.value.severity))
                            && Get(fields, "description") == Some(JStr(r.value.description)))
    ensures r.Success? && Get(fields, "affected_component").None? ==> r.value.affectedComponent.None?
    ensures r.Success? && Get(fields, "recommendation").None? ==> r.value.recommendation.None?
  {
    var q :- QuadFrom(fields, VULNERABILITY_SHAPE);
    Success(VulnerabilityOf(q))
  }

  /** `TechDebtItem(**fields)`. */
  function TechDebtFrom(fields: seq<(string, Json)>): (r: Result<TechDebtItem, ValidationError>)
    ensures Get(fields, "category").None? || Get(fields, "description").None? ==> r.Failure?
    ensures r.Success? ==> (Get(fields, "category") == Some(JStr(r.value.category))
                            && Get(fields, "description") == Some(JStr(r.value.description)))
    ensures r.Success? && Get(fields, "file_path").None? ==> r.value.filePath.None?
    ensures r.Success? && Get(fields, "priority").None? ==> r.value.priority.None?
  {
    var q :- QuadFrom(fields, TECH_DEBT_SHAPE);
    Success(TechDebtOf(q))
  }

  /** `ModernizationSuggestion(**fields)`. */
  function ModernizationFrom(fields: seq<(string, Json)>): (r: Result<ModernizationSuggestion, ValidationError>)
    ensures Get(fields, "type").None? || Get(fields, "description").None? ==> r.Failure?
    ensures r.Success? ==> (Get(fields, "type") == Some(JStr(r.value.kind))
                            && Get(fields, "description") == Some(JStr(r.value.description)))
    ensures r.Success? && Get(fields, "rationale").None? ==> r.value.rationale.None?
    ensures r.Success? && Get(fields, "effort_estimate").None? ==> r.value.effortEstimate.None?
  {
    var q :- QuadFrom(fields, MODERNIZATION_SHAPE);
    Success(ModernizationOf(q))
  }

  function VulnerabilityJson(v: VulnerabilityItem): Json {
    JObj(QuadJson(Quad(v.severity, v.description, v.affectedComponent, v.recommendation), VULNERABILITY_SHAPE))
  }

  function TechDebtJson(t: TechDebtItem): Json {
    JObj(QuadJson(Quad(t.category, t.description, t.filePath, t.priority), TECH_DEBT_SHAPE))
  }

  function ModernizationJson(m: ModernizationSuggestion): Json {
    JObj(QuadJson(Quad(m.kind, m.description, m.rationale, m.effortEstimate), MODERNIZATION_SHAPE))
  }

  /** Each item kind survives a dump and a re-validation unchanged. */
  lemma ItemRoundTrips(v: VulnerabilityItem, t: TechDebtItem, m: ModernizationSuggestion)
    ensures VulnerabilityFrom(VulnerabilityJson(v).fields) == Success(v)
    ensures TechDebtFrom(TechDebtJson(t).fields) == Success(t)
    ensures ModernizationFrom(ModernizationJson(m).fields) == Success(m)
  {
    QuadRoundTrip(Quad(v.severity, v.description, v.affectedComponent, v.recommendation), VULNERABILITY_SHAPE);
    QuadRoundTrip(Quad(t.category, t.description, t.filePath, t.priority), TECH_DEBT_SHAPE);
    QuadRoundTrip(Quad(m.kind, m.description, m.rationale, m.effortEstimate), MODERNIZATION_SHAPE);
  }

  // ---------------------------------------------------------------- lists

  function VulnerabilitiesOf(qs: seq<Quad>): seq<VulnerabilityItem> {
    seq(|qs|, i requires 0 <= i < |qs| => VulnerabilityOf(qs[i]))
  }

  function TechDebtsOf(qs: seq<Quad>): seq<TechDebtItem> {
    seq(|qs|, i requires 0 <= i < |qs| => TechDebtOf(qs[i]))
  }

  function ModernizationsOf(qs: seq<Quad>): seq<ModernizationSuggestion> {
    seq(|qs|, i requires 0 <= i < |qs| => ModernizationOf(qs[i]))
  }

  function VulnerabilitiesJson(v: seq<VulnerabilityItem>): seq<Json> {
    seq(|v|, i requires 0 <= i < |v| => VulnerabilityJson(v[i]))
  }

  function TechDebtsJson(t: seq<TechDebtItem>): seq<Json> {
    seq(|t|, i requires 0 <= i < |t| => TechDebtJson(t[i]))
  }

  function ModernizationsJson(m: seq<ModernizationSuggestion>): seq<Json> {
    seq(|m|, i requires 0 <= i < |m| => ModernizationJson(m[i]))
  }

  /** Validates a JSON array of records of shape `sh`, element by element. */
  function QuadList(elems: seq<Json>, sh: Shape): (r: Result<seq<Quad>, ValidationError>)
    ensures r.Success? ==> |r.value| == |elems|
    ensures r.Success? ==> forall i | 0 <= i < |elems| :: elems[i].JObj? && QuadFrom(elems[i].fields, sh) == Success(r.value[i])
    decreases |elems|
  {
    if |elems| == 0 then Success([])
    else
      match elems[0]
      case JObj(fs) =>
        var head :- QuadFrom(fs, sh);
        var tail :- QuadList(elems[1..], sh);
        Success([head] + tail)
      case _ => Failure(WrongType(sh.first))
  }

  /** An array that dumps records of shape `sh` reads back as those records. */
  lemma {:induction false} QuadListRoundTrip(qs: seq<Quad>, sh: Shape)
    requires DistinctNames(sh)
    ensures QuadList(QuadsJson(qs, sh), sh) == Success(qs)
    decreases |qs|
  {
    if |qs| > 0 {
      QuadRoundTrip(qs[0], sh);
      QuadListRoundTrip(qs[1..], sh);
      QuadListCons(QuadsJson(qs, sh), sh, qs[0], qs[1..]);
      assert qs == [qs[0]] + qs[1..];
    }
  }

  /** The JSON array of dumped records. */
  function QuadsJson(qs: seq<Quad>, sh: Shape): (js: seq<Json>)
    ensures |js| == |qs| && forall i | 0 <= i < |qs| :: js[i] == JObj(QuadJson(qs[i], sh))
    decreases |qs|
  {
    if |qs| == 0 then [] else [JObj(QuadJson(qs[0], sh))] + QuadsJson(qs[1..], sh)
  }

  /** A list whose first element reads as `q` and whose rest reads as `tail` reads as `[q] + tail`. */
  lemma QuadListCons(elems: seq<Json>, sh: Shape, q: Quad, tail: seq<Quad>)
    requires |elems| > 0 && elems[0].JObj? && QuadFrom(elems[0].fields, sh) == Success(q)
    requires QuadList(elems[1..], sh) == Success(tail)
    ensures QuadList(elems, sh) == Success([q] + tail)
  {
  }

  /** A list field with default `[]`: absent gives the empty list, otherwise it must be an array. */
  function ListField(fields: seq<(string, Json)>, name: string, sh: Shape): (r: Result<seq<Quad>, ValidationError>)
    ensures Get(fields, name).None? ==> r == Success([])
    ensures r.Success? && Get(fields, name).Some? ==> Get(fields, name).value.JArr? && |r.value| == |Get(fields, name).value.elems|
  {
    match Get(fields, name)
    case None => Success([])
    case Some(JArr(es)) => QuadList(es, sh)
    case Some(_) => Failure(WrongType(name))
  }

  // ---------------------------------------------------------------- metadata

  /** An `Optional[Dict[str, int]]` field. */
  function CountsField(fields: seq<(string, Json)>, name: string): (r: Result<Option<LanguageCounts>, ValidationError>)
    ensures Get(fields, name).None? ==> r == Success(None)
    ensures r.Success? && r.value.Some? ==> Get(fields, name) == Some(JObj(CountsJson(r.value.value)))
  {
    match Get(fields, name)
    case None => Success(None)
    case Some(JNull) => Success(None)
    case Some(JObj(fs)) =>
      var counts :- Counts(fs, name);
      Success(Some(counts))
    case Some(_) => Failure(WrongType(name))
  }

  /** The entries of a JSON object whose values are whole numbers. */
  function Counts(fs: seq<(string, Json)>, name: string): (r: Result<LanguageCounts, ValidationError>)
    ensures r.Success? ==> CountsJson(r.value) == fs
    decreases |fs|
  {
    if |fs| == 0 then Success([])
    else
      match fs[0].1
      case JNum(x) =>
        if IsIntegral(x) then
          var tail :- Counts(fs[1..], name);
          Success([(fs[0].0, x.Floor)] + tail)
        else Failure(WrongType(name))
      case _ => Failure(WrongType(name))
  }

  /** The JSON object of a language-count map. */
  function CountsJson(c: LanguageCounts): seq<(string, Json)> {
    seq(|c|, i requires 0 <= i < |c| => (c[i].0, JNum(c[i].1 as real)))
  }

  /** Reading back a dumped language-count map gives the map. */
  lemma {:induction false} CountsRoundTrip(c: LanguageCounts, name: string)
    ensures Counts(CountsJson(c), name) == Success(c)
    decreases |c|
  {
    if |c| > 0 {
      CountsRoundTrip(c[1..], name);
      assert CountsJson(c)[1..] == CountsJson(c[1..]);
      assert c == [(c[0].0, c[0].1)] + c[1..];
    }
  }

  /** The strings of a JSON array of strings. */
  function Strings(es: seq<Json>, name: string): (r: Result<seq<string>, ValidationError>)
    ensures r.Success? ==> StringsJson(r.value) == es
    decreases |es|
  {
    if |es| == 0 then Success([])
    else
      match es[0]
      case JStr(s) =>
        var tail :- Strings(es[1..], name);
        Success([s] + tail)
      case _ => Failure(WrongType(name))
  }

  function StringsJson(ss: seq<string>): seq<Json> {
    seq(|ss|, i requires 0 <= i < |ss| => JStr(ss[i]))
  }

  lemma {:induction false} StringsRoundTrip(ss: seq<string>, name: string)
    ensures Strings(StringsJson(ss), name) == Success(ss)
    decreases |ss|
  {
    if |ss| > 0 {
      StringsRoundTrip(ss[1..], name);
      assert StringsJson(ss)[1..] == StringsJson(ss[1..]);
      assert ss == [ss[0]] + ss[1..];
    }
  }

  /** The entries of a JSON object whose values are arrays of strings. */
  function DependencyEntries(fs: seq<(string, Json)>, name: string): (r: Result<Dependencies, ValidationError>)
    ensures r.Success? ==> |r.value| == |fs|
    ensures r.Success? ==> forall i | 0 <= i < |fs| :: r.value[i].0 == fs[i].0
    decreases |fs|
  {
    if |fs| == 0 then Success([])
    else
      match fs[0].1
      case JArr(es) =>
        var pkgs :- Strings(es, name);
        var tail :- DependencyEntries(fs[1..], name);
        Success([(fs[0].0, pkgs)] + tail)
      case _ => Failure(WrongType(name))
  }

  function DependenciesJson(d: Dependencies): seq<(string, Json)> {
    seq(|d|, i requires 0 <= i < |d| => (d[i].0, JArr(StringsJson(d[i].1))))
  }

  lemma {:induction false} DependenciesRoundTrip(d: Dependencies, name: string)
    ensures DependencyEntries(DependenciesJson(d), name) == Success(d)
    decreases |d|
  {
    if |d| > 0 {
      StringsRoundTrip(d[0].1, name);
      DependenciesRoundTrip(d[1..], name);
      assert DependenciesJson(d)[1..] == DependenciesJson(d[1..]);
      assert d == [(d[0].0, d[0].1)] + d[1..];
    }
  }

  /** An `Optional[Dict[str, List[str]]]` field. */
  function DependenciesField(fields: seq<(string, Json)>, name: string): (r: Result<Option<Dependencies>, ValidationError>)
    ensures Get(fields, name).None? ==> r == Success(None)
    ensures r.Success? && r.value.Some? ==> Get(fields, name).Some? && Get(fields, name).value.JObj?
  {
    match Get(fields, name)
    case None => Success(None)
    case Some(JNull) => Success(None)
    case Some(JObj(fs)) =>
      var deps :- DependencyEntries(fs, name);
      Success(Some(deps))
    case Some(_) => Failure(WrongType(name))
  }

  // ---------------------------------------------------------------- report

  /** The required part of a report and its three item lists. */
  datatype ReportBody = ReportBody(
    score: Score,
    vulnerabilities: seq<VulnerabilityItem>,
    techDebtItems: seq<TechDebtItem>,
    modernizationSuggestions: seq<ModernizationSuggestion>,
    summary: string)

  /** The optional metadata of a report. */
  datatype ReportMeta = ReportMeta(
    languages: Option<LanguageCounts>,
    dependencies: Option<Dependencies>,
    totalFiles: Option<int>,
    timestamp: Option<int>)

  /** Reads the score, the item lists and the summary. */
  function BodyFrom(f: seq<(string, Json)>): (r: Result<ReportBody, ValidationError>)
    ensures Get(f, "code_quality_score").None? || Get(f, "overall_summary").None? ==> r.Failure?
    ensures r.Success? ==> Get(f, "code_quality_score") == Some(JNum(r.value.score))
    ensures r.Success? ==> Get(f, "overall_summary") == Some(JStr(r.value.summary))
    ensures r.Success? && Get(f, "vulnerabilities").None? ==> r.value.vulnerabilities == []
    ensures r.Success? && Get(f, "tech_debt_items").None? ==> r.value.techDebtItems == []
    ensures r.Success? && Get(f, "modernization_suggestions").None? ==> r.value.modernizationSuggestions == []
  {
    var score :- ScoreField(f);
    var vs :- ListField(f, "vulnerabilities", VULNERABILITY_SHAPE);
    var ts :- ListField(f, "tech_debt_items", TECH_DEBT_SHAPE);
    var ms :- ListField(f, "modernization_suggestions", MODERNIZATION_SHAPE);
    var summary :- StrField(f, "overall_summary");
    Success(ReportBody(score, VulnerabilitiesOf(vs), TechDebtsOf(ts), ModernizationsOf(ms), summary))
  }

  /** Reads the optional metadata; absent fields are `None`. */
  function MetaFrom(f: seq<(string, Json)>): (r: Result<ReportMeta, ValidationError>)
    ensures Get(f, "languages_detected").None? && Get(f, "dependencies_found").None?
            && Get(f, "total_files_analyzed").None? && Get(f, "analysis_timestamp").None?
            ==> r == Success(ReportMeta(None, None, None, None))
  {
    var langs :- CountsField(f, "languages_detected");
    var deps :- DependenciesField(f, "dependencies_found");
    var total :- OptIntField(f, "total_files_analyzed");
    var stamp :- OptIntField(f, "analysis_timestamp");
    Success(ReportMeta(langs, deps, total, stamp))
  }

  /** `HealthReportData.model_validate_json`: the report a JSON value describes, or why it does not. */
  function ReportFromJson(j: Json): (r: Result<HealthReportData, ValidationError>)
    ensures !j.JObj? ==> r == Failure(NotAnObject)
    ensures r.Success? <==> j.JObj? && BodyFrom(j.fields).Success? && MetaFrom(j.fields).Success?
  {
    if !j.JObj? then Failure(NotAnObject)
    else
      var body :- BodyFrom(j.fields);
      var meta :- MetaFrom(j.fields);
      Success(HealthReportData(
        body.score, body.vulnerabilities, body.techDebtItems, body.modernizationSuggestions, body.summary,
        meta.languages, meta.dependencies, meta.totalFiles, meta.timestamp))
  }

  /** The report's field names, in declaration order. */
  const REPORT_FIELDS: seq<string> := [
    "code_quality_score", "vulnerabilities", "tech_debt_items", "modernization_suggestions",
    "overall_summary", "languages_detected", "dependencies_found", "total_files_analyzed",
    "analysis_timestamp"
  ]

  /** No field name is repeated. */
  lemma ReportFieldsDistinct()
    ensures |REPORT_FIELDS| == 9
    ensures forall i, j | 0 <= i < j < 9 :: REPORT_FIELDS[i] != REPORT_FIELDS[j]
  {
  }

  /** The JSON of each report field, in declaration order. */
  function ReportValues(r: HealthReportData): (vs: seq<Json>)
    ensures |vs| == 9
  {
    [
      JNum(r.codeQualityScore),
      JArr(VulnerabilitiesJson(r.vulnerabilities)),
      JArr(TechDebtsJson(r.techDebtItems)),
      JArr(ModernizationsJson(r.modernizationSuggestions)),
      JStr(r.overallSummary),
      match r.languagesDetected case None => JNull case Some(c) => JObj(CountsJson(c)),
      match r.dependenciesFound case None => JNull case Some(d) => JObj(DependenciesJson(d)),
      OptIntJson(r.totalFilesAnalyzed),
      OptIntJson(r.analysisTimestamp)
    ]
  }

  /** `model_dump_json`: the report as a JSON object, fields in declaration order. */
  function ReportToJson(r: HealthReportData): Json {
    var vs := ReportValues(r);
    JObj(seq(9, i requires 0 <= i < 9 => (REPORT_FIELDS[i], vs[i])))
  }

  /** Field `k` of a dumped report is found under its name. */
  lemma DumpedField(r: HealthReportData, k: nat)
    requires k < 9
    ensures Get(ReportToJson(r).fields, REPORT_FIELDS[k]) == Some(ReportValues(r)[k])
  {
    ReportFieldsDistinct();
    var f := ReportToJson(r).fields;
    assert forall i | 0 <= i < 9 :: f[i].0 == REPORT_FIELDS[i];
    GetUnique(f, k);
  }

  function VulnerabilityQuad(v: VulnerabilityItem): Quad {
    Quad(v.severity, v.description, v.affectedComponent, v.recommendation)
  }

  function TechDebtQuad(t: TechDebtItem): Quad {
    Quad(t.category, t.description, t.filePath, t.priority)
  }

  function ModernizationQuad(m: ModernizationSuggestion): Quad {
    Quad(m.kind, m.description, m.rationale, m.effortEstimate)
  }

  /** Dumped vulnerabilities validate back to the same list. */
  lemma VulnerabilitiesRoundTrip(v: seq<VulnerabilityItem>)
    ensures QuadList(VulnerabilitiesJson(v), VULNERABILITY_SHAPE).Success?
    ensures VulnerabilitiesOf(QuadList(VulnerabilitiesJson(v), VULNERABILITY_SHAPE).value) == v
  {
    var q := seq(|v|, i requires 0 <= i < |v| => VulnerabilityQuad(v[i]));
    QuadListRoundTrip(q, VULNERABILITY_SHAPE);
    assert VulnerabilitiesJson(v) == QuadsJson(q, VULNERABILITY_SHAPE);
  }

  /** Dumped tech-debt items validate back to the same list. */
  lemma TechDebtRoundTrip(t: seq<TechDebtItem>)
    ensures QuadList(TechDebtsJson(t), TECH_DEBT_SHAPE).Success?
    ensures TechDebtsOf(QuadList(TechDebtsJson(t), TECH_DEBT_SHAPE).value) == t
  {
    var q := seq(|t|, i requires 0 <= i < |t| => TechDebtQuad(t[i]));
    QuadListRoundTrip(q, TECH_DEBT_SHAPE);
    assert TechDebtsJson(t) == QuadsJson(q, TECH_DEBT_SHAPE);
  }

  /** Dumped modernization suggestions validate back to the same list. */
  lemma ModernizationRoundTrip(m: seq<ModernizationSuggestion>)
    ensures QuadList(ModernizationsJson(m), MODERNIZATION_SHAPE).Success?
    ensures ModernizationsOf(QuadList(ModernizationsJson(m), MODERNIZATION_SHAPE).value) == m
  {
    var q := seq(|m|, i requires 0 <= i < |m| => ModernizationQuad(m[i]));
    QuadListRoundTrip(q, MODERNIZATION_SHAPE);
    assert ModernizationsJson(m) == QuadsJson(q, MODERNIZATION_SHAPE);
  }

  /** `f` carries, under each field name, the JSON the report dumps for that field. */
  predicate HasBodyFields(f: seq<(string, Json)>, r: HealthReportData) {
    && Get(f, "code_quality_score") == Some(JNum(r.codeQualityScore))
    && Get(f, "vulnerabilities") == Some(JArr(VulnerabilitiesJson(r.vulnerabilities)))
    && Get(f, "tech_debt_items") == Some(JArr(TechDebtsJson(r.techDebtItems)))
    && Get(f, "modernization_suggestions") == Some(JArr(ModernizationsJson(r.modernizationSuggestions)))
    && Get(f, "overall_summary") == Some(JStr(r.overallSummary))
  }

  predicate HasMetaFields(f: seq<(string, Json)>, r: HealthReportData) {
    && Get(f, "languages_detected") == Some(match r.languagesDetected case None => JNull case Some(c) => JObj(CountsJson(c)))
    && Get(f, "dependencies_found") == Some(match r.dependenciesFound case None => JNull case Some(d) => JObj(DependenciesJson(d)))
    && Get(f, "total_files_analyzed") == Some(OptIntJson(r.totalFilesAnalyzed))
    && Get(f, "analysis_timestamp") == Some(OptIntJson(r.analysisTimestamp))
  }

  /** The first five fields of a dumped report are found under their names. */
  lemma DumpedBodyFields(r: HealthReportData)
    ensures HasBodyFields(ReportToJson(r).fields, r)
  {
    DumpedField(r, 0);
    DumpedField(r, 1);
    DumpedField(r, 2);
    DumpedField(r, 3);
    DumpedField(r, 4);
  }

  /** The four metadata fields of a dumped report are found under their names. */
  lemma DumpedMetaFields(r: HealthReportData)
    ensures HasMetaFields(ReportToJson(r).fields, r)
  {
    DumpedField(r, 5);
    DumpedField(r, 6);
    DumpedField(r, 7);
    DumpedField(r, 8);
  }

  /** The dumped body fields read back as the report's body. */
  lemma BodyRoundTrip(f: seq<(string, Json)>, r: HealthReportData)
    requires HasBodyFields(f, r)
    ensures BodyFrom(f) == Success(ReportBody(r.codeQualityScore, r.vulnerabilities, r.techDebtItems,
                                              r.modernizationSuggestions, r.overallSummary))
  {
    VulnerabilitiesRoundTrip(r.vulnerabilities);
    TechDebtRoundTrip(r.techDebtItems);
    ModernizationRoundTrip(r.modernizationSuggestions);
    var vs := ListField(f, "vulnerabilities", VULNERABILITY_SHAPE);
    var ts := ListField(f, "tech_debt_items", TECH_DEBT_SHAPE);
    var ms := ListField(f, "modernization_suggestions", MODERNIZATION_SHAPE);
    assert vs == QuadList(VulnerabilitiesJson(r.vulnerabilities), VULNERABILITY_SHAPE);
    assert ts == QuadList(TechDebtsJson(r.techDebtItems), TECH_DEBT_SHAPE);
    assert ms == QuadList(ModernizationsJson(r.modernizationSuggestions), MODERNIZATION_SHAPE);
    assert ScoreField(f) == Success(r.codeQualityScore);
    assert StrField(f, "overall_summary") == Success(r.overallSummary);
  }

  /** The dumped metadata fields read back as the report's metadata. */
  lemma MetaRoundTrip(f: seq<(string, Json)>, r: HealthReportData)
    requires HasMetaFields(f, r)
    ensures MetaFrom(f) == Success(ReportMeta(r.languagesDetected, r.dependenciesFound,
                                              r.totalFilesAnalyzed, r.analysisTimestamp))
  {
    CountsFieldBack(f, "languages_detected", r.languagesDetected);
    DependenciesFieldBack(f, "dependencies_found", r.dependenciesFound);
    assert OptIntField(f, "total_files_analyzed") == Success(r.totalFilesAnalyzed);
    assert OptIntField(f, "analysis_timestamp") == Success(r.analysisTimestamp);
  }

  /** A language map dumped under `name`, or `null`, reads back. */
  lemma CountsFieldBack(f: seq<(string, Json)>, name: string, c: Option<LanguageCounts>)
    requires Get(f, name) == Some(match c case None => JNull case Some(m) => JObj(CountsJson(m)))
    ensures CountsField(f, name) == Success(c)
  {
    if c.Some? {
      CountsRoundTrip(c.value, name);
    }
  }

  /** A dependency map dumped under `name`, or `null`, reads back. */
  lemma DependenciesFieldBack(f: seq<(string, Json)>, name: string, d: Option<Dependencies>)
    requires Get(f, name) == Some(match d case None => JNull case Some(m) => JObj(DependenciesJson(m)))
    ensures DependenciesField(f, name) == Success(d)
  {
    if d.Some? {
      DependenciesRoundTrip(d.value, name);
    }
  }

  /**
   * A stored report reads back unchanged: validating the JSON that
   * `model_dump_json` writes gives the report that was dumped.
   */
  lemma ReportRoundTrip(r: HealthReportData)
    ensures ReportFromJson(ReportToJson(r)) == Success(r)
  {
    var f := ReportToJson(r).fields;
    DumpedBodyFields(r);
    DumpedMetaFields(r);
    BodyRoundTrip(f, r);
    MetaRoundTrip(f, r);
  }
}

=== FILE: sorting.dfy ===
/**
 * Stable sorting by an integer key, the behaviour of Python's `sorted` and
 * `list.sort` (also with `reverse=True`, which keeps equal elements in their
 * original order: sort by the negated key).  A sort is represented by the
 * order in which it lists the original positions.
 */
module Sorting {

  /** Position `i` comes before position `j`: smaller key first, equal keys by position. */
  predicate Before(keys: seq<int>, i: nat, j: nat)
    requires i < |keys| && j < |keys|
  {
    keys[i] < keys[j] || (keys[i] == keys[j] && i < j)
  }

  /** `order` lists positions of `keys`, each strictly before the next. */
  predicate Sorted(keys: seq<int>, order: seq<nat>) {
    && (forall k | 0 <= k < |order| :: order[k] < |keys|)
    && (forall p, q | 0 <= p < q < |order| :: Before(keys, order[p], order[q]))
  }

  /** `order` is the stable ascending order of all positions of `keys`. */
  predicate IsStableOrder(keys: seq<int>, order: seq<nat>) {
    && |order| == |keys|
    && Sorted(keys, order)
    && (forall i | 0 <= i < |keys| :: i in order)
  }

  /** Inserts position `x` into a sorted order at its place. */
  function Insert(keys: seq<int>, order: seq<nat>, x: nat): (r: seq<nat>)
    requires x < |keys| && Sorted(keys, order) && x !in order
    ensures |r| == |order| + 1
    ensures forall y: nat :: y in r <==> y in order || y == x
    ensures Sorted(keys, r)
    decreases |order|
  {
    if |order| == 0 then [x]
    else if Before(keys, x, order[0]) then [x] + order
    else
      var tail := Insert(keys, order[1..], x);
      var r := [order[0]] + tail;
      assert Before(keys, order[0], x);
      forall p, q | 0 <= p < q < |r|
        ensures Before(keys, r[p], r[q])
      {
        if p == 0 {
          var y := r[q];
          assert y == tail[q - 1];
          if y != x {
            assert y in order[1..];
            var m :| 0 <= m < |order[1..]| && order[1..][m] == y;
            assert order[m + 1] == y;
          }
        } else {
          assert r[p] == tail[p - 1] && r[q] == tail[q - 1];
        }
      }
      r
  }

  /** Insertion sort of the positions `0 .. n-1`. */
  function SortPrefix(keys: seq<int>, n: nat): (r: seq<nat>)
    requires n <= |keys|
    ensures |r| == n
    ensures forall y: nat :: y in r <==> y < n
    ensures Sorted(keys, r)
  {
    if n == 0 then [] else Insert(keys, SortPrefix(keys, n - 1), n - 1)
  }

  /** The stable ascending order of the positions of `keys`. */
  function StableOrder(keys: seq<int>): (order: seq<nat>)
    ensures IsStableOrder(keys, order)
  {
    SortPrefix(keys, |keys|)
  }

  /** In a sorted order the head precedes every other listed position, and the tail lists exactly the others. */
  lemma HeadFirst(keys: seq<int>, o: seq<nat>, y: nat)
    requires Sorted(keys, o) && |o| > 0
    ensures y in o && y != o[0] ==> Before(keys, o[0], y)
    ensures y in o[1..] <==> y in o && y != o[0]
  {
    if y in o[1..] {
      var p :| 0 <= p < |o[1..]| && o[1..][p] == y;
      assert o[p + 1] == y;
    }
    if y in o && y != o[0] {
      var p :| 0 <= p < |o| && o[p] == y;
      assert o[1..][p - 1] == y;
    }
  }

  /**
   * Two strictly sorted orders listing the same positions are equal; hence
   * any stable sort of `keys` (Python's included) lists positions exactly as
   * `StableOrder` does.
   */
  lemma {:induction false} SortedUnique(keys: seq<int>, o1: seq<nat>, o2: seq<nat>)
    requires Sorted(keys, o1) && Sorted(keys, o2) && |o1| == |o2|
    requires forall y :: y in o1 <==> y in o2
    ensures o1 == o2
    decreases |o1|
  {
    if |o1| > 0 {
      var a, b := o1[0], o2[0];
      assert a in o1 && b in o2;
      HeadFirst(keys, o1, b);
      HeadFirst(keys, o2, a);
      assert a == b;
      forall y
        ensures y in o1[1..] <==> y in o2[1..]
      {
        HeadFirst(keys, o1, y);
        HeadFirst(keys, o2, y);
      }
      SortedUnique(keys, o1[1..], o2[1..]);
      assert o1 == [a] + o1[1..];
      assert o2 == [b] + o2[1..];
    }
  }

  /** Every stable order of `keys` is `StableOrder(keys)`. */
  lemma StableOrderUnique(keys: seq<int>, order: seq<nat>)
    requires IsStableOrder(keys, order)
    ensures order == StableOrder(keys)
  {
    var s := StableOrder(keys);
    forall y
      ensures y in order <==> y in s
    {
      if y in order {
        var k :| 0 <= k < |order| && order[k] == y;
      }
    }
    SortedUnique(keys, order, s);
  }

  /** The elements of `xs` listed in `order`. */
  function Permute<T>(xs: seq<T>, order: seq<nat>): (r: seq<T>)
    requires forall k | 0 <= k < |order| :: order[k] < |xs|
    ensures |r| == |order|
    ensures forall k | 0 <= k < |order| :: r[k] == xs[order[k]]
  {
    seq(|order|, k requires 0 <= k < |order| => xs[order[k]])
  }

  /** The sum of a sequence of integers. */
  function Sum(xs: seq<int>): int
    decreases |xs|
  {
    if |xs| == 0 then 0 else Sum(xs[..|xs| - 1]) + xs[|xs| - 1]
  }

  /** The sum of `xs` at the positions listed in `order`. */
  function SumAt(xs: seq<int>, order: seq<nat>): int
    requires forall k | 0 <= k < |order| :: order[k] < |xs|
    decreases |order|
  {
    if |order| == 0 then 0 else xs[order[0]] + SumAt(xs, order[1..])
  }

  /** Inserting a position adds its value to the sum. */
  lemma {:induction false} SumAtInsert(xs: seq<int>, keys: seq<int>, order: seq<nat>, x: nat)
    requires |xs| == |keys|
    requires x < |keys| && Sorted(keys, order) && x !in order
    ensures SumAt(xs, Insert(keys, order, x)) == SumAt(xs, order) + xs[x]
    decreases |order|
  {
    if |order| > 0 && !Before(keys, x, order[0]) {
      SumAtInsert(xs, keys, order[1..], x);
      assert Insert(keys, order, x)[1..] == Insert(keys, order[1..], x);
    }
  }

  /** Sorting does not change the sum: summing in stable order gives `Sum(xs[..n])`. */
  lemma {:induction false} SumAtSortPrefix(xs: seq<int>, keys: seq<int>, n: nat)
    requires |xs| == |keys| && n <= |keys|
    ensures SumAt(xs, SortPrefix(keys, n)) == Sum(xs[..n])
  {
    if n > 0 {
      SumAtSortPrefix(xs, keys, n - 1);
      SumAtInsert(xs, keys, SortPrefix(keys, n - 1), n - 1);
      assert xs[..n][..n - 1] == xs[..n - 1];
    }
  }

  /** Summing in stable order is summing. */
  lemma SumAtStableOrder(xs: seq<int>, keys: seq<int>)
    requires |xs| == |keys|
    ensures SumAt(xs, StableOrder(keys)) == Sum(xs)
  {
    SumAtSortPrefix(xs, keys, |keys|);
    assert xs[..|keys|] == xs;
  }

  /** The sum of a sequence, taken from the front. */
  lemma {:induction false} SumCons(x: int, xs: seq<int>)
    ensures Sum([x] + xs) == x + Sum(xs)
    decreases |xs|
  {
    if |xs| > 0 {
      var ys := [x] + xs;
      SumCons(x, xs[..|xs| - 1]);
      assert ys[..|ys| - 1] == [x] + xs[..|xs| - 1];
    }
  }

  /** Replacing one element changes the sum by the difference. */
  lemma {:induction false} SumUpdate(xs: seq<int>, i: nat, v: int)
    requires i < |xs|
    ensures Sum(xs[i := v]) == Sum(xs) - xs[i] + v
    decreases |xs|
  {
    var ys := xs[i := v];
    if i < |xs| - 1 {
      SumUpdate(xs[..|xs| - 1], i, v);
      assert ys[..|ys| - 1] == xs[..|xs| - 1][i := v];
    } else {
      assert ys[..|ys| - 1] == xs[..|xs| - 1];
    }
  }

  /** Summing the permuted sequence is summing at the listed positions. */
  lemma {:induction false} SumPermute(xs: seq<int>, order: seq<nat>)
    requires forall k | 0 <= k < |order| :: order[k] < |xs|
    ensures Sum(Permute(xs, order)) == SumAt(xs, order)
    decreases |order|
  {
    if |order| > 0 {
      SumPermute(xs, order[1..]);
      assert Permute(xs, order) == [xs[order[0]]] + Permute(xs, order[1..]);
      SumCons(xs[order[0]], Permute(xs, order[1..]));
    }
  }

  /** A stable sort by any key does not change the sum. */
  lemma SumStableOrder(xs: seq<int>, keys: seq<int>)
    requires |xs| == |keys|
    ensures Sum(Permute(xs, StableOrder(keys))) == Sum(xs)
  {
    SumPermute(xs, StableOrder(keys));
    SumAtStableOrder(xs, keys);
  }
}

=== FILE: text.dfy ===
/**
 * The string operations of Python's `str` that the service relies on, with
 * Python's semantics: whitespace as `str.isspace`, `strip`, `split(sep)`,
 * `split()`, `replace(pat, "")`, `startswith`, `in`, `count`, `str(int)`.
 * Case mapping and alphanumeric tests are ASCII-only.
 */
module Text {
  import opened Wrappers

  /** Python `str.isspace` for one character. */
  predicate IsSpace(c: char) {
    || c == ' '
    || ('\t' <= c <= '\r')
    || ('\U{1C}' <= c <= '\U{1F}')
    || c == '\U{85}' || c == '\U{A0}' || c == '\U{1680}'
    || ('\U{2000}' <= c <= '\U{200A}')
    || c == '\U{2028}' || c == '\U{2029}' || c == '\U{202F}' || c == '\U{205F}' || c == '\U{3000}'
  }

  /** True iff `s.strip()` is empty, i.e. the string is falsy after stripping. */
  predicate IsBlank(s: string) {
    forall i | 0 <= i < |s| :: IsSpace(s[i])
  }

  /** `s.lstrip()`: drops the leading whitespace. */
  function LStrip(s: string): (r: string)
    ensures |r| <= |s| && r == s[|s| - |r|..]
    ensures |r| > 0 ==> !IsSpace(r[0])
    ensures forall i | 0 <= i < |s| - |r| :: IsSpace(s[i])
    decreases |s|
  {
    if |s| > 0 && IsSpace(s[0]) then LStrip(s[1..]) else s
  }

  /** `s.rstrip()`: drops the trailing whitespace. */
  function RStrip(s: string): (r: string)
    ensures |r| <= |s| && r == s[..|r|]
    ensures |r| > 0 ==> !IsSpace(r[|r| - 1])
    ensures forall i | |r| <= i < |s| :: IsSpace(s[i])
    decreases |s|
  {
    if |s| > 0 && IsSpace(s[|s| - 1]) then RStrip(s[..|s| - 1]) else s
  }

  /** `s.strip()`: empty exactly for blank input, otherwise with no whitespace at either end. */
  function Strip(s: string): (r: string)
    ensures |r| <= |s|
    ensures |r| == 0 <==> IsBlank(s)
    ensures |r| > 0 ==> !IsSpace(r[0]) && !IsSpace(r[|r| - 1])
  {
    LStripEmptyIffBlank(s);
    RStripKeepsStart(LStrip(s));
    RStrip(LStrip(s))
  }

  /** Stripping a string that starts with a non-blank character keeps a prefix of it. */
  lemma StripKeepsPrefix(s: string)
    requires |s| > 0 ==> !IsSpace(s[0])
    ensures StartsWith(s, Strip(s))
  {
    assert LStrip(s) == s;
  }

  /** Nothing survives `lstrip` exactly when the string is blank. */
  lemma LStripEmptyIffBlank(s: string)
    ensures |LStrip(s)| == 0 <==> IsBlank(s)
  {
    var t := LStrip(s);
    if |t| > 0 {
      assert s[|s| - |t|] == t[0];
    }
  }

  /** `rstrip` keeps a non-whitespace first character. */
  lemma RStripKeepsStart(t: string)
    requires |t| > 0 ==> !IsSpace(t[0])
    ensures |RStrip(t)| == 0 <==> |t| == 0
    ensures |RStrip(t)| > 0 ==> RStrip(t)[0] == t[0]
  {
  }

  /** `s.rstrip(c)` for one character `c`. */
  function RStripChar(s: string, c: char): (r: string)
    ensures |r| <= |s| && r == s[..|r|]
    ensures |r| == 0 || r[|r| - 1] != c
    ensures forall i | |r| <= i < |s| :: s[i] == c
    decreases |s|
  {
    if |s| > 0 && s[|s| - 1] == c then RStripChar(s[..|s| - 1], c) else s
  }

  /** ASCII lower-casing of one character. */
  function LowerChar(c: char): char {
    if 'A' <= c <= 'Z' then (c as int + 32) as char else c
  }

  /** `s.lower()` on ASCII letters. */
  function Lower(s: string): (r: string)
    ensures |r| == |s|
    ensures forall i | 0 <= i < |s| :: r[i] == LowerChar(s[i])
  {
    seq(|s|, i requires 0 <= i < |s| => LowerChar(s[i]))
  }

  /** `c.isalnum()` on ASCII characters. */
  predicate IsAlnum(c: char) {
    ('a' <= c <= 'z') || ('A' <= c <= 'Z') || ('0' <= c <= '9')
  }

  /** `s.rfind(c)`: the last position holding `c`. */
  function RFind(s: string, c: char): (r: Option<nat>)
    ensures r.Some? ==> r.value < |s| && s[r.value] == c
    ensures r.Some? ==> forall j | r.value < j < |s| :: s[j] != c
    ensures r.None? ==> forall j | 0 <= j < |s| :: s[j] != c
    decreases |s|
  {
    if |s| == 0 then None
    else if s[|s| - 1] == c then Some(|s| - 1)
    else RFind(s[..|s| - 1], c)
  }

  /** `s.startswith(p)`. */
  predicate StartsWith(s: string, p: string) {
    |p| <= |s| && s[..|p|] == p
  }

  /** `s.endswith(p)`. */
  predicate EndsWith(s: string, p: string) {
    |p| <= |s| && s[|s| - |p|..] == p
  }

  /** `p` occurs in `s` starting at position `i`. */
  predicate OccursAt(s: string, p: string, i: nat) {
    i + |p| <= |s| && s[i..i + |p|] == p
  }

  /** The first position at or after `i` at which `p` occurs in `s`. */
  function FindFrom(s: string, p: string, i: nat): (r: Option<nat>)
    ensures r.Some? ==> i <= r.value && OccursAt(s, p, r.value)
    ensures r.Some? ==> forall j | i <= j < r.value :: !OccursAt(s, p, j)
    ensures r.None? ==> forall j | i <= j :: !OccursAt(s, p, j)
    decreases |s| - i
  {
    if i + |p| > |s| then None
    else if OccursAt(s, p, i) then Some(i)
    else FindFrom(s, p, i + 1)
  }

  /** `s.find(p)`: the first position at which `p` occurs in `s`. */
  function IndexOf(s: string, p: string): (r: Option<nat>)
    ensures r.Some? ==> OccursAt(s, p, r.value)
    ensures r.Some? ==> forall j | 0 <= j < r.value :: !OccursAt(s, p, j)
    ensures r.None? ==> forall j :: !OccursAt(s, p, j)
  {
    FindFrom(s, p, 0)
  }

  /** Python's `p in s`. */
  predicate Contains(s: string, p: string) {
    IndexOf(s, p).Some?
  }

  /** An occurrence with no earlier one is the one `IndexOf` finds. */
  lemma IndexOfIs(s: string, p: string, k: nat)
    requires OccursAt(s, p, k)
    requires forall j | 0 <= j < k :: !OccursAt(s, p, j)
    ensures IndexOf(s, p) == Some(k)
  {
  }

  /** Any occurrence makes `Contains` true. */
  lemma OccursContains(s: string, p: string, k: nat)
    requires OccursAt(s, p, k)
    ensures Contains(s, p)
  {
  }

  /** An occurrence of `p` inside a slice of `s` is an occurrence in `s`. */
  lemma ContainsSlice(s: string, a: nat, b: nat, p: string)
    requires a <= b <= |s|
    requires Contains(s[a..b], p)
    ensures Contains(s, p)
  {
    var t := s[a..b];
    var k := IndexOf(t, p).value;
    assert OccursAt(t, p, k);
    assert k + |p| <= b - a;
    forall j | 0 <= j < |p|
      ensures s[a + k + j] == p[j]
    {
      assert t[k..k + |p|][j] == t[k + j];
      assert t[k + j] == s[a + k + j];
    }
    assert s[a + k..a + k + |p|] == p;
    assert OccursAt(s, p, a + k);
    OccursContains(s, p, a + k);
  }

  /** Concatenating the string `p` after anything yields an occurrence of `p`. */
  lemma ContainsAt(a: string, p: string, b: string)
    ensures Contains(a + p + b, p)
  {
    var s := a + p + b;
    assert s[|a|..|a| + |p|] == p;
    OccursContains(s, p, |a|);
  }

  /**
   * A prefix none of whose characters can start `p` is skipped over:
   * the first occurrence in `a + b` is the first occurrence in `b`, shifted.
   */
  lemma IndexOfSkips(a: string, b: string, p: string)
    requires |p| > 0
    requires forall i | 0 <= i < |a| :: a[i] != p[0]
    ensures IndexOf(a + b, p) == (if IndexOf(b, p).Some? then Some(|a| + IndexOf(b, p).value) else None)
  {
    var s := a + b;
    forall j | 0 <= j < |a|
      ensures !OccursAt(s, p, j)
    {
      assert s[j] == a[j];
    }
    forall j | |a| <= j
      ensures OccursAt(s, p, j) <==> OccursAt(b, p, j - |a|)
    {
      if j + |p| <= |s| {
        assert s[j..j + |p|] == b[j - |a|..j - |a| + |p|];
      }
    }
    match IndexOf(b, p)
    case Some(m) =>
      IndexOfIs(s, p, |a| + m);
    case None =>
  }

  /** Python's `s.split(sep)` for a non-empty separator. */
  function Split(s: string, sep: string): (parts: seq<string>)
    requires |sep| > 0
    ensures |parts| >= 1
    decreases |s|
  {
    match IndexOf(s, sep)
    case None => [s]
    case Some(k) => [s[..k]] + Split(s[k + |sep|..], sep)
  }

  /** Python's `sep.join(parts)`. */
  function Join(parts: seq<string>, sep: string): string
    decreases |parts|
  {
    if |parts| == 0 then ""
    else if |parts| == 1 then parts[0]
    else parts[0] + sep + Join(parts[1..], sep)
  }

  /** `s.split(sep)[0]`: the text before the first separator (all of `s` if none). */
  function BeforeFirst(s: string, sep: string): (r: string)
    requires |sep| > 0
    ensures StartsWith(s, r)
    ensures !Contains(r, sep)
  {
    SplitHead(s, sep);
    Split(s, sep)[0]
  }

  /** The first piece of a split is a prefix of the input free of the separator. */
  lemma SplitHead(s: string, sep: string)
    requires |sep| > 0
    ensures StartsWith(s, Split(s, sep)[0])
    ensures !Contains(Split(s, sep)[0], sep)
  {
    match IndexOf(s, sep)
    case None =>
    case Some(k) =>
      var h := s[..k];
      assert Split(s, sep)[0] == h;
      forall j: nat | OccursAt(h, sep, j)
        ensures OccursAt(s, sep, j)
      {
        assert h[j..j + |sep|] == s[j..j + |sep|];
      }
  }

  /** No piece of a split contains the separator. */
  lemma {:induction false} SplitPartsFree(s: string, sep: string)
    requires |sep| > 0
    ensures forall k | 0 <= k < |Split(s, sep)| :: !Contains(Split(s, sep)[k], sep)
    decreases |s|
  {
    SplitHead(s, sep);
    match IndexOf(s, sep)
    case None =>
    case Some(k) =>
      SplitPartsFree(s[k + |sep|..], sep);
  }

  /** Splitting and re-joining with the same separator gives back the input. */
  lemma {:induction false} SplitJoin(s: string, sep: string)
    requires |sep| > 0
    ensures Join(Split(s, sep), sep) == s
    decreases |s|
  {
    match IndexOf(s, sep)
    case None =>
    case Some(k) =>
      var rest := s[k + |sep|..];
      SplitJoin(rest, sep);
      JoinBack(s, k, sep, Split(rest, sep));
  }

  /** The text before an occurrence of `sep` at `k`, joined with pieces that join to the rest, gives `s`. */
  lemma JoinBack(s: string, k: nat, sep: string, tail: seq<string>)
    requires OccursAt(s, sep, k) && |tail| >= 1 && Join(tail, sep) == s[k + |sep|..]
    ensures Join([s[..k]] + tail, sep) == s
  {
    JoinCons(s[..k], tail, sep);
    assert s[..k] + s[k..k + |sep|] == s[..k + |sep|];
    assert s[..k + |sep|] + s[k + |sep|..] == s;
  }

  /** Joining a piece in front of a non-empty list puts the separator between them. */
  lemma JoinCons(head: string, tail: seq<string>, sep: string)
    requires |tail| >= 1
    ensures Join([head] + tail, sep) == head + sep + Join(tail, sep)
  {
    assert ([head] + tail)[1..] == tail;
  }

  /**
   * Joining pieces that do not contain a one-character separator and
   * splitting again gives back the pieces.
   */
  lemma {:induction false} JoinSplit(parts: seq<string>, c: char)
    requires |parts| >= 1
    requires forall k | 0 <= k < |parts| :: !Contains(parts[k], [c])
    ensures Split(Join(parts, [c]), [c]) == parts
    decreases |parts|
  {
    var sep := [c];
    if |parts| > 1 {
      var p0 := parts[0];
      var tail := Join(parts[1..], sep);
      var s := Join(parts, sep);
      assert s == p0 + (sep + tail);
      NoCharMeansNoStart(p0, c);
      assert OccursAt(sep + tail, sep, 0);
      assert IndexOf(sep + tail, sep) == Some(0);
      IndexOfSkips(p0, sep + tail, sep);
      assert IndexOf(s, sep) == Some(|p0|);
      assert s[..|p0|] == p0;
      assert s[|p0| + 1..] == tail;
      JoinSplit(parts[1..], c);
      assert Split(s, sep) == [p0] + Split(tail, sep);
    }
  }

  /** A string without the one-character string `[c]` has no character `c`. */
  lemma NoCharMeansNoStart(s: string, c: char)
    requires !Contains(s, [c])
    ensures forall i | 0 <= i < |s| :: s[i] != c
  {
    forall i | 0 <= i < |s|
      ensures s[i] != c
    {
      if s[i] == c {
        assert s[i..i + 1] == [c];
        OccursContains(s, [c], i);
      }
    }
  }

  /** Python's `s.replace(pat, "")`: removes the non-overlapping occurrences scanned left to right. */
  function RemoveAll(s: string, pat: string): (r: string)
    requires |pat| > 0
    ensures |r| <= |s|
    decreases |s|
  {
    if |s| == 0 then ""
    else if StartsWith(s, pat) then RemoveAll(s[|pat|..], pat)
    else [s[0]] + RemoveAll(s[1..], pat)
  }

  /** Removing a pattern that does not occur leaves the string unchanged. */
  lemma {:induction false} RemoveAbsent(s: string, pat: string)
    requires |pat| > 0
    requires !Contains(s, pat)
    ensures RemoveAll(s, pat) == s
    decreases |s|
  {
    if |s| > 0 {
      if StartsWith(s, pat) {
        assert s[0..|pat|] == pat;
        OccursContains(s, pat, 0);
      }
      assert s[1..|s|] == s[1..];
      if Contains(s[1..], pat) {
        ContainsSlice(s, 1, |s|, pat);
      }
      RemoveAbsent(s[1..], pat);
    }
  }

  /**
   * If the last character of `s` is not whitespace and `pat` ends in
   * whitespace, removing `pat` keeps that last character, so something
   * non-blank remains.
   */
  lemma {:induction false} RemoveAllKeepsNonBlankEnd(s: string, pat: string)
    requires |pat| > 0 && IsSpace(pat[|pat| - 1])
    requires |s| > 0 && !IsSpace(s[|s| - 1])
    ensures !IsBlank(RemoveAll(s, pat))
    decreases |s|
  {
    if StartsWith(s, pat) {
      RemoveAllKeepsNonBlankEnd(s[|pat|..], pat);
    } else if |s| == 1 {
      assert RemoveAll(s[1..], pat) == "";
      assert RemoveAll(s, pat) == [s[0]];
      assert !IsSpace(RemoveAll(s, pat)[0]);
    } else {
      RemoveAllKeepsNonBlankEnd(s[1..], pat);
      var r := RemoveAll(s[1..], pat);
      assert RemoveAll(s, pat) == [s[0]] + r;
      var i :| 0 <= i < |r| && !IsSpace(r[i]);
      assert ([s[0]] + r)[i + 1] == r[i];
    }
  }

  /** The longest prefix of `s` free of whitespace. */
  function Word(s: string): (w: string)
    ensures |w| <= |s| && w == s[..|w|]
    ensures forall i | 0 <= i < |w| :: !IsSpace(w[i])
    ensures |w| < |s| ==> IsSpace(s[|w|])
    ensures |s| > 0 && !IsSpace(s[0]) ==> |w| > 0
    decreases |s|
  {
    if |s| == 0 || IsSpace(s[0]) then "" else [s[0]] + Word(s[1..])
  }

  /** A token of `s.split()`: non-empty and free of whitespace. */
  predicate IsToken(w: string) {
    |w| > 0 && forall i | 0 <= i < |w| :: !IsSpace(w[i])
  }

  /** Python's `s.split()`: the maximal whitespace-free runs, in order. */
  function Tokens(s: string): (ts: seq<string>)
    ensures forall k | 0 <= k < |ts| :: IsToken(ts[k])
    ensures |ts| == 0 <==> IsBlank(s)
    decreases |s|
  {
    var t := LStrip(s);
    LStripEmptyIffBlank(s);
    if |t| == 0 then
      []
    else
      var w := Word(t);
      assert IsToken(w);
      var rest := Tokens(t[|w|..]);
      TokensCons(w, rest);
      [w] + rest
  }

  /** A token followed by nothing or by whitespace is the first token. */
  lemma TokensHead(w: string, rest: string)
    requires IsToken(w)
    requires |rest| > 0 ==> IsSpace(rest[0])
    ensures |Tokens(w + rest)| > 0 && Tokens(w + rest)[0] == w
  {
    var s := w + rest;
    assert LStrip(s) == s;
    var v := Word(s);
    assert forall i | 0 <= i < |w| :: s[i] == w[i];
    assert |w| < |s| ==> IsSpace(s[|w|]);
    assert v == w;
  }

  /** Prepending a token to a list of tokens gives a list of tokens. */
  lemma TokensCons(w: string, rest: seq<string>)
    requires IsToken(w)
    requires forall k | 0 <= k < |rest| :: IsToken(rest[k])
    ensures forall k | 0 <= k < |[w] + rest| :: IsToken(([w] + rest)[k])
  {
  }

  /** Python's `s.count(c)` for one character. */
  function CountChar(s: string, c: char): nat
    decreases |s|
  {
    if |s| == 0 then 0 else (if s[0] == c then 1 else 0) + CountChar(s[1..], c)
  }

  /** The decimal digit for `d`. */
  function DigitChar(d: nat): (c: char)
    requires d < 10
    ensures IsDigit(c)
  {
    ('0' as int + d) as char
  }

  /** `c` is an ASCII decimal digit. */
  predicate IsDigit(c: char) {
    '0' <= c <= '9'
  }

  /** Every character of `s` is a decimal digit. */
  predicate AllDigits(s: string) {
    forall i | 0 <= i < |s| :: IsDigit(s[i])
  }

  /** Python's `str(n)` for a natural number. */
  function NatToString(n: nat): (r: string)
    ensures |r| >= 1
    ensures AllDigits(r)
    ensures r[|r| - 1] == DigitChar(n % 10)
    ensures (|r| == 1) == (n < 10)
    decreases n
  {
    if n < 10 then [DigitChar(n)] else NatToString(n / 10) + [DigitChar(n % 10)]
  }

  /** Python's `str(i)` for an integer. */
  function IntToString(i: int): string {
    if i < 0 then "-" + NatToString(-i) else NatToString(i)
  }

  /** Different numbers have different decimal spellings. */
  lemma {:induction false} NatToStringInjective(a: nat, b: nat)
    requires NatToString(a) == NatToString(b)
    ensures a == b
    decreases a
  {
    var sa, sb := NatToString(a), NatToString(b);
    assert DigitChar(a % 10) == DigitChar(b % 10);
    assert a % 10 == b % 10;
    if a >= 10 && b >= 10 {
      assert NatToString(a / 10) == sa[..|sa| - 1];
      assert NatToString(b / 10) == sb[..|sb| - 1];
      NatToStringInjective(a / 10, b / 10);
    }
  }

  /** The first occurrence of `p` in `a` stays the first occurrence in `a + t`. */
  lemma IndexOfExtend(a: string, t: string, p: string, k: nat)
    requires IndexOf(a, p) == Some(k)
    ensures IndexOf(a + t, p) == Some(k)
  {
    var s := a + t;
    assert s[k..k + |p|] == a[k..k + |p|];
    forall j | 0 <= j < k
      ensures !OccursAt(s, p, j)
    {
      assert !OccursAt(a, p, j);
      assert s[j..j + |p|] == a[j..j + |p|];
    }
    IndexOfIs(s, p, k);
  }

  /** Splitting at a one-character separator distributes over a separator in the input. */
  lemma {:induction false} SplitConcat(a: string, b: string, c: char)
    ensures Split(a + [c] + b, [c]) == Split(a, [c]) + Split(b, [c])
    decreases |a|
  {
    var sep := [c];
    var s := a + sep + b;
    assert s == a + (sep + b);
    match IndexOf(a, sep)
    case None =>
      NoCharMeansNoStart(a, c);
      assert OccursAt(sep + b, sep, 0);
      IndexOfIs(sep + b, sep, 0);
      IndexOfSkips(a, sep + b, sep);
      assert s[..|a|] == a;
      assert s[|a| + 1..] == b;
    case Some(k) =>
      IndexOfExtend(a, sep + b, sep, k);
      var rest := a[k + 1..];
      assert s[k + 1..] == rest + sep + b;
      assert s[..k] == a[..k];
      SplitConcat(rest, b, c);
      assert Split(s, sep) == [a[..k]] + Split(rest + sep + b, sep);
      assert Split(a, sep) == [a[..k]] + Split(rest, sep);
  }

  /** Removing `pat` after a prefix none of whose characters can start `pat` keeps the prefix. */
  lemma {:induction false} RemoveAllAfterFree(a: string, b: string, pat: string)
    requires |pat| > 0
    requires forall i | 0 <= i < |a| :: a[i] != pat[0]
    ensures RemoveAll(a + b, pat) == a + RemoveAll(b, pat)
    decreases |a|
  {
    if |a| > 0 {
      var s := a + b;
      assert s[0] == a[0];
      assert s[1..] == a[1..] + b;
      RemoveAllAfterFree(a[1..], b, pat);
    } else {
      assert a + b == b;
    }
  }

  /** Removing `pat` from `pat` itself leaves nothing. */
  lemma RemoveAllSelf(pat: string)
    requires |pat| > 0
    ensures RemoveAll(pat, pat) == ""
  {
    assert StartsWith(pat, pat);
    assert pat[|pat|..] == "";
  }

  /** A string none of whose characters starts `sep` splits into itself alone. */
  lemma BeforeFirstFree(s: string, sep: string)
    requires |sep| > 0
    requires forall i | 0 <= i < |s| :: s[i] != sep[0]
    ensures IndexOf(s, sep).None?
    ensures BeforeFirst(s, sep) == s
  {
    var none: string := "";
    IndexOfSkips(s, none, sep);
    assert s + none == s;
  }

  /** Text before a first separator is what precedes it. */
  lemma BeforeFirstSkip(body: string, sep: string, rest: string)
    requires |sep| > 0
    requires forall i | 0 <= i < |body| :: body[i] != sep[0]
    ensures IndexOf(body + sep + rest, sep) == Some(|body|)
    ensures BeforeFirst(body + sep + rest, sep) == body
  {
    var s := body + sep + rest;
    assert s == body + (sep + rest);
    assert OccursAt(sep + rest, sep, 0);
    IndexOfIs(sep + rest, sep, 0);
    IndexOfSkips(body, sep + rest, sep);
    assert s[..|body|] == body;
  }

  /** The second piece of a split is the text between the first two separators. */
  lemma SplitSecond(pre: string, sep: string, rest: string)
    requires |sep| > 0
    requires forall i | 0 <= i < |pre| :: pre[i] != sep[0]
    ensures |Split(pre + sep + rest, sep)| >= 2
    ensures Split(pre + sep + rest, sep)[1] == BeforeFirst(rest, sep)
  {
    var s := pre + sep + rest;
    BeforeFirstSkip(pre, sep, rest);
    assert s[|pre| + |sep|..] == rest;
  }
}

=== FILE: wrappers.dfy ===
/** Option and Result, the failure-carrying values used across the model. */
module Wrappers {

  /** A value that may be absent (Python `None`). */
  datatype Option<+T> = None | Some(value: T) {

    /** The carried value, or `default` when absent (Python `d.get(k, default)`). */
    function GetOr(default: T): T {
      match this
      case Some(v) => v
      case None => default
    }
  }

  /** The outcome of an operation that may raise: a value, or the text of the raised error. */
  datatype Result<+R, +E> = Success(value: R) | Failure(error: E) {

    predicate IsFailure() {
      Failure?
    }

    function PropagateFailure<U>(): Result<U, E>
      requires Failure?
    {
      Failure(error)
    }

    function Extract(): R
      requires Success?
    {
      value
    }
  }
}
